=== FILE: README.md ===
# Room booking core, modelled in Dafny

This project models the booking core of a university room-booking system. It covers:

- the JSON-backed calendar server and its older backup copy: room-based calendars, user and entity checks, half-open conflict scans, and the create / list / get / update / delete handlers;
- the group-based permission checker;
- the synthetic calendar service;
- the org-structure generator;
- the communications agent: the new-message cursor, organiser and recipient derivation, template choice, event dispatch, and the booking-message and e-mail helpers;
- the maintenance agent: fault thresholds, the fault log, archive-and-clear, and the maintenance counters.

Each handler is a pure function from the current store to a new store and a response. Things the Python code reads from the outside world are parameters:

- clocks (`now`, `today`) and generated ids (`freshId`);
- the date and integer parsers, which return `None` where the Python call raises;
- the regex entity extractor;
- the message send and the maintenance query.

Case folding (`lower`) and `\w` are modelled on ASCII; whitespace follows Python's `isspace()`.

One module per source component:

| module | file |
|---|---|
| `Wrappers`, `Text`, `Seqs`, `Org`, `Patterns`, `Instants` | shared helpers and records |
| `Calendar` | `calendar.dfy` |
| `CalendarServer` | `calendar_server.dfy` |
| `CalendarBackup` | `calendar_backup.dfy` |
| `SimplePermissions` | `simple_permissions.dfy` |
| `SyntheticCalendar` | `synthetic_calendar.dfy` |
| `OrgGenerator` | `org_generator.dfy` |
| `CommsUtilities` | `comms_utilities.dfy` |
| `CommsAgent` | `comms_agent.dfy` |
| `UtilEmail` | `util_email.dfy` |
| `UtilMessageParse` | `util_message_parse.dfy` |
| `Maintenance` | `maintenance.dfy` |

Parsed times are instants that are either naive or carry a UTC offset (`Instants`). Python refuses to order a naive time against an aware one, so every comparison may raise, and the model carries that case through each scan and check.

The invariant the calendar server keeps is `CalendarServer.NoOverlap`: no two timed events of one calendar overlap, using the half-open test `s1 < e2 && e1 > s2` on times Python can compare. Create, update and delete are proved to preserve it. Two events whose times Python cannot compare never count as overlapping: the scans skip such pairs, so the invariant says nothing about them.

## Model

| member | source | states |
|---|---|---|
| Instants.Lt | src/python/workshop/services/calendar_mcp_server.py:363 | `a < b` answers iff both times are naive or both aware, and then compares the instants |
| Instants.Le | src/python/workshop/services/synthetic_calendar_service.py:89 | `a <= b` answers iff both times are naive or both aware, and then compares the instants |
| Instants.AndThen | src/python/workshop/services/calendar_mcp_server.py:363 | Python's `x and y`: true iff both are; raises iff `x` raises, or `x` is true and `y` raises |
| Instants.OverlapsMeans | src/python/workshop/services/calendar_mcp_server.py:363 | the half-open test finds an overlap iff both comparisons are between comparable times and both strict orderings hold |
| Instants.OverlapsSymmetric | src/python/workshop/services/synthetic_calendar_service.py:127 | the overlap test does not depend on which interval is the new one |
| Instants.MixedNeverOverlap | src/python/workshop/services/calendar_mcp_server.py:363 | a naive interval against an aware one makes the test raise at its first comparison, so it never finds an overlap |
| Calendar.CalendarsMirrorRooms | src/python/workshop/services/calendar_mcp_server.py:86-110 | a calendar id exists iff a room with that id exists; the calendar is of kind "room" and carries the room's location (default "") and capacity (default 0) |
| Calendar.ValidateRoomExists | src/python/workshop/services/calendar_mcp_server.py:218-225 | found iff some room has exactly that id, and the room returned has it |
| Calendar.ValidateCalendarExists | src/python/workshop/services/calendar_mcp_server.py:332-340 | found iff some calendar has exactly that id, and the calendar returned has it |
| Calendar.UserIndex | src/python/workshop/services/calendar_mcp_server.py:180-197 | the three passes in order, each stopping at its first hit: the first user matching by id is chosen; with no id match, the first matching by e-mail; with neither, the first matching by name; nothing iff no user matches at all |
| Calendar.UserIndexPrefers | src/python/workshop/services/calendar_mcp_server.py:180-197 | the user chosen matches by id whenever some user does, and otherwise by e-mail whenever some user does |
| Calendar.ValidateUserExists | src/python/workshop/services/calendar_mcp_server.py:170-199 | a user is found iff the org structure is present and some user matches by numeric id, e-mail or name (case-insensitive); the first id match decides the result; with no id match, the first e-mail match; with neither, the first name match; the result is one of the org's users |
| Calendar.ValidateUserPermissions | src/python/workshop/services/calendar_mcp_server.py:227-237 | permission holds exactly when the user exists |
| Calendar.EntityEmailByKey | src/python/workshop/services/calendar_mcp_server.py:315-327 | departments take precedence over societies, and societies over courses: the result is the e-mail of the first department with the key; failing any department, of the first society; failing both, of the first course; nothing when none matches |
| Calendar.FindEntityEmail | src/python/workshop/services/calendar_mcp_server.py:302-330 | empty name or missing org gives nothing; any result is the e-mail of a department, society or course whose lower-cased name equals the lower-cased, stripped input; the first matching department decides the result, then the first society, then the first course |
| Calendar.ScanConflicts | src/python/workshop/services/calendar_mcp_server.py:342-374 | an unparsable new start or end is reported as a conflict; otherwise the conflicts are exactly the stored events with the same key, not excluded, with parsable times that compare with the new ones without raising, that overlap half-open |
| Calendar.CheckTimeConflicts | src/python/workshop/services/calendar_mcp_server.py:342-374 | a conflict is reported iff a new time does not parse, or some same-calendar, non-excluded, parsable event is comparable with the new times (both naive or both aware) and satisfies `new_start < ev_end` and `new_end > ev_start` |
| Calendar.MixedAwarenessSkipped | src/python/workshop/services/calendar_mcp_server.py:358-372 | an event whose times are naive while the new ones are aware (or the reverse) is never reported: the comparison raises and the `except` skips the event |
| Calendar.CheckRoomConflicts | src/python/workshop/services/calendar_mcp_server.py:376-409 | the same iff, keyed on the room id, comparable times included |
| Calendar.TouchingIntervalsNeverConflict | src/python/workshop/services/calendar_mcp_server.py:363 | an event ending exactly at the new start, or starting exactly at the new end, is no conflict |
| Calendar.CanUserBookForEntity | src/python/workshop/services/calendar_mcp_server.py:239-276 | as written: allowed iff the user exists, the org is present, and the role rule holds with the department read from `department_id` |
| Calendar.CanUserBookForEntityFixed | src/python/workshop/services/calendar_mcp_server.py:239-276 | corrected: the same rule with the department read from `department_id`, else from `scope_id` for department and staff roles |
| Calendar.GeneratedAdminsDeniedEverything | src/python/workshop/services/calendar_mcp_server.py:250-268 | on generated org data, the as-written rule refuses a department or staff admin every entity |
| Calendar.GeneratedAdminsBookOwnDepartment | src/shared/database/data-generator/generate_org_structure.py:92-99 | on generated org data, the corrected rule lets a department or staff admin book for the department in their `scope_id` |
| CalendarServer.CreateEvent | src/python/workshop/services/calendar_mcp_server.py:412-483 | gates in order: unknown user 404, unknown calendar 404, empty title/start/end 400, then the conflict gate: a real conflict is 409, an unparsable time 500 (the conflict message indexes the "Invalid date format" string). A failing gate leaves the store unchanged. Success holds iff every gate passes, and then exactly one event is appended: confirmed, no room id, organizer = the user's e-mail or the raw id, the sole attendee the e-mail of the entity named in the description if it has one, else the organizer; the description supplied, else ""; the calendar's name; the location supplied, else the calendar's; timed and disjoint from every stored event |
| CalendarServer.ConflictStatus | src/python/workshop/services/calendar_mcp_server.py:435-441 | a conflict gate that fires answers 500 exactly when the scan returned the "Invalid date format" marker (indexing it like an event raises), and 409 exactly when it found clashing events |
| CalendarServer.CreatePreservesNoOverlap | src/python/workshop/services/calendar_mcp_server.py:435-441 | a create keeps every calendar free of events that overlap on comparable times |
| CalendarServer.AppendKeepsNoOverlap | src/python/workshop/services/calendar_mcp_server.py:435-476 | an event disjoint from every stored one can be appended without creating an overlap |
| CalendarServer.RoomScanMissesCreatedEvents | src/python/workshop/services/calendar_mcp_server.py:376-409 | the room scan never reports an event made by `create_event`, since such events carry no room id |
| CalendarServer.RoomScanBlindOnServerEvents | src/python/workshop/services/calendar_mcp_server.py:376-409 | over events without room ids, the room scan reports a conflict iff a new time fails to parse |
| CalendarServer.ListEvents | src/python/workshop/services/calendar_mcp_server.py:486-522 | "all" (any case) lists every event; otherwise an unknown calendar is 404, and the result holds only the calendar's events and every one of them |
| CalendarServer.ListEventsAppend | src/python/workshop/services/calendar_mcp_server.py:505-508 | listing keeps store order: the answer for a store extended at the end is the old answer extended at the end |
| CalendarServer.ListEventsSingle | src/python/workshop/services/calendar_mcp_server.py:505-508 | a one-event store lists that event exactly once when it belongs to the calendar (or the calendar is "all"), else nothing; with the append lemma this fixes order and multiplicity |
| CalendarServer.GetEvent | src/python/workshop/services/calendar_mcp_server.py:817-839 | found iff some event has that id in that calendar, else 404; the event returned is the first in store order with that id and calendar |
| CalendarServer.CreateThenGet | src/python/workshop/services/calendar_mcp_server.py:412-483 | an event created under a fresh id is read back unchanged |
| CalendarServer.CreatorMayChange | src/python/workshop/services/calendar_mcp_server.py:653-672 | the user who created an event passes the organizer guard for it |
| CalendarServer.StrangerMayNotChange | src/python/workshop/services/calendar_mcp_server.py:653-672 | a user id that is neither the organizer nor a known user is refused |
| CalendarServer.Patch | src/python/workshop/services/calendar_mcp_server.py:680-696 | only supplied fields change; a supplied user id becomes organizer and sole attendee; id, calendar, room, status, creation time and history are kept |
| CalendarServer.UpdateEvent | src/python/workshop/services/calendar_mcp_server.py:633-749 | unknown id 404, calendar mismatch 400, organizer guard 403, unknown calendar 404; when a time is supplied, a real conflict with another event is 409 and an unparsable time 500; a failure leaves the store unchanged. Success holds iff every gate passes, and then the event is replaced in place by the patch plus one history entry |
| CalendarServer.UpdateKeepsIdentity | src/python/workshop/services/calendar_mcp_server.py:712-733 | an update keeps the position, id, calendar, room, status and creation time, leaves every other event alone, and appends one history entry holding the previous state |
| CalendarServer.UpdatePreservesNoOverlap | src/python/workshop/services/calendar_mcp_server.py:698-710 | with unique ids, and with the empty string not parsing as a date, an update keeps every calendar free of overlaps on comparable times |
| CalendarServer.DeleteEvent | src/python/workshop/services/calendar_mcp_server.py:752-814 | success iff the event exists in that calendar and the organizer guard passes; then the event is removed and the rest keep their order |
| CalendarServer.DeleteRemovesExactlyOne | src/python/workshop/services/calendar_mcp_server.py:797-798 | the store after a delete plus the removed event is, as a multiset, the store before |
| CalendarServer.DeleteThenGone | src/python/workshop/services/calendar_mcp_server.py:752-814 | with unique ids, a deleted event can no longer be fetched |
| CalendarServer.DeletePreservesNoOverlap | src/python/workshop/services/calendar_mcp_server.py:752-814 | a delete keeps every calendar free of overlaps |
| CalendarBackup.ValidateUserExists | src/python/workshop/services/calendar_mcp_server_backup.py:113-124 | an empty directory accepts everyone; otherwise a user is accepted iff the id is a key whose entry is non-empty |
| CalendarBackup.AcceptanceMonotone | src/python/workshop/services/calendar_mcp_server_backup.py:113-124 | adding directory entries never rejects an accepted user |
| CalendarBackup.CreateEvent | src/python/workshop/services/calendar_mcp_server_backup.py:215-271 | every request ends in a 500 and the store is left unchanged |
| SimplePermissions.CanUserBookRoomForGroup | src/python/workshop/services/simple_permissions.py:70-103 | allowed iff the five conditions hold; each failure is reported at the first failing gate, in the source's order |
| SimplePermissions.GetUserGroups | src/python/workshop/services/simple_permissions.py:105-109 | the user's memberships, or nothing for an unknown user |
| SimplePermissions.GetGroupRooms | src/python/workshop/services/simple_permissions.py:111-115 | the group's rooms, or nothing for an unknown group |
| SimplePermissions.AllowedIsListed | src/python/workshop/services/simple_permissions.py:70-115 | an allowed booking's group and room appear in the two listings |
| SimplePermissions.ListedAndKnownIsAllowed | src/python/workshop/services/simple_permissions.py:70-115 | the listings plus an existing room grant the booking |
| SimplePermissions.MissingGroupReportedAsMissing | src/python/workshop/services/simple_permissions.py:76-91 | a member of a non-existent group is told the group is missing |
| SyntheticCalendar.GetEvents | src/python/workshop/services/synthetic_calendar_service.py:73-100 | the query fails (Python raises) iff some stored event's times cannot be compared with the range, following the short-circuit of `and`; otherwise only events meeting the closed range, optionally of one room, and every such event |
| SyntheticCalendar.GetEventsAppend | src/python/workshop/services/synthetic_calendar_service.py:85-98 | the query keeps store order: on an extended store it answers the old answer extended by the answer for the new events, and fails iff either part fails |
| SyntheticCalendar.GetEventsSingle | src/python/workshop/services/synthetic_calendar_service.py:85-98 | a one-event store answers that event exactly once when it meets the range and room filter, else nothing; with the append lemma this fixes order and multiplicity |
| SyntheticCalendar.CheckRoomAvailability | src/python/workshop/services/synthetic_calendar_service.py:106-142 | an unknown room gives UnknownRoom; available iff no event of the room overlaps half-open or raises on comparison; the scan stops at the first event that does either: an overlap is reported as the conflict, a raising comparison as the error answer |
| SyntheticCalendar.MixedAwarenessFails | src/python/workshop/services/synthetic_calendar_service.py:109-141 | when the room's first event is naive and the asked window aware (or the reverse), the check answers the error, whatever the times |
| SyntheticCalendar.ScheduleEvent | src/python/workshop/services/synthetic_calendar_service.py:144-216 | scheduled iff all five fields are non-empty, both times parse and the room is available (so no event of the room overlaps or fails to compare); then exactly one event with the given data is appended; otherwise nothing changes |
| SyntheticCalendar.ScheduleKeepsRoomsDisjoint | src/python/workshop/services/synthetic_calendar_service.py:176-197 | scheduling keeps every room free of overlaps on comparable times |
| SyntheticCalendar.TouchingListedButNotBlocking | src/python/workshop/services/synthetic_calendar_service.py:85-139 | with comparable times, an event ending exactly at the window start is listed by the range query but does not make the room busy |
| OrgGenerator.MakeEmail | src/shared/database/data-generator/generate_org_structure.py:34-36 | every mailing-list address ends in the domain |
| OrgGenerator.GenerateEntities | src/shared/database/data-generator/generate_org_structure.py:55-86 | departments numbered 1..2; courses and societies numbered consecutively, three per department, each owned by the department it was made in |
| OrgGenerator.GenerateAdmins | src/shared/database/data-generator/generate_org_structure.py:92-99 | per department, two "department" then two "staff" users scoped to it, ids consecutive from the counter, none with `department_id` |
| OrgGenerator.GenerateOfficers | src/shared/database/data-generator/generate_org_structure.py:101-103 | one "society_officer" per society, scoped to it, ids consecutive from the counter |
| OrgGenerator.GenerateUsers | src/shared/database/data-generator/generate_org_structure.py:39-49 | the counter runs from 1 through both loops: user i has id i+1, and admins precede officers |
| OrgGenerator.Generate | src/shared/database/data-generator/generate_org_structure.py:55-114 | 2 departments, 6 courses, 6 societies, 14 users, and the generated shape (no user has `department_id`) |
| CommsUtilities.FetchPage | deploy/communications-agent/utilities.py:143 | the page is the newest 50 messages of the thread |
| CommsUtilities.TakeUntil | deploy/communications-agent/utilities.py:153-157 | the longest prefix without the cursor id; when it stops early, the next message has the cursor id |
| CommsUtilities.NewMessages | deploy/communications-agent/utilities.py:139-163 | an empty page gives nothing; no cursor gives the newest message alone; otherwise the prefix up to the cursor, or the whole page when the cursor is absent |
| CommsUtilities.NewMessagesExact | deploy/communications-agent/utilities.py:139-163 | with fewer than a page of new messages, exactly those are reported, newest first |
| CommsUtilities.OverflowDropsOlderNews | deploy/communications-agent/utilities.py:143 | with more than a page of new messages, only the newest 50 are reported |
| CommsUtilities.FindUserById | deploy/communications-agent/utilities.py:183-192 | the first user whose `user_id` is exactly the id, or nothing iff there is none |
| CommsUtilities.FindUserByEmail | deploy/communications-agent/utilities.py:194-203 | the first user whose e-mail matches case-insensitively, or nothing iff there is none |
| CommsAgent.ProcessBatch | deploy/communications-agent/main.py:135-170 | a batch is handled oldest first, and the cursor ends on the newest message (unchanged for an empty batch) |
| CommsAgent.PollReachesNewest | deploy/communications-agent/main.py:131-170 | after a poll, the cursor names the newest message of the page |
| CommsAgent.RepollIsEmpty | deploy/communications-agent/utilities.py:152-163 | polling again from the newest message reports nothing |
| CommsAgent.OrganiserName | deploy/communications-agent/main.py:200-201 | the stripped text before the first `(`, which contains no `(` |
| CommsAgent.UserEmailByName | deploy/communications-agent/main.py:203-206 | the e-mail of the first user whose name matches case-insensitively (the loop breaks there); absent when no user matches |
| CommsAgent.Organiser | deploy/communications-agent/main.py:190-207 | an address-shaped field is both name and e-mail; otherwise the e-mail is that of the first user with that name (case-insensitive), or absent when no user has it |
| CommsAgent.Affiliation | deploy/communications-agent/main.py:208-211 | the `society: ` tag wins over the `course: ` tag; the tag is stripped and has no `)` |
| CommsAgent.TruthyValues | deploy/communications-agent/main.py:220-225 | exactly the non-empty strings of the list |
| CommsAgent.CandidatesFrom | deploy/communications-agent/main.py:213-236 | an address is collected iff it comes from the organiser, the attendee e-mail, the attendee list, or (with no attendee e-mail) a course or society named by the tag |
| CommsAgent.Recipients | deploy/communications-agent/main.py:213-245 | the recipient list is strictly sorted, duplicate-free, and holds exactly the addresses of the four sources |
| CommsAgent.AddressOrganiserNotified | deploy/communications-agent/main.py:194-216 | an address-shaped organiser is always a recipient |
| CommsAgent.AttendeeEmailSuppressesTag | deploy/communications-agent/main.py:226-236 | with an attendee e-mail present, no course or society address is added because of the tag |
| CommsAgent.TemplateFor | deploy/communications-agent/main.py:257-266 | updated, cancelled (both spellings) and rescheduled map to their templates; everything else gets the created one |
| CommsAgent.CreatedTemplateFallback | deploy/communications-agent/main.py:257-266 | the created template goes to `event_created` and to every type outside the five e-mail events |
| CommsAgent.Interpret | deploy/communications-agent/main.py:307-353 | exactly the five e-mail event types notify, with the template chosen and the recipients derived; the mail is sent iff the list is non-empty; "initialized" and "reminder" are logged; non-objects do nothing |
| CommsAgent.SentIffRecipients | deploy/communications-agent/main.py:299-305 | a sent mail's first address is a recipient, and any recipient of an e-mail event makes the mail go out |
| Patterns.Run | deploy/communications-agent/main.py:200 | a greedy run: every character in it matches the class, and the next one does not |
| Patterns.CaptureAt | deploy/communications-agent/main.py:209-210 | `prefix(p+)` matches at a position iff the prefix occurs there followed by a class character; the group is the maximal run |
| Patterns.LeftmostFrom | deploy/communications-agent/main.py:209-210 | the leftmost position of a range where a match starts, and none iff no position of the range matches |
| Patterns.SearchFrom | deploy/communications-agent/main.py:209-210 | the leftmost position where the pattern matches, or none iff it matches nowhere |
| Patterns.Search | deploy/communications-agent/util_message_parse.py:10 | `re.search(...).group(1)` at the leftmost match, none iff no match |
| UtilMessageParse.MembersAt | deploy/communications-agent/util_message_parse.py:13 | a match of `members? of [\w .-]+: (.+)` at a position gives a non-empty group without newlines |
| UtilMessageParse.MembersAtMeans | deploy/communications-agent/util_message_parse.py:13 | the pattern matches at a position iff the text there has its shape (`member`, an optional `s`, ` of `, a non-empty class run, `: `, a character of the line); the group is then the rest of the line, up to the next newline or the end |
| UtilMessageParse.MembersShapeDetermined | deploy/communications-agent/util_message_parse.py:13 | at a given position the shape is unique: the `s` is taken when present and the class run is the greedy one |
| UtilMessageParse.ShapeGivesLine | deploy/communications-agent/util_message_parse.py:13 | where the shape is present, the match is found and its group is the rest of the line |
| UtilMessageParse.SearchMembers | deploy/communications-agent/util_message_parse.py:13 | the leftmost position where the attendee pattern matches |
| UtilMessageParse.AttendeeNames | deploy/communications-agent/util_message_parse.py:15-16 | one stripped name per comma-separated piece |
| UtilMessageParse.ParseBookingMessage | deploy/communications-agent/util_message_parse.py:3-19 | an organiser is found iff `booked by [\w .-]+` matches somewhere, and it is the stripped run; the attendee list is empty iff the attendee pattern matches nowhere, else one name per comma piece of the group |
| UtilMessageParse.AttendeeNamesOfJoinStripped | deploy/communications-agent/util_message_parse.py:15-16 | comma-free names joined by commas are read back each stripped of surrounding whitespace |
| UtilMessageParse.AttendeeNamesOfJoin | deploy/communications-agent/util_message_parse.py:15-16 | comma-free names without surrounding spaces, joined by commas, are read back exactly |
| UtilMessageParse.CutAtGroup | deploy/communications-agent/util_message_parse.py:10 | the organiser run cut before its first ` for member`: a prefix containing no ` for member`, the whole run iff it has none, and otherwise followed by one |
| UtilMessageParse.ParseBookingMessageFixed | deploy/communications-agent/util_message_parse.py:3-19 | corrected: the same attendees and the same presence of an organiser as the original, an organiser without ` for member`, and the original answer whenever the run had none |
| UtilMessageParse.OrganiserRunOfBooking | deploy/communications-agent/util_message_parse.py:10 | on a well-formed notice `booked by <name> for members of <group>: ...` behind any lead that contains neither `booked by ` nor `member` (such as `Event `), the organiser pattern captures `<name> for members of <group>` |
| UtilMessageParse.MembersAtClause | deploy/communications-agent/util_message_parse.py:13 | at the attendee clause of a well-formed notice, behind any lead, the attendee pattern matches and its group is the comma-joined attendee text |
| UtilMessageParse.SearchMembersOfBooking | deploy/communications-agent/util_message_parse.py:13 | the attendee search of a well-formed notice behind a lead without `booked by ` or `member` stops at that clause, not earlier |
| UtilMessageParse.OrganiserSwallowsGroup | deploy/communications-agent/util_message_parse.py:10-16 | as written: a well-formed notice behind a lead without `booked by ` or `member` parses to the organiser `<name> for members of <group>` and its attendees, each stripped of surrounding spaces |
| UtilMessageParse.CutAtGroupOfBooking | deploy/communications-agent/util_message_parse.py:10 | the cut of that run is exactly the organiser's name |
| UtilMessageParse.ParseFixedReadsNotice | deploy/communications-agent/util_message_parse.py:3-19 | corrected: a well-formed notice behind a lead without `booked by ` or `member` parses to its organiser's name and its attendees, each stripped of surrounding spaces |
| UtilMessageParse.ParseFixedRoundTrip | deploy/communications-agent/util_message_parse.py:3-19 | corrected: such a notice whose attendee names carry no surrounding spaces parses back to exactly its organiser's name and its attendees |
| UtilEmail.GetEmailByName | deploy/communications-agent/util_email.py:8-17 | the e-mail of the first member whose name matches case-insensitively, whichever later members also match; nothing without a match or a member list |
| UtilEmail.GetEmailsByNames | deploy/communications-agent/util_email.py:19-25 | only non-empty looked-up e-mails, at most one per name, all of them when every lookup is non-empty |
| UtilEmail.EmailsByNamesAppend | deploy/communications-agent/util_email.py:19-25 | the lookup works name by name, in order |
| UtilEmail.EmailsOfOneName | deploy/communications-agent/util_email.py:19-25 | a single name yields its e-mail iff that is non-empty |
| Maintenance.TemperatureFault | deploy/maintenance-agent/main.py:133-152 | server and technical rooms: a Critical fault iff above 25; other rooms: a fault iff above 26 or below 16, High iff above 28 or below 14 |
| Maintenance.HumidityFault | deploy/maintenance-agent/main.py:154-160 | one Medium fault iff humidity is outside 30-60 |
| Maintenance.OverdueFault | deploy/maintenance-agent/main.py:171-180 | an unparsable date aborts the check; a fault iff more than 90 days have passed, reporting the days beyond 90 |
| Maintenance.CheckRoomFaults | deploy/maintenance-agent/main.py:130-182 | aborted iff the last-maintenance date does not parse; otherwise at most four faults, each with the type and severity its rule assigns, reporting the room's own readings, strictly in check order (temperature, humidity, attention, overdue), so at most one per check |
| Maintenance.SlotsRanked | deploy/maintenance-agent/main.py:133-180 | the four optional slots laid out in check order give a strictly ranked list |
| Maintenance.SlotsSound | deploy/maintenance-agent/main.py:130-182 | once the date check passes, the four check slots hold at most four faults, classified by their rules, carrying the room's readings, in check order |
| Maintenance.BareRoomHasNoFaults | deploy/maintenance-agent/main.py:130-182 | a room with no readings, kind, status or maintenance date gets no fault: the defaults 20 degrees, 50 percent and "office" sit inside every band |
| Maintenance.RulesFire | deploy/maintenance-agent/main.py:130-182 | each rule fires exactly when its threshold is crossed, with defaults 20 degrees, 50 percent and "office" standing in for missing readings |
| Maintenance.CriticalOnlyForHotTechnicalRooms | deploy/maintenance-agent/main.py:136-144 | a Critical fault appears iff the room is a server room or technical room above 25 degrees |
| Maintenance.TechnicalRoomsHaveNoLowBound | deploy/maintenance-agent/main.py:136-145 | a technical room never gets the band fault, however cold it is |
| Maintenance.PostSucceeded | deploy/maintenance-agent/main.py:200-224 | a send that returns is a success; a send that raises counts as a success iff its lower-cased text contains both "threadmessage" and "await" |
| Maintenance.PostFaultAsWritten | deploy/maintenance-agent/main.py:226-238 | as written: exactly one entry is appended, for this room, fault and time, recording the send outcome and never an error text |
| Maintenance.PostFault | deploy/maintenance-agent/main.py:226-238 | corrected: exactly one entry is appended, nothing else changes, and the error text is recorded iff the post failed |
| Maintenance.FailedPostLosesError | deploy/maintenance-agent/main.py:235 | for a failed send, the as-written entry has no error text while the corrected one has it |
| Maintenance.SdkWarningCountsAsPosted | deploy/maintenance-agent/main.py:212-219 | the SDK's "ThreadMessage was never awaited" warning counts as posted, in the as-written and the corrected log append alike |
| Maintenance.PostAll | deploy/maintenance-agent/main.py:241-253 | the monitor's loop over a room's faults, with the as-written append: one entry per fault, in that order, each under the time read for its own post, recording the outcome of its own send (the send is indexed by post number) and no error text |
| Maintenance.ArchiveAndClear | deploy/maintenance-agent/main.py:298-319 | each non-empty list is archived, and afterwards both lists are empty |
| Maintenance.ClearedRecordsAreArchived | deploy/maintenance-agent/main.py:303-310 | every fault record cleared is in an archive |
| Maintenance.ArchiveAndClearIdempotent | deploy/maintenance-agent/main.py:298-319 | clearing again changes nothing and archives nothing |
| Maintenance.CountOverdue | deploy/maintenance-agent/main.py:324-334 | the count never exceeds the list length; zero iff no item is overdue, and full iff every item is; an item is overdue iff it is not cancelled and its start parses to an instant that compares as earlier than the aware UTC clock, so a missing, unparsable or naive start (whose comparison raises `TypeError`, swallowed by the `except`) is skipped |
| Maintenance.OverdueItems | deploy/maintenance-agent/main.py:328-334 | exactly the overdue items |
| Maintenance.CountIsOverdueItems | deploy/maintenance-agent/main.py:328-334 | the count equals the number of overdue items |
| Maintenance.ComputeCounters | deploy/maintenance-agent/main.py:321-335 | the total is the number of items over all rooms; overdue is the count of overdue items among them (starts compared with the aware clock `datetime.now(timezone.utc)`, naive ones skipped), and never exceeds the total |
| Maintenance.CancelledNeverOverdue | deploy/maintenance-agent/main.py:329 | cancelled items are never counted overdue |
| Maintenance.NaiveStartNeverOverdue | deploy/maintenance-agent/main.py:324-334 | when every start that parses is naive, nothing is counted overdue: comparing it with the aware clock raises and the `except` skips it |
| Maintenance.AwareStartCounts | deploy/maintenance-agent/main.py:329-332 | an item whose start parses to an aware instant is overdue iff it is not cancelled and that instant is before the clock |
| Text.SplitJoin | deploy/communications-agent/util_message_parse.py:16 | joining the pieces of a split gives back the string |
| Text.JoinSplit | deploy/communications-agent/util_message_parse.py:16 | splitting a join of separator-free pieces gives back the pieces |
| Text.SortedDistinct | deploy/communications-agent/main.py:245 | `sorted(set(...))`: strictly sorted, with exactly the input's elements |

## Left out

- File and database I/O, HTTP framing, Azure agent calls, e-mail transport, logging and printing are not modelled. Handlers take the store as input and return the new store.
- Concurrency is left out: the monitor loop's sleeping and polling, and the async handlers, which are treated as atomic.
- Python's Unicode `lower()` and `\w` are modelled on ASCII only. Whitespace (`strip()`, `\s`) follows Python's full `isspace()` set.
- Date parsing (`dateutil`, `fromisoformat`, `strptime`) and `int()` are function parameters; which strings parse, and to what, is not modelled. The calendar servers' `dateutil` parses and the maintenance counters' `isoparse` yield an instant plus whether it carries a UTC offset, since they are compared with each other or with the aware clock `datetime.now(timezone.utc)`. The maintenance-date `strptime` yields a naive date that is compared only with the naive `datetime.now()`, so it is a plain day number.
- `extract_entity_from_description` is a parameter of the create handler. Its regular expressions are not modelled.
- JSON null where a string or number is expected is not modelled. In the source such values raise `TypeError` or `AttributeError`, which the handlers turn into 500 responses. The model reads a missing value as the documented default.
- `KeyError`s on records lacking required keys (a room without `id`, a user without `name`) are not modelled; missing keys are read as `None`.
- The 500 responses of the calendar server's generic `except` are modelled only for an unparsable time at the create and update conflict gates (`ServerError`); other exceptions are not modelled.
- Calendar.CheckTimeConflicts: `events_data` entries without `start_time` or `end_time` are not modelled; every event carries both strings.
- The e-mail subject and body formatting, the template file read and the `attendee_list` display string are left out. `CommsAgent.Interpret` returns the chosen template and the recipient list instead.
- CommsAgent.Recipients: a course or society with a null e-mail contributes nothing. In the source `None` joins the recipient set. Next to any address, the `sorted` at main.py:245 then raises and no mail goes out. As the only recipient it gives the list `[None]`, and `send_email` is called with it.
- CommsAgent.Interpret: a null entry in `attendees` is skipped and the mail still goes to the other recipients. In the source the display list at main.py:238 sorts that `None` together with a string, which raises, so no mail is sent; the `except` at main.py:351 only logs the error.
- The generator's Faker names, person e-mails and `slugify` are parameters. Only the id, scope and ownership structure is modelled.
- Maintenance.CheckRoomFaults: fault descriptions are structured findings rather than formatted text. Temperatures and humidities are reals.
- Maintenance.OverdueFault: dates are day numbers, so `(now - last).days` is `today - day`. This assumes the clock's day is `today`.
- Maintenance.ComputeCounters: `get_maintenance` is a parameter. The only implementation in the repository returns an empty list, which makes both counters 0.
- `check_system_health`, `monitor_rooms`' printing, `run_agent` and `load_rooms`' SQL fallback are I/O orchestration. They are not modelled.
- CalendarBackup.CreateEvent: only its effect on the store and the status code are stated. The handler first calls two functions the file never defines, so it can do nothing else.
- The synthetic service's `generate_synthetic_data` uses randomness to build fixtures and is not modelled.
- Soft delete and cancellation statuses, and a start-before-end check, are described for the system but do not exist in the code. The model follows the code: delete removes the event, and no ordering of start and end is enforced.
- CalendarServer.UpdatePreservesNoOverlap: the proof assumes unique event ids and that the empty string does not parse as a date. Without unique ids, the update's self-exclusion also skips other events with the same id.

## Findings

| source | as written | input that shows it | evidently intended | confidence | as-written member | corrected member |
|---|---|---|---|---|---|---|
| src/python/workshop/services/calendar_mcp_server.py:250 | the department of a department or staff user is read only from `department_id`, which generated users never carry (generate_org_structure.py:42-48) | a generated department admin with `scope_id` 1 asks to book for department 1 | such users book for the department in their `scope_id`, and for its courses and societies | not executed | Calendar.CanUserBookForEntity (Calendar.GeneratedAdminsDeniedEverything) | Calendar.CanUserBookForEntityFixed (Calendar.GeneratedAdminsBookOwnDepartment) |
| deploy/maintenance-agent/main.py:235 | the error text is taken only `if 'e' in locals()`, after the `except ... as e` clause, which unbinds `e` on exit, so it is always `None` | a send that raises "timeout" | a failed post records the exception text in `error_message` | not executed | Maintenance.PostFaultAsWritten (Maintenance.FailedPostLosesError) | Maintenance.PostFault |
| deploy/communications-agent/util_message_parse.py:10 | the organiser group `[\w .-]+` includes the space, so it runs on through ` for members of <group>` up to the `:` | the docstring's own "Event booked by John Doe for members of the UCL AI Society: Alice Smith, Bob Lee, Carol Jones" gives the organiser "John Doe for members of the UCL AI Society" | the organiser stops before ` for members of`, as in the example message at util_message_parse.py:9 | not executed | UtilMessageParse.ParseBookingMessage (UtilMessageParse.OrganiserSwallowsGroup) | UtilMessageParse.ParseBookingMessageFixed (UtilMessageParse.ParseFixedReadsNotice) |

=== FILE: calendar.dfy ===
/**
 * The JSON-backed calendar server's data and its pure checks: the room list,
 * the room-based calendars built from it, the event list, user lookup in the
 * org structure, entity e-mail lookup, the half-open conflict scans, and the
 * role-scoped entity booking rule.
 *
 * Module-level state of the server (`rooms_data`, `calendars_data`,
 * `events_data`, the org structure file) is passed in explicitly. The date
 * parser (`dateutil.parser.parse`) and `int()` are parameters returning
 * `None` where the Python call raises; a parsed time records whether it is
 * offset-aware, since ordering a naive against an aware time raises.
 */
module Calendar {
  import opened Wrappers
  import opened Text
  import opened Seqs
  import opened Org
  import opened Instants
  import OrgGenerator

  datatype Room = Room(id: string, name: Option<string>, location: Option<string>, capacity: Option<int>)

  /** A room-based calendar, as `load_calendars` builds it. */
  datatype CalendarInfo = CalendarInfo(id: string, name: string, kind: string, location: string, capacity: int)

  /** The previous state recorded in a modification-history entry. */
  datatype Snapshot = Snapshot(
    title: string, start: string, end: string,
    location: string, description: string, organizer: string)

  datatype HistoryEntry = HistoryEntry(modifiedAt: string, previous: Snapshot, modifiedBy: string)

  /**
   * A stored event. `calendarId` / `roomId` are `None` when the record has no
   * such key: events created by this server carry a calendar id and no room id.
   */
  datatype Event = Event(
    id: string,
    calendarId: Option<string>,
    roomId: Option<string>,
    calendarName: string,
    title: string,
    start: string,
    end: string,
    organizer: string,
    location: string,
    description: string,
    createdAt: string,
    attendees: seq<string>,
    status: string,
    modifiedAt: Option<string>,
    history: seq<HistoryEntry>)

  /** Parsers the server calls: `dateutil.parser.parse` and `int()`; `None` where they raise. */
  datatype Parsers = Parsers(time: string -> Option<Instant>, integer: string -> Option<int>)

  // ------------------------------------------------------------ calendars

  /** `load_calendars`: one calendar per room, with the same id. */
  function LoadCalendars(rooms: seq<Room>): (cals: seq<CalendarInfo>)
    ensures |cals| == |rooms|
  {
    seq(|rooms|, i requires 0 <= i < |rooms| =>
      CalendarInfo(
        rooms[i].id,
        rooms[i].name.GetOr("Room " + rooms[i].id),
        "room",
        rooms[i].location.GetOr(""),
        rooms[i].capacity.GetOr(0)))
  }

  /** `validate_room_exists`: the first room with exactly this id. */
  function ValidateRoomExists(rooms: seq<Room>, roomId: string): (r: Option<Room>)
    ensures r.Some? <==> exists i :: 0 <= i < |rooms| && rooms[i].id == roomId
    ensures r.Some? ==> r.value.id == roomId && r.value in rooms
  {
    First(rooms, (room: Room) => room.id == roomId)
  }

  /** `validate_calendar_exists`: the first calendar with exactly this id. */
  function ValidateCalendarExists(cals: seq<CalendarInfo>, calendarId: string): (r: Option<CalendarInfo>)
    ensures r.Some? <==> exists i :: 0 <= i < |cals| && cals[i].id == calendarId
    ensures r.Some? ==> r.value.id == calendarId && r.value in cals
  {
    First(cals, (c: CalendarInfo) => c.id == calendarId)
  }

  /** Every room is a calendar and every calendar is a room, and the room's location and capacity carry over. */
  lemma CalendarsMirrorRooms(rooms: seq<Room>, id: string)
    ensures ValidateCalendarExists(LoadCalendars(rooms), id).Some? <==> ValidateRoomExists(rooms, id).Some?
    ensures ValidateCalendarExists(LoadCalendars(rooms), id).Some? ==>
      var c := ValidateCalendarExists(LoadCalendars(rooms), id).value;
      var r := ValidateRoomExists(rooms, id).value;
      c.kind == "room" && c.location == r.location.GetOr("") && c.capacity == r.capacity.GetOr(0)
  {
    var cals := LoadCalendars(rooms);
    var kc := FirstIndex(cals, (c: CalendarInfo) => c.id == id);
    var kr := FirstIndex(rooms, (room: Room) => room.id == id);
    assert forall i :: 0 <= i < |rooms| ==> cals[i].id == rooms[i].id;
    if kc.Some? {
      assert rooms[kc.value].id == id;
      assert kr.Some? && kr.value == kc.value;
    }
  }

  // ----------------------------------------------------------------- users

  /** The three ways `validate_user_exists` recognises a user: numeric id, e-mail or name, both case-insensitively. */
  predicate MatchesById(u: User, userId: string, parse: Parsers) {
    parse.integer(userId) == Some(u.id)
  }

  predicate MatchesByEmail(u: User, userId: string) {
    EqualsIgnoreCase(u.email.GetOr(""), userId)
  }

  predicate MatchesByName(u: User, userId: string) {
    EqualsIgnoreCase(u.name.GetOr(""), userId)
  }

  /** `users[i]` is the first user the id pass hits. */
  predicate FirstById(users: seq<User>, i: int, userId: string, parse: Parsers) {
    0 <= i < |users| && MatchesById(users[i], userId, parse) &&
    forall j :: 0 <= j < i ==> !MatchesById(users[j], userId, parse)
  }

  /** `users[i]` is the first user the e-mail pass hits. */
  predicate FirstByEmail(users: seq<User>, i: int, userId: string) {
    0 <= i < |users| && MatchesByEmail(users[i], userId) &&
    forall j :: 0 <= j < i ==> !MatchesByEmail(users[j], userId)
  }

  /** `users[i]` is the first user the name pass hits. */
  predicate FirstByName(users: seq<User>, i: int, userId: string) {
    0 <= i < |users| && MatchesByName(users[i], userId) &&
    forall j :: 0 <= j < i ==> !MatchesByName(users[j], userId)
  }

  /**
   * The position `validate_user_exists` stops at in the user list: the id
   * pass, then the e-mail pass, then the name pass, each returning at its
   * first hit. When `int(user_id)` raises, the id pass is skipped, which is
   * the same as an id pass that matches nobody.
   */
  function UserIndex(users: seq<User>, userId: string, parse: Parsers): (r: Option<nat>)
    ensures r.Some? ==> r.value < |users|
    ensures r.Some? ==>
      MatchesById(users[r.value], userId, parse) || MatchesByEmail(users[r.value], userId) || MatchesByName(users[r.value], userId)
    ensures r.None? <==> forall i :: 0 <= i < |users| ==>
      !MatchesById(users[i], userId, parse) && !MatchesByEmail(users[i], userId) && !MatchesByName(users[i], userId)
    ensures forall i :: FirstById(users, i, userId, parse) ==> r == Some(i)
    ensures (forall i :: 0 <= i < |users| ==> !MatchesById(users[i], userId, parse)) ==>
      forall i :: FirstByEmail(users, i, userId) ==> r == Some(i)
    ensures (forall i :: 0 <= i < |users| ==> !MatchesById(users[i], userId, parse) && !MatchesByEmail(users[i], userId)) ==>
      forall i :: FirstByName(users, i, userId) ==> r == Some(i)
  {
    FirstInPasses(users, (u: User) => MatchesById(u, userId, parse),
                  (u: User) => MatchesByEmail(u, userId), (u: User) => MatchesByName(u, userId))
  }

  /**
   * `validate_user_exists` (calendar server): with the org structure present,
   * the first user whose id equals `int(user_id)`; failing that the first
   * whose e-mail matches; failing that the first whose name matches.
   */
  function ValidateUserExists(org: Option<OrgStructure>, userId: string, parse: Parsers): (r: Option<User>)
    ensures r.Some? <==>
      (org.Some? && exists i :: 0 <= i < |org.value.users| &&
                      (MatchesById(org.value.users[i], userId, parse) || MatchesByEmail(org.value.users[i], userId) ||
                       MatchesByName(org.value.users[i], userId)))
    ensures r.Some? ==> r.value in org.value.users
    ensures r.Some? ==> MatchesById(r.value, userId, parse) || MatchesByEmail(r.value, userId) || MatchesByName(r.value, userId)
    ensures r.Some? && (exists u :: u in org.value.users && MatchesById(u, userId, parse)) ==> MatchesById(r.value, userId, parse)
    ensures (r.Some? && !(exists u :: u in org.value.users && MatchesById(u, userId, parse)) &&
             (exists u :: u in org.value.users && MatchesByEmail(u, userId)))
            ==> MatchesByEmail(r.value, userId)
    ensures org.Some? ==>
      forall i :: FirstById(org.value.users, i, userId, parse) ==> r == Some(org.value.users[i])
    ensures org.Some? && (forall i :: 0 <= i < |org.value.users| ==> !MatchesById(org.value.users[i], userId, parse)) ==>
      forall i :: FirstByEmail(org.value.users, i, userId) ==> r == Some(org.value.users[i])
    ensures org.Some? && (forall i :: 0 <= i < |org.value.users| ==>
                            !MatchesById(org.value.users[i], userId, parse) && !MatchesByEmail(org.value.users[i], userId)) ==>
      forall i :: FirstByName(org.value.users, i, userId) ==> r == Some(org.value.users[i])
  {
    if org.None? then None
    else
      var k := UserIndex(org.value.users, userId, parse);
      UserIndexPrefers(org.value.users, userId, parse);
      if k.Some? then Some(org.value.users[k.value]) else None
  }

  /** The user found matches by id whenever some user does, and otherwise by e-mail whenever some user does. */
  lemma UserIndexPrefers(users: seq<User>, userId: string, parse: Parsers)
    ensures (exists u :: u in users && MatchesById(u, userId, parse)) ==>
      UserIndex(users, userId, parse).Some? && MatchesById(users[UserIndex(users, userId, parse).value], userId, parse)
    ensures !(exists u :: u in users && MatchesById(u, userId, parse)) && (exists u :: u in users && MatchesByEmail(u, userId)) ==>
      UserIndex(users, userId, parse).Some? && MatchesByEmail(users[UserIndex(users, userId, parse).value], userId)
  {
    if exists u :: u in users && MatchesById(u, userId, parse) {
      var f := FirstIndex(users, (u: User) => MatchesById(u, userId, parse));
      assert FirstById(users, f.value, userId, parse);
    } else if exists u :: u in users && MatchesByEmail(u, userId) {
      var f := FirstIndex(users, (u: User) => MatchesByEmail(u, userId));
      assert FirstByEmail(users, f.value, userId);
    }
  }

  /** `validate_user_permissions`: passes exactly when the user exists. */
  function ValidateUserPermissions(org: Option<OrgStructure>, userId: string, parse: Parsers): (r: bool)
    ensures r <==> ValidateUserExists(org, userId, parse).Some?
  {
    ValidateUserExists(org, userId, parse).Some?
  }

  // --------------------------------------------------------- entity e-mail

  /**
   * The lookup of `find_entity_email` once the name is normalised: every
   * department, then every society, then every course whose lower-cased name
   * equals `key`; the e-mail of the first hit (which may itself be absent).
   */
  function EntityEmailByKey(o: OrgStructure, key: string): (r: Option<string>)
    ensures r.Some? ==>
      || (exists d :: d in o.departments && Lower(d.name) == key && d.email == r)
      || (exists s :: s in o.societies && Lower(s.name) == key && s.email == r)
      || (exists c :: c in o.courses && Lower(c.name) == key && c.email == r)
    ensures forall i :: 0 <= i < |o.departments| && Lower(o.departments[i].name) == key &&
                        (forall j :: 0 <= j < i ==> Lower(o.departments[j].name) != key)
                        ==> r == o.departments[i].email
    ensures (forall d :: d in o.departments ==> Lower(d.name) != key) ==>
      forall i :: 0 <= i < |o.societies| && Lower(o.societies[i].name) == key &&
                  (forall j :: 0 <= j < i ==> Lower(o.societies[j].name) != key)
                  ==> r == o.societies[i].email
    ensures (forall d :: d in o.departments ==> Lower(d.name) != key) &&
            (forall s :: s in o.societies ==> Lower(s.name) != key) ==>
      forall i :: 0 <= i < |o.courses| && Lower(o.courses[i].name) == key &&
                  (forall j :: 0 <= j < i ==> Lower(o.courses[j].name) != key)
                  ==> r == o.courses[i].email
    ensures (forall d :: d in o.departments ==> Lower(d.name) != key) &&
            (forall s :: s in o.societies ==> Lower(s.name) != key) &&
            (forall c :: c in o.courses ==> Lower(c.name) != key)
            ==> r.None?
  {
    var d := FirstIndex(o.departments, (d: Department) => Lower(d.name) == key);
    if d.Some? then o.departments[d.value].email
    else
      var s := FirstIndex(o.societies, (s: Society) => Lower(s.name) == key);
      if s.Some? then o.societies[s.value].email
      else
        var c := FirstIndex(o.courses, (c: Course) => Lower(c.name) == key);
        if c.Some? then o.courses[c.value].email else None
  }

  /**
   * `find_entity_email`: nothing for an empty name or a missing org
   * structure; otherwise the lookup under the lower-cased, then stripped,
   * name, departments first, then societies, then courses.
   */
  function FindEntityEmail(org: Option<OrgStructure>, entityName: string): (r: Option<string>)
    ensures |entityName| == 0 || org.None? ==> r.None?
    ensures r.Some? ==>
      && org.Some?
      && (|| (exists d :: d in org.value.departments && Lower(d.name) == Strip(Lower(entityName)) && d.email == r)
          || (exists s :: s in org.value.societies && Lower(s.name) == Strip(Lower(entityName)) && s.email == r)
          || (exists c :: c in org.value.courses && Lower(c.name) == Strip(Lower(entityName)) && c.email == r))
    ensures org.Some? && |entityName| > 0 &&
      (exists d :: d in org.value.departments && Lower(d.name) == Strip(Lower(entityName)) && d.email.Some?) &&
      (forall d :: d in org.value.departments && Lower(d.name) == Strip(Lower(entityName)) ==> d.email.Some?)
      ==> r.Some?
    ensures org.Some? && |entityName| > 0 ==>
      var ds, key := org.value.departments, Strip(Lower(entityName));
      forall i :: 0 <= i < |ds| && Lower(ds[i].name) == key && (forall j :: 0 <= j < i ==> Lower(ds[j].name) != key)
                  ==> r == ds[i].email
    ensures org.Some? && |entityName| > 0 &&
            (forall d :: d in org.value.departments ==> Lower(d.name) != Strip(Lower(entityName))) ==>
      var ss, key := org.value.societies, Strip(Lower(entityName));
      forall i :: 0 <= i < |ss| && Lower(ss[i].name) == key && (forall j :: 0 <= j < i ==> Lower(ss[j].name) != key)
                  ==> r == ss[i].email
    ensures org.Some? && |entityName| > 0 &&
            (forall d :: d in org.value.departments ==> Lower(d.name) != Strip(Lower(entityName))) &&
            (forall s :: s in org.value.societies ==> Lower(s.name) != Strip(Lower(entityName))) ==>
      var cs, key := org.value.courses, Strip(Lower(entityName));
      forall i :: 0 <= i < |cs| && Lower(cs[i].name) == key && (forall j :: 0 <= j < i ==> Lower(cs[j].name) != key)
                  ==> r == cs[i].email
    ensures org.Some? &&
            (forall d :: d in org.value.departments ==> Lower(d.name) != Strip(Lower(entityName))) &&
            (forall s :: s in org.value.societies ==> Lower(s.name) != Strip(Lower(entityName))) &&
            (forall c :: c in org.value.courses ==> Lower(c.name) != Strip(Lower(entityName)))
            ==> r.None?
  {
    if |entityName| == 0 || org.None? then None
    else EntityEmailByKey(org.value, Strip(Lower(entityName)))
  }

  // -------------------------------------------------------------- conflicts

  /** The outcome of a conflict scan: the dates could not be parsed, or the list of clashing events. */
  datatype ConflictCheck = InvalidDate | Checked(conflicts: seq<Event>) {
    /** The boolean half of the scan's `(has_conflicts, conflicts)` result. */
    predicate HasConflicts() {
      InvalidDate? || |conflicts| > 0
    }
  }

  /**
   * Stored event `ev` clashes with the new interval `[s, e)` under key
   * `target`: same key, not the excluded event (when an exclusion is given and
   * non-empty), both stored times parse, and the overlap test finds an
   * overlap. A test that raises (naive against aware) skips the event, as the
   * scan's `except: continue` does.
   */
  predicate Clashes(ev: Event, key: Event -> Option<string>, target: string, s: Instant, e: Instant,
                    exclude: Option<string>, parse: Parsers) {
    && key(ev) == Some(target)
    && !(Truthy(exclude) && ev.id == exclude.value)
    && parse.time(ev.start).Some? && parse.time(ev.end).Some?
    && Overlaps(s, e, parse.time(ev.start).value, parse.time(ev.end).value)
  }

  /** The conflict scan shared by `check_time_conflicts` (keyed on calendar id) and `check_room_conflicts` (keyed on room id). */
  function ScanConflicts(events: seq<Event>, key: Event -> Option<string>, target: string,
                         start: string, end: string, exclude: Option<string>, parse: Parsers): (r: ConflictCheck)
    ensures r.InvalidDate? <==> parse.time(start).None? || parse.time(end).None?
    ensures r.Checked? ==> forall i :: 0 <= i < |r.conflicts| ==>
      r.conflicts[i] in events && Clashes(r.conflicts[i], key, target, parse.time(start).value, parse.time(end).value, exclude, parse)
    ensures r.Checked? ==> forall i ::
      (0 <= i < |events| && Clashes(events[i], key, target, parse.time(start).value, parse.time(end).value, exclude, parse))
      ==> events[i] in r.conflicts
  {
    var s := parse.time(start);
    var e := parse.time(end);
    if s.None? || e.None? then InvalidDate
    else Checked(Filter(events, (ev: Event) => Clashes(ev, key, target, s.value, e.value, exclude, parse)))
  }

  function CalendarKey(ev: Event): Option<string> { ev.calendarId }

  function RoomKey(ev: Event): Option<string> { ev.roomId }

  /** `check_time_conflicts`: the scan over events whose calendar id is `calendarId`. */
  function CheckTimeConflicts(events: seq<Event>, calendarId: string, start: string, end: string,
                              exclude: Option<string>, parse: Parsers): (r: ConflictCheck)
    ensures r.HasConflicts() <==>
      || parse.time(start).None? || parse.time(end).None?
      || exists i :: 0 <= i < |events| && events[i].calendarId == Some(calendarId)
           && !(Truthy(exclude) && events[i].id == exclude.value)
           && parse.time(events[i].start).Some? && parse.time(events[i].end).Some?
           && Comparable(parse.time(start).value, parse.time(events[i].end).value)
           && Comparable(parse.time(events[i].start).value, parse.time(end).value)
           && parse.time(start).value.at < parse.time(events[i].end).value.at
           && parse.time(end).value.at > parse.time(events[i].start).value.at
  {
    var r := ScanConflicts(events, CalendarKey, calendarId, start, end, exclude, parse);
    assert r.Checked? && |r.conflicts| > 0 ==> r.conflicts[0] in events;
    forall i | 0 <= i < |events| && parse.time(start).Some? && parse.time(end).Some?
                 && parse.time(events[i].start).Some? && parse.time(events[i].end).Some? {
      OverlapsMeans(parse.time(start).value, parse.time(end).value, parse.time(events[i].start).value, parse.time(events[i].end).value);
    }
    r
  }

  /** `check_room_conflicts`: the same scan over events whose room id is `roomId`. */
  function CheckRoomConflicts(events: seq<Event>, roomId: string, start: string, end: string,
                              exclude: Option<string>, parse: Parsers): (r: ConflictCheck)
    ensures r.HasConflicts() <==>
      || parse.time(start).None? || parse.time(end).None?
      || exists i :: 0 <= i < |events| && events[i].roomId == Some(roomId)
           && !(Truthy(exclude) && events[i].id == exclude.value)
           && parse.time(events[i].start).Some? && parse.time(events[i].end).Some?
           && Comparable(parse.time(start).value, parse.time(events[i].end).value)
           && Comparable(parse.time(events[i].start).value, parse.time(end).value)
           && parse.time(start).value.at < parse.time(events[i].end).value.at
           && parse.time(end).value.at > parse.time(events[i].start).value.at
  {
    var r := ScanConflicts(events, RoomKey, roomId, start, end, exclude, parse);
    assert r.Checked? && |r.conflicts| > 0 ==> r.conflicts[0] in events;
    forall i | 0 <= i < |events| && parse.time(start).Some? && parse.time(end).Some?
                 && parse.time(events[i].start).Some? && parse.time(events[i].end).Some? {
      OverlapsMeans(parse.time(start).value, parse.time(end).value, parse.time(events[i].start).value, parse.time(events[i].end).value);
    }
    r
  }

  /** Back-to-back intervals never conflict: an event ending exactly when the new one starts (or starting when it ends) is no clash. */
  lemma TouchingIntervalsNeverConflict(events: seq<Event>, calendarId: string, start: string, end: string, parse: Parsers)
    requires parse.time(start).Some? && parse.time(end).Some?
    requires forall i :: 0 <= i < |events| && parse.time(events[i].start).Some? && parse.time(events[i].end).Some? ==>
      parse.time(events[i].end).value == parse.time(start).value || parse.time(events[i].start).value == parse.time(end).value
    ensures !CheckTimeConflicts(events, calendarId, start, end, None, parse).HasConflicts()
  {
  }

  /**
   * A naive stored event is never reported against an aware request (nor the
   * other way round), however its wall-clock times relate to the request's:
   * the comparison raises and the scan skips the event.
   */
  lemma MixedAwarenessSkipped(events: seq<Event>, calendarId: string, start: string, end: string,
                              exclude: Option<string>, parse: Parsers, k: nat)
    requires k < |events|
    requires parse.time(start).Some? && parse.time(end).Some?
    requires parse.time(events[k].start).Some? && parse.time(events[k].end).Some?
    requires parse.time(start).value.aware == parse.time(end).value.aware
    requires parse.time(events[k].start).value.aware == parse.time(events[k].end).value.aware
    requires parse.time(start).value.aware != parse.time(events[k].start).value.aware
    ensures var r := CheckTimeConflicts(events, calendarId, start, end, exclude, parse);
      r.Checked? && events[k] !in r.conflicts
  {
    var r := CheckTimeConflicts(events, calendarId, start, end, exclude, parse);
    MixedNeverOverlap(parse.time(start).value, parse.time(end).value, parse.time(events[k].start).value, parse.time(events[k].end).value);
    assert !Clashes(events[k], CalendarKey, calendarId, parse.time(start).value, parse.time(end).value, exclude, parse);
  }

  // ----------------------------------------------------- entity permission

  /** The department a department/staff user books for, as the permission rule reads it: the record's `department_id`. */
  function DepartmentAsWritten(u: User): Option<int> {
    u.departmentId
  }

  /**
   * The department of a department/staff user with the generator's records
   * in mind: `department_id` when the record has one, else `scope_id`, which
   * is where the generator puts the department of those roles.
   */
  function DepartmentIntended(u: User): Option<int> {
    if u.departmentId.Some? then u.departmentId
    else if u.roleScope == "department" || u.roleScope == "staff" then u.scopeId
    else None
  }

  /** The role-scoped rule of `can_user_book_for_entity`, for a known user and a present org structure and a given department reading. */
  predicate EntityRule(org: OrgStructure, u: User, dept: Option<int>, entityType: string, entityId: int) {
    if u.roleScope == "department" || u.roleScope == "staff" then
      if entityType == "department" then Some(entityId) == dept
      else if entityType == "course" then exists c :: c in org.courses && c.id == entityId && c.departmentId == dept
      else if entityType == "society" then exists s :: s in org.societies && s.id == entityId && s.departmentId == dept
      else false
    else if u.roleScope == "society_officer" then
      entityType == "society" && Some(entityId) == u.scopeId
    else false
  }

  /** `can_user_book_for_entity` as written: department reading from `department_id`. */
  function CanUserBookForEntity(org: Option<OrgStructure>, userId: string, entityType: string, entityId: int, parse: Parsers): (r: bool)
    ensures r ==> org.Some? && ValidateUserExists(org, userId, parse).Some?
    ensures r <==>
      && org.Some? && ValidateUserExists(org, userId, parse).Some?
      && EntityRule(org.value, ValidateUserExists(org, userId, parse).value,
                    ValidateUserExists(org, userId, parse).value.departmentId, entityType, entityId)
  {
    var u := ValidateUserExists(org, userId, parse);
    if u.None? || org.None? then false
    else
      var user := u.value;
      var deptId := DepartmentAsWritten(user);
      if user.roleScope == "department" || user.roleScope == "staff" then
        if entityType == "department" then Some(entityId) == deptId
        else if entityType == "course" then First(org.value.courses, (c: Course) => c.id == entityId && c.departmentId == deptId).Some?
        else if entityType == "society" then First(org.value.societies, (s: Society) => s.id == entityId && s.departmentId == deptId).Some?
        else false
      else if user.roleScope == "society_officer" then
        entityType == "society" && Some(entityId) == user.scopeId
      else false
  }

  /** The corrected rule: department/staff users without `department_id` book for the department in their `scope_id`. */
  function CanUserBookForEntityFixed(org: Option<OrgStructure>, userId: string, entityType: string, entityId: int, parse: Parsers): (r: bool)
    ensures r <==>
      && org.Some? && ValidateUserExists(org, userId, parse).Some?
      && EntityRule(org.value, ValidateUserExists(org, userId, parse).value,
                    DepartmentIntended(ValidateUserExists(org, userId, parse).value), entityType, entityId)
  {
    var u := ValidateUserExists(org, userId, parse);
    if u.None? || org.None? then false
    else
      var user := u.value;
      var deptId := DepartmentIntended(user);
      if user.roleScope == "department" || user.roleScope == "staff" then
        if entityType == "department" then Some(entityId) == deptId
        else if entityType == "course" then First(org.value.courses, (c: Course) => c.id == entityId && c.departmentId == deptId).Some?
        else if entityType == "society" then First(org.value.societies, (s: Society) => s.id == entityId && s.departmentId == deptId).Some?
        else false
      else if user.roleScope == "society_officer" then
        entityType == "society" && Some(entityId) == user.scopeId
      else false
  }

  /**
   * On generated org data, whose users never carry `department_id`, the rule
   * as written refuses a department or staff admin every booking, whatever
   * the entity.
   */
  lemma GeneratedAdminsDeniedEverything(org: OrgStructure, userId: string, entityType: string, entityId: int, parse: Parsers)
    requires OrgGenerator.GeneratedShape(org)
    requires ValidateUserExists(Some(org), userId, parse).Some?
    requires ValidateUserExists(Some(org), userId, parse).value.roleScope in {"department", "staff"}
    ensures !CanUserBookForEntity(Some(org), userId, entityType, entityId, parse)
  {
    var u := ValidateUserExists(Some(org), userId, parse).value;
    assert u in org.users;
    NoDepartmentDenied(org, u, entityType, entityId);
  }

  /** In a generated organisation every course and society has a department, so reading none matches nothing. */
  lemma NoDepartmentDenied(org: OrgStructure, u: User, entityType: string, entityId: int)
    requires OrgGenerator.GeneratedShape(org)
    requires u.roleScope in {"department", "staff"}
    ensures !EntityRule(org, u, None, entityType, entityId)
  {
    if entityType == "course" {
      forall c | c in org.courses ensures c.departmentId.Some? {
        var i :| 0 <= i < |org.courses| && org.courses[i] == c;
      }
    } else if entityType == "society" {
      forall s | s in org.societies ensures s.departmentId.Some? {
        var i :| 0 <= i < |org.societies| && org.societies[i] == s;
      }
    }
  }

  /** The corrected rule lets the same admins book for the department their role is scoped to. */
  lemma GeneratedAdminsBookOwnDepartment(org: OrgStructure, userId: string, parse: Parsers)
    requires OrgGenerator.GeneratedShape(org)
    requires ValidateUserExists(Some(org), userId, parse).Some?
    requires ValidateUserExists(Some(org), userId, parse).value.roleScope in {"department", "staff"}
    ensures ValidateUserExists(Some(org), userId, parse).value.scopeId.Some?
    ensures CanUserBookForEntityFixed(Some(org), userId, "department",
                                      ValidateUserExists(Some(org), userId, parse).value.scopeId.value, parse)
  {
    var u := ValidateUserExists(Some(org), userId, parse).value;
    assert u in org.users;
  }
}

=== FILE: calendar_backup.dfy ===
/**
 * The older copy of the calendar server. Its conflict scans and room lookup
 * are the same as the current server's (`Calendar.ScanConflicts`,
 * `Calendar.ValidateRoomExists`); what differs is the user check, which
 * consults a flat user directory keyed by user id, and the create handler,
 * which calls two helpers the file never defines.
 */
module CalendarBackup {
  import opened Wrappers
  import opened Calendar

  /** A directory entry: the JSON object stored under a user id, as its fields. */
  type Entry = map<string, string>

  /** The outcome of the directory check, with the entry handed back on success. */
  datatype UserCheck = Accepted(info: Entry) | Rejected

  /**
   * `validate_user_exists` (directory version): an empty directory accepts
   * everyone with an empty record; otherwise the id must be a key whose entry
   * is a non-empty object, since an empty object is falsy.
   */
  function ValidateUserExists(directory: map<string, Entry>, userId: string): (r: UserCheck)
    ensures |directory| == 0 ==> r == Accepted(map[])
    ensures |directory| > 0 ==> (r.Accepted? <==> userId in directory && |directory[userId]| > 0)
    ensures |directory| > 0 && r.Accepted? ==> r.info == directory[userId]
  {
    if |directory| == 0 then Accepted(map[])
    else if userId !in directory || |directory[userId]| == 0 then Rejected
    else Accepted(directory[userId])
  }

  /** Adding entries never turns an accepted user away, once the directory is non-empty. */
  lemma AcceptanceMonotone(directory: map<string, Entry>, more: map<string, Entry>, userId: string)
    requires |directory| > 0
    requires forall k :: k in directory ==> k in more && more[k] == directory[k]
    requires ValidateUserExists(directory, userId).Accepted?
    ensures ValidateUserExists(more, userId).Accepted?
  {
    assert userId in more;
  }

  /**
   * `create_event` (older copy): the first statement calls a name the file
   * does not define, so the `NameError` is turned into a 500 and the event
   * list is left as it was, whatever the request.
   */
  function CreateEvent(directory: map<string, Entry>, events: seq<Event>, calendarId: string,
                       userId: string, title: string, start: string, end: string): (r: (seq<Event>, int))
    ensures r.0 == events
    ensures r.1 == 500
  {
    (events, 500)
  }
}

=== FILE: calendar_server.dfy ===
/**
 * The calendar server's event handlers: create, list, get, update and delete
 * over the in-memory event list. Each handler is a pure function from the
 * current list to the new list and a response; a failing gate leaves the
 * list as it was. Persisting the list to disk is not modelled.
 *
 * The invariant the conflict checks keep: no two timed events of one
 * calendar that Python can compare overlap (half-open). A naive and an
 * aware event are never compared, so the scans let them overlap in real
 * time, and the invariant says nothing about such a pair.
 */
module CalendarServer {
  import opened Wrappers
  import opened Text
  import opened Seqs
  import opened Org
  import opened Calendar
  import opened Instants

  /**
   * The HTTP errors the handlers raise. `ServerError` is the catch-all 500:
   * the one path to it modelled here is an unparsable start or end reaching
   * the conflict gate, whose "Invalid date format" string the 409 message
   * builder then indexes like an event record.
   */
  datatype Status = BadRequest | Forbidden | NotFound | Conflict | ServerError {
    function Code(): int {
      match this
      case BadRequest => 400
      case Forbidden => 403
      case NotFound => 404
      case Conflict => 409
      case ServerError => 500
    }
  }

  /** The status the conflict gate answers with once it finds something: 500 for a bad date, 409 for real conflicts. */
  function ConflictStatus(check: ConflictCheck): (s: Status)
    requires check.HasConflicts()
    ensures s == ServerError <==> check.InvalidDate?
    ensures s == Conflict <==> check.Checked? && |check.conflicts| > 0
  {
    if check.InvalidDate? then ServerError else Conflict
  }

  datatype Outcome<T> = Ok(value: T) | Fail(status: Status)

  /** What the handlers read besides the event list: the org structure, the rooms, the parsers and the entity extractor. */
  datatype Context = Context(
    org: Option<OrgStructure>,
    rooms: seq<Room>,
    parse: Parsers,
    extractEntity: string -> Option<string>)

  function Calendars(ctx: Context): seq<CalendarInfo> {
    LoadCalendars(ctx.rooms)
  }

  datatype CreateRequest = CreateRequest(
    userId: string, title: string, start: string, end: string,
    location: Option<string>, description: Option<string>)

  /** Every field optional; `None` means "not supplied". */
  datatype UpdateRequest = UpdateRequest(
    userId: Option<string>, title: Option<string>, start: Option<string>, end: Option<string>,
    location: Option<string>, description: Option<string>)

  // ------------------------------------------------------------- invariant

  predicate Timed(ev: Event, parse: Parsers) {
    parse.time(ev.start).Some? && parse.time(ev.end).Some?
  }

  /** Two events do not clash: they are in different calendars, one of them has an unparsable time, or the overlap test finds no overlap (it raises for a naive against an aware event). */
  predicate Disjoint(a: Event, b: Event, parse: Parsers) {
    !(&& a.calendarId.Some? && a.calendarId == b.calendarId
      && Timed(a, parse) && Timed(b, parse)
      && Overlaps(parse.time(a.start).value, parse.time(a.end).value,
                  parse.time(b.start).value, parse.time(b.end).value))
  }

  /** No two timed, mutually comparable events of one calendar overlap. */
  predicate NoOverlap(events: seq<Event>, parse: Parsers) {
    forall i, j :: 0 <= i < j < |events| ==> Disjoint(events[i], events[j], parse)
  }

  predicate UniqueIds(events: seq<Event>) {
    forall i, j :: 0 <= i < j < |events| ==> events[i].id != events[j].id
  }

  lemma DisjointSymmetric(a: Event, b: Event, parse: Parsers)
    ensures Disjoint(a, b, parse) <==> Disjoint(b, a, parse)
  {
    if Timed(a, parse) && Timed(b, parse) {
      OverlapsSymmetric(parse.time(a.start).value, parse.time(a.end).value, parse.time(b.start).value, parse.time(b.end).value);
    }
  }

  /** The position of the first event with this id (the handlers' `enumerate` search). */
  function IdIndex(events: seq<Event>, eventId: string): (k: Option<nat>)
    ensures k.Some? ==> k.value < |events| && events[k.value].id == eventId
    ensures k.Some? ==> forall j :: 0 <= j < k.value ==> events[j].id != eventId
    ensures k.None? <==> forall j :: 0 <= j < |events| ==> events[j].id != eventId
  {
    FirstIndex(events, (e: Event) => e.id == eventId)
  }

  // ---------------------------------------------------------------- create

  /** The organizer recorded for a new event: the user's e-mail, or the raw user id when the record has none. */
  function OrganizerOf(u: User, userId: string): string {
    u.email.GetOr(userId)
  }

  /** The attendee e-mail a new event gets from its description: the extracted entity's e-mail, when it has a non-empty one. */
  function EntityEmail(ctx: Context, description: Option<string>): Option<string> {
    var entityName := ctx.extractEntity(description.GetOr(""));
    if Truthy(entityName) then FindEntityEmail(ctx.org, entityName.value) else None
  }

  /** `create_event`: user, permission, calendar, required fields and conflict gates, then append. */
  function CreateEvent(ctx: Context, events: seq<Event>, calendarId: string, req: CreateRequest,
                       freshId: string, now: string): (r: (seq<Event>, Outcome<Event>))
    ensures r.1.Fail? ==> r.0 == events
    ensures ValidateUserExists(ctx.org, req.userId, ctx.parse).None? ==> r.1 == Fail(NotFound)
    ensures (ValidateUserExists(ctx.org, req.userId, ctx.parse).Some? &&
             ValidateCalendarExists(Calendars(ctx), calendarId).None?)
            ==> r.1 == Fail(NotFound)
    ensures (&& ValidateUserExists(ctx.org, req.userId, ctx.parse).Some?
             && ValidateCalendarExists(Calendars(ctx), calendarId).Some?
             && (req.title == "" || req.start == "" || req.end == ""))
            ==> r.1 == Fail(BadRequest)
    ensures r.1.Ok? <==>
      && ValidateUserExists(ctx.org, req.userId, ctx.parse).Some?
      && ValidateCalendarExists(Calendars(ctx), calendarId).Some?
      && req.title != "" && req.start != "" && req.end != ""
      && !CheckTimeConflicts(events, calendarId, req.start, req.end, None, ctx.parse).HasConflicts()
    ensures r.1.Ok? ==> r.0 == events + [r.1.value]
    ensures r.1.Ok? ==>
      var ev := r.1.value;
      && ev.id == freshId && ev.calendarId == Some(calendarId) && ev.roomId.None?
      && ev.title == req.title && ev.start == req.start && ev.end == req.end
      && ev.status == "confirmed" && ev.createdAt == now && ev.modifiedAt.None? && ev.history == []
      && ev.organizer == OrganizerOf(ValidateUserExists(ctx.org, req.userId, ctx.parse).value, req.userId)
      && ev.attendees == (if Truthy(EntityEmail(ctx, req.description)) then [EntityEmail(ctx, req.description).value] else [ev.organizer])
      && ev.location == (if Truthy(req.location) then req.location.value else ValidateCalendarExists(Calendars(ctx), calendarId).value.location)
      && ev.description == req.description.GetOr("")
      && ev.calendarName == ValidateCalendarExists(Calendars(ctx), calendarId).value.name
    ensures (&& ValidateUserExists(ctx.org, req.userId, ctx.parse).Some?
             && ValidateCalendarExists(Calendars(ctx), calendarId).Some?
             && req.title != "" && req.start != "" && req.end != "")
            ==> var check := CheckTimeConflicts(events, calendarId, req.start, req.end, None, ctx.parse);
                (check.InvalidDate? ==> r.1 == Fail(ServerError)) &&
                ((check.Checked? && |check.conflicts| > 0) ==> r.1 == Fail(Conflict))
    ensures r.1.Ok? ==>
      && Timed(r.1.value, ctx.parse)
      && forall i :: 0 <= i < |events| ==> Disjoint(events[i], r.1.value, ctx.parse)
  {
    var user := ValidateUserExists(ctx.org, req.userId, ctx.parse);
    if user.None? then (events, Fail(NotFound))
    else if !ValidateUserPermissions(ctx.org, req.userId, ctx.parse) then (events, Fail(Forbidden))
    else
      var cal := ValidateCalendarExists(Calendars(ctx), calendarId);
      if cal.None? then (events, Fail(NotFound))
      else if req.title == "" || req.start == "" || req.end == "" then (events, Fail(BadRequest))
      else if CheckTimeConflicts(events, calendarId, req.start, req.end, None, ctx.parse).HasConflicts()
      then (events, Fail(ConflictStatus(CheckTimeConflicts(events, calendarId, req.start, req.end, None, ctx.parse))))
      else
        var organizer := OrganizerOf(user.value, req.userId);
        var entityEmail := EntityEmail(ctx, req.description);
        var ev := Event(
          freshId, Some(calendarId), None, cal.value.name,
          req.title, req.start, req.end, organizer,
          if Truthy(req.location) then req.location.value else cal.value.location,
          req.description.GetOr(""), now,
          if Truthy(entityEmail) then [entityEmail.value] else [organizer],
          "confirmed", None, []);
        ClearScanDisjoint(events, calendarId, ev, ctx.parse);
        (events + [ev], Ok(ev))
  }

  /** An event the calendar scan finds nothing against is timed and clashes with no listed event. */
  lemma ClearScanDisjoint(events: seq<Event>, calendarId: string, ev: Event, parse: Parsers)
    requires ev.calendarId == Some(calendarId)
    requires !CheckTimeConflicts(events, calendarId, ev.start, ev.end, None, parse).HasConflicts()
    ensures Timed(ev, parse)
    ensures forall i :: 0 <= i < |events| ==> Disjoint(events[i], ev, parse)
  {
    forall i | 0 <= i < |events| ensures Disjoint(events[i], ev, parse) {
      if events[i].calendarId == Some(calendarId) && Timed(events[i], parse) {
        assert !Clashes(events[i], CalendarKey, calendarId, parse.time(ev.start).value, parse.time(ev.end).value, None, parse);
        DisjointSymmetric(events[i], ev, parse);
      }
    }
  }

  /** A successful create keeps every calendar free of overlaps. */
  lemma CreatePreservesNoOverlap(ctx: Context, events: seq<Event>, calendarId: string, req: CreateRequest,
                                 freshId: string, now: string)
    requires NoOverlap(events, ctx.parse)
    ensures NoOverlap(CreateEvent(ctx, events, calendarId, req, freshId, now).0, ctx.parse)
  {
    var r := CreateEvent(ctx, events, calendarId, req, freshId, now);
    if r.1.Ok? {
      AppendKeepsNoOverlap(events, r.1.value, ctx.parse);
    }
  }

  /** Appending an event that is disjoint from every listed one keeps the list free of overlaps. */
  lemma AppendKeepsNoOverlap(events: seq<Event>, ev: Event, parse: Parsers)
    requires NoOverlap(events, parse)
    requires forall i :: 0 <= i < |events| ==> Disjoint(events[i], ev, parse)
    ensures NoOverlap(events + [ev], parse)
  {
    var es := events + [ev];
    forall i, j | 0 <= i < j < |es| ensures Disjoint(es[i], es[j], parse) {
      if j < |events| {
        assert es[i] == events[i] && es[j] == events[j];
      } else {
        assert es[i] == events[i] && es[j] == ev;
      }
    }
  }

  /** Events made by `create_event` carry no room id, so the room conflict scan never reports them. */
  lemma RoomScanMissesCreatedEvents(ctx: Context, events: seq<Event>, calendarId: string, req: CreateRequest,
                                    freshId: string, now: string, roomId: string, s: string, e: string)
    requires CreateEvent(ctx, events, calendarId, req, freshId, now).1.Ok?
    ensures var r := CreateEvent(ctx, events, calendarId, req, freshId, now);
      var scan := CheckRoomConflicts(r.0, roomId, s, e, None, ctx.parse);
      scan.Checked? ==> r.1.value !in scan.conflicts
  {
  }

  /** On a list made only by `create_event`, the room conflict scan finds nothing, whatever the interval. */
  lemma RoomScanBlindOnServerEvents(events: seq<Event>, roomId: string, s: string, e: string, parse: Parsers)
    requires forall i :: 0 <= i < |events| ==> events[i].roomId.None?
    ensures !CheckRoomConflicts(events, roomId, s, e, None, parse).HasConflicts() <==>
      parse.time(s).Some? && parse.time(e).Some?
  {
  }

  // ------------------------------------------------------------ list / get

  /** `list_events`: every event for "all" (any case), else 404 for an unknown calendar, else that calendar's events in store order. */
  function ListEvents(ctx: Context, events: seq<Event>, calendarId: string): (r: Outcome<seq<Event>>)
    ensures Lower(calendarId) == "all" ==> r == Ok(events)
    ensures Lower(calendarId) != "all" ==>
      (r.Fail? <==> ValidateCalendarExists(Calendars(ctx), calendarId).None?)
    ensures r.Fail? ==> r.status == NotFound
    ensures r.Ok? && Lower(calendarId) != "all" ==>
      && (forall i :: 0 <= i < |r.value| ==> r.value[i] in events && r.value[i].calendarId == Some(calendarId))
      && (forall i :: 0 <= i < |events| && events[i].calendarId == Some(calendarId) ==> events[i] in r.value)
  {
    if Lower(calendarId) == "all" then Ok(events)
    else if ValidateCalendarExists(Calendars(ctx), calendarId).None? then Fail(NotFound)
    else Ok(Filter(events, (ev: Event) => ev.calendarId == Some(calendarId)))
  }

  /** Listing one calendar keeps store order: the answer for a list extended at the end is the old answer extended at the end. */
  lemma ListEventsAppend(ctx: Context, events: seq<Event>, more: seq<Event>, calendarId: string)
    requires ValidateCalendarExists(Calendars(ctx), calendarId).Some?
    ensures ListEvents(ctx, events + more, calendarId).Ok?
    ensures ListEvents(ctx, events + more, calendarId).value ==
            ListEvents(ctx, events, calendarId).value + ListEvents(ctx, more, calendarId).value
  {
    if Lower(calendarId) != "all" {
      FilterAppend(events, more, (ev: Event) => ev.calendarId == Some(calendarId));
    }
  }

  /** Listing a one-event store answers that event exactly when it belongs to the calendar (or the calendar is "all"); with the append lemma this fixes order and multiplicity. */
  lemma ListEventsSingle(ctx: Context, ev: Event, calendarId: string)
    requires ValidateCalendarExists(Calendars(ctx), calendarId).Some?
    ensures ListEvents(ctx, [ev], calendarId) ==
            Ok(if Lower(calendarId) == "all" || ev.calendarId == Some(calendarId) then [ev] else [])
  {
    if Lower(calendarId) != "all" {
      var p := (e: Event) => e.calendarId == Some(calendarId);
      assert [ev][1..] == [] && Filter([], p) == [];
      assert Filter([ev], p) == (if p(ev) then [ev] else []);
    }
  }

  /** `get_event`: the first event with this id in this calendar, else 404. */
  function GetEvent(events: seq<Event>, calendarId: string, eventId: string): (r: Outcome<Event>)
    ensures r.Ok? <==> exists i :: 0 <= i < |events| && events[i].id == eventId && events[i].calendarId == Some(calendarId)
    ensures r.Ok? ==> r.value in events && r.value.id == eventId && r.value.calendarId == Some(calendarId)
    ensures r.Ok? ==> exists i :: && 0 <= i < |events| && r.value == events[i]
                                 && events[i].id == eventId && events[i].calendarId == Some(calendarId)
                                 && forall j :: 0 <= j < i ==> !(events[j].id == eventId && events[j].calendarId == Some(calendarId))
    ensures r.Fail? ==> r.status == NotFound
  {
    var k := FirstIndex(events, (e: Event) => e.id == eventId && e.calendarId == Some(calendarId));
    if k.Some? then Ok(events[k.value]) else Fail(NotFound)
  }

  /** An event created under an id no other event carries can be read back, unchanged, from its calendar. */
  lemma {:induction false} CreateThenGet(ctx: Context, events: seq<Event>, calendarId: string, req: CreateRequest,
                                         freshId: string, now: string)
    requires forall i :: 0 <= i < |events| ==> events[i].id != freshId
    requires CreateEvent(ctx, events, calendarId, req, freshId, now).1.Ok?
    ensures var r := CreateEvent(ctx, events, calendarId, req, freshId, now);
      GetEvent(r.0, calendarId, freshId) == r.1
  {
    var r := CreateEvent(ctx, events, calendarId, req, freshId, now);
    var p := (e: Event) => e.id == freshId && e.calendarId == Some(calendarId);
    var k := FirstIndex(r.0, p);
    assert p(r.0[|events|]);
    assert k.Some?;
    assert forall i :: 0 <= i < |events| ==> r.0[i] == events[i];
    assert k.value == |events|;
  }

  // ----------------------------------------------------- organizer guard

  /**
   * The organizer-only guard of update and delete: passes with no user id,
   * for the organizer string itself, or for a known user whose e-mail is the
   * organizer.
   */
  predicate OrganizerMayChange(ctx: Context, ev: Event, userId: Option<string>) {
    || userId.None?
    || userId.value == ev.organizer
    || (ValidateUserExists(ctx.org, userId.value, ctx.parse).Some? &&
        ValidateUserExists(ctx.org, userId.value, ctx.parse).value.email.GetOr(userId.value) == ev.organizer)
  }

  /** Whoever created an event passes the organizer guard for it. */
  lemma CreatorMayChange(ctx: Context, events: seq<Event>, calendarId: string, req: CreateRequest,
                         freshId: string, now: string)
    requires CreateEvent(ctx, events, calendarId, req, freshId, now).1.Ok?
    ensures OrganizerMayChange(ctx, CreateEvent(ctx, events, calendarId, req, freshId, now).1.value, Some(req.userId))
  {
  }

  /** A user id that is neither the organizer nor a known user is turned away. */
  lemma StrangerMayNotChange(ctx: Context, ev: Event, userId: string)
    requires userId != ev.organizer
    requires ValidateUserExists(ctx.org, userId, ctx.parse).None?
    ensures !OrganizerMayChange(ctx, ev, Some(userId))
  {
  }

  // ---------------------------------------------------------------- update

  /** The supplied fields of an update request laid over an event; a supplied user id becomes organizer and sole attendee. */
  function Patch(ev: Event, req: UpdateRequest): (r: Event)
    ensures r.id == ev.id && r.calendarId == ev.calendarId && r.roomId == ev.roomId
    ensures r.title == req.title.GetOr(ev.title) && r.start == req.start.GetOr(ev.start) && r.end == req.end.GetOr(ev.end)
    ensures r.location == req.location.GetOr(ev.location) && r.description == req.description.GetOr(ev.description)
    ensures req.userId.Some? ==> r.organizer == req.userId.value && r.attendees == [req.userId.value]
    ensures req.userId.None? ==> r.organizer == ev.organizer && r.attendees == ev.attendees
    ensures r.status == ev.status && r.createdAt == ev.createdAt && r.history == ev.history
  {
    ev.(title := req.title.GetOr(ev.title),
        start := req.start.GetOr(ev.start),
        end := req.end.GetOr(ev.end),
        location := req.location.GetOr(ev.location),
        description := req.description.GetOr(ev.description),
        organizer := req.userId.GetOr(ev.organizer),
        attendees := if req.userId.Some? then [req.userId.value] else ev.attendees)
  }

  /** The history entry an update records: the event's state before the change and who changed it. */
  function HistoryFor(ev: Event, req: UpdateRequest, now: string): HistoryEntry {
    HistoryEntry(
      now,
      Snapshot(ev.title, ev.start, ev.end, ev.location, ev.description, ev.organizer),
      if Truthy(req.userId) then req.userId.value else ev.organizer)
  }

  /** The gates before the patch: the event exists, sits in this calendar, and the caller passes the organizer guard. */
  predicate Editable(ctx: Context, events: seq<Event>, calendarId: string, eventId: string, userId: Option<string>) {
    && IdIndex(events, eventId).Some?
    && events[IdIndex(events, eventId).value].calendarId == Some(calendarId)
    && OrganizerMayChange(ctx, events[IdIndex(events, eventId).value], userId)
  }

  /** The conflict check an update runs on its patched times, excluding the event itself. */
  function UpdateCheck(ctx: Context, events: seq<Event>, calendarId: string, eventId: string, req: UpdateRequest): ConflictCheck
    requires IdIndex(events, eventId).Some?
  {
    var p := Patch(events[IdIndex(events, eventId).value], req);
    CheckTimeConflicts(events, calendarId, p.start, p.end, Some(eventId), ctx.parse)
  }

  /** `update_event`: find, calendar match, organizer guard, calendar exists, patch, conflict check when times are supplied, record history, replace in place. */
  function UpdateEvent(ctx: Context, events: seq<Event>, calendarId: string, eventId: string,
                       req: UpdateRequest, now: string): (r: (seq<Event>, Outcome<Event>))
    ensures r.1.Fail? ==> r.0 == events
    ensures IdIndex(events, eventId).None? <==> r.1 == Fail(NotFound) && (forall j :: 0 <= j < |events| ==> events[j].id != eventId)
    ensures IdIndex(events, eventId).Some? && events[IdIndex(events, eventId).value].calendarId != Some(calendarId)
            ==> r.1 == Fail(BadRequest)
    ensures (IdIndex(events, eventId).Some? && events[IdIndex(events, eventId).value].calendarId == Some(calendarId))
            ==> (r.1 == Fail(Forbidden) <==> !OrganizerMayChange(ctx, events[IdIndex(events, eventId).value], req.userId))
    ensures r.1.Ok? ==>
      && IdIndex(events, eventId).Some?
      && var k := IdIndex(events, eventId).value;
      var old_ := events[k];
      && old_.calendarId == Some(calendarId)
      && OrganizerMayChange(ctx, old_, req.userId)
      && ValidateCalendarExists(Calendars(ctx), calendarId).Some?
      && r.0 == events[k := r.1.value]
      && r.1.value == Patch(old_, req).(modifiedAt := Some(now), history := old_.history + [HistoryFor(old_, req, now)])
      && (Truthy(req.start) || Truthy(req.end) ==>
            !CheckTimeConflicts(events, calendarId, r.1.value.start, r.1.value.end, Some(eventId), ctx.parse).HasConflicts())
    ensures r.1.Ok? <==>
      && Editable(ctx, events, calendarId, eventId, req.userId)
      && ValidateCalendarExists(Calendars(ctx), calendarId).Some?
      && (Truthy(req.start) || Truthy(req.end) ==> !UpdateCheck(ctx, events, calendarId, eventId, req).HasConflicts())
    ensures Editable(ctx, events, calendarId, eventId, req.userId) && ValidateCalendarExists(Calendars(ctx), calendarId).None?
            ==> r.1 == Fail(NotFound)
    ensures (&& Editable(ctx, events, calendarId, eventId, req.userId)
             && ValidateCalendarExists(Calendars(ctx), calendarId).Some?
             && (Truthy(req.start) || Truthy(req.end)))
            ==> (UpdateCheck(ctx, events, calendarId, eventId, req).InvalidDate? ==> r.1 == Fail(ServerError)) &&
                ((UpdateCheck(ctx, events, calendarId, eventId, req).Checked? &&
                  |UpdateCheck(ctx, events, calendarId, eventId, req).conflicts| > 0) ==> r.1 == Fail(Conflict))
  {
    var k := IdIndex(events, eventId);
    if k.None? then (events, Fail(NotFound))
    else
      var ev := events[k.value];
      if ev.calendarId != Some(calendarId) then (events, Fail(BadRequest))
      else if !OrganizerMayChange(ctx, ev, req.userId) then (events, Fail(Forbidden))
      else if ValidateCalendarExists(Calendars(ctx), calendarId).None? then (events, Fail(NotFound))
      else
        var patched := Patch(ev, req);
        var check := CheckTimeConflicts(events, calendarId, patched.start, patched.end, Some(eventId), ctx.parse);
        if (Truthy(req.start) || Truthy(req.end)) && check.HasConflicts()
        then (events, Fail(ConflictStatus(check)))
        else
          var updated := patched.(modifiedAt := Some(now), history := ev.history + [HistoryFor(ev, req, now)]);
          (events[k.value := updated], Ok(updated))
  }

  /** An update keeps the event's id, calendar, room, status and creation time, and appends exactly one history entry holding the previous state. */
  lemma UpdateKeepsIdentity(ctx: Context, events: seq<Event>, calendarId: string, eventId: string,
                            req: UpdateRequest, now: string)
    requires UpdateEvent(ctx, events, calendarId, eventId, req, now).1.Ok?
    ensures var r := UpdateEvent(ctx, events, calendarId, eventId, req, now);
      var k := IdIndex(events, eventId).value;
      && |r.0| == |events|
      && r.0[k] == r.1.value
      && r.1.value.id == eventId && r.1.value.calendarId == Some(calendarId)
      && r.1.value.roomId == events[k].roomId && r.1.value.status == events[k].status
      && r.1.value.createdAt == events[k].createdAt
      && |r.1.value.history| == |events[k].history| + 1
      && r.1.value.history[|events[k].history|].previous ==
           Snapshot(events[k].title, events[k].start, events[k].end, events[k].location, events[k].description, events[k].organizer)
      && (forall j :: 0 <= j < |events| && j != k ==> r.0[j] == events[j])
  {
  }

  /**
   * A successful update keeps every calendar free of overlaps, provided ids
   * are unique (so the exclusion hits only the event itself) and the empty
   * string does not parse as a date (so blanking a time without a conflict
   * check makes the event untimed).
   */
  lemma UpdatePreservesNoOverlap(ctx: Context, events: seq<Event>, calendarId: string, eventId: string,
                                 req: UpdateRequest, now: string)
    requires NoOverlap(events, ctx.parse)
    requires UniqueIds(events)
    requires ctx.parse.time("").None?
    ensures NoOverlap(UpdateEvent(ctx, events, calendarId, eventId, req, now).0, ctx.parse)
  {
    var r := UpdateEvent(ctx, events, calendarId, eventId, req, now);
    if r.1.Ok? {
      var k := IdIndex(events, eventId).value;
      var ev := events[k];
      var u := r.1.value;
      var es := r.0;
      forall j | 0 <= j < |events| && j != k ensures Disjoint(events[j], u, ctx.parse) {
        UpdatedDisjoint(ctx, events, calendarId, eventId, req, now, j);
      }
      forall i, j | 0 <= i < j < |es| ensures Disjoint(es[i], es[j], ctx.parse) {
        if i == k {
          DisjointSymmetric(events[j], u, ctx.parse);
        } else if j != k {
          assert es[i] == events[i] && es[j] == events[j];
        }
      }
    }
  }

  lemma UpdatedDisjoint(ctx: Context, events: seq<Event>, calendarId: string, eventId: string,
                        req: UpdateRequest, now: string, j: nat)
    requires NoOverlap(events, ctx.parse)
    requires UniqueIds(events)
    requires ctx.parse.time("").None?
    requires UpdateEvent(ctx, events, calendarId, eventId, req, now).1.Ok?
    requires j < |events| && j != IdIndex(events, eventId).value
    ensures Disjoint(events[j], UpdateEvent(ctx, events, calendarId, eventId, req, now).1.value, ctx.parse)
  {
    var r := UpdateEvent(ctx, events, calendarId, eventId, req, now);
    var k := IdIndex(events, eventId).value;
    var ev := events[k];
    var u := r.1.value;
    if Truthy(req.start) || Truthy(req.end) {
      var scan := ScanConflicts(events, CalendarKey, calendarId, u.start, u.end, Some(eventId), ctx.parse);
      assert scan == CheckTimeConflicts(events, calendarId, u.start, u.end, Some(eventId), ctx.parse);
      assert scan.Checked? && |scan.conflicts| == 0;
      assert events[j] !in scan.conflicts;
      assert !Clashes(events[j], CalendarKey, calendarId,
                      ctx.parse.time(u.start).value, ctx.parse.time(u.end).value, Some(eventId), ctx.parse);
      assert events[j].id != eventId by {
        if j < k { } else { assert events[k].id != events[j].id; }
      }
    } else if u.start == ev.start && u.end == ev.end {
      if j < k {
        assert Disjoint(events[j], ev, ctx.parse);
      } else {
        assert Disjoint(events[k], events[j], ctx.parse);
        DisjointSymmetric(events[k], events[j], ctx.parse);
      }
    } else {
      assert u.start == "" || u.end == "";
      assert !Timed(u, ctx.parse);
    }
  }

  // ---------------------------------------------------------------- delete

  /** `delete_event`: find, calendar match, organizer guard, then physical removal of the matched event. */
  function DeleteEvent(ctx: Context, events: seq<Event>, calendarId: string, eventId: string,
                       userId: Option<string>): (r: (seq<Event>, Outcome<Event>))
    ensures r.1.Fail? ==> r.0 == events
    ensures IdIndex(events, eventId).None? ==> r.1 == Fail(NotFound)
    ensures IdIndex(events, eventId).Some? && events[IdIndex(events, eventId).value].calendarId != Some(calendarId)
            ==> r.1 == Fail(BadRequest)
    ensures r.1.Ok? <==>
      && IdIndex(events, eventId).Some?
      && events[IdIndex(events, eventId).value].calendarId == Some(calendarId)
      && OrganizerMayChange(ctx, events[IdIndex(events, eventId).value], userId)
    ensures r.1.Ok? ==>
      var k := IdIndex(events, eventId).value;
      && r.1.value == events[k]
      && |r.0| == |events| - 1
      && (forall j :: 0 <= j < k ==> r.0[j] == events[j])
      && (forall j :: k <= j < |r.0| ==> r.0[j] == events[j + 1])
  {
    var k := IdIndex(events, eventId);
    if k.None? then (events, Fail(NotFound))
    else
      var ev := events[k.value];
      if ev.calendarId != Some(calendarId) then (events, Fail(BadRequest))
      else if !OrganizerMayChange(ctx, ev, userId) then (events, Fail(Forbidden))
      else (RemoveAt(events, k.value), Ok(ev))
  }

  /** Deleting removes exactly one occurrence of the matched event and nothing else. */
  lemma DeleteRemovesExactlyOne(ctx: Context, events: seq<Event>, calendarId: string, eventId: string,
                                userId: Option<string>)
    requires DeleteEvent(ctx, events, calendarId, eventId, userId).1.Ok?
    ensures var r := DeleteEvent(ctx, events, calendarId, eventId, userId);
      multiset(r.0) + multiset{r.1.value} == multiset(events)
  {
    var r := DeleteEvent(ctx, events, calendarId, eventId, userId);
    var k := IdIndex(events, eventId).value;
    assert r.0 == RemoveAt(events, k) && r.1.value == events[k];
    RemoveAtMultiset(events, k);
  }

  /** With unique ids, a deleted event can no longer be found by id. */
  lemma DeleteThenGone(ctx: Context, events: seq<Event>, calendarId: string, eventId: string,
                       userId: Option<string>)
    requires UniqueIds(events)
    requires DeleteEvent(ctx, events, calendarId, eventId, userId).1.Ok?
    ensures GetEvent(DeleteEvent(ctx, events, calendarId, eventId, userId).0, calendarId, eventId).Fail?
  {
    var r := DeleteEvent(ctx, events, calendarId, eventId, userId);
    var k := IdIndex(events, eventId).value;
    forall j | 0 <= j < |r.0| ensures r.0[j].id != eventId {
      if j < k {
        assert r.0[j] == events[j];
      } else {
        assert r.0[j] == events[j + 1];
      }
    }
  }

  /** Deleting keeps every calendar free of overlaps. */
  lemma DeletePreservesNoOverlap(ctx: Context, events: seq<Event>, calendarId: string, eventId: string,
                                 userId: Option<string>)
    requires NoOverlap(events, ctx.parse)
    ensures NoOverlap(DeleteEvent(ctx, events, calendarId, eventId, userId).0, ctx.parse)
  {
    var r := DeleteEvent(ctx, events, calendarId, eventId, userId);
    if r.1.Ok? {
      var k := IdIndex(events, eventId).value;
      var es := r.0;
      forall i, j | 0 <= i < j < |es| ensures Disjoint(es[i], es[j], ctx.parse) {
        var i' := if i < k then i else i + 1;
        var j' := if j < k then j else j + 1;
        assert es[i] == events[i'] && es[j] == events[j'];
      }
    }
  }
}

=== FILE: comms_agent.dfy ===
/**
 * The communications agent's message handling: the cursor advance of the
 * monitor loop, the organiser / recipient derivation of
 * `extract_event_details`, the template choice of
 * `send_event_notification_email`, and the event-type dispatch of
 * `interpret_message_content`. JSON decoding, the template file and the
 * mail transport are outside the model; the org structure is given.
 */
module CommsAgent {
  import opened Wrappers
  import opened Text
  import opened Seqs
  import opened Org
  import opened Patterns
  import opened CommsUtilities

  // --------------------------------------------------------------- cursor

  /**
   * The monitor loop over one batch of new messages: they arrive newest
   * first and are handled oldest first, the cursor moving to each handled
   * message. Returns the new cursor and the ids in the order handled.
   */
  method ProcessBatch(batch: seq<Message>, cursor: Option<string>) returns (newCursor: Option<string>, handled: seq<string>)
    ensures |batch| == 0 ==> newCursor == cursor
    ensures |batch| > 0 ==> newCursor == Some(batch[0].id)
    ensures |handled| == |batch|
    ensures forall k :: 0 <= k < |handled| ==> handled[k] == batch[|batch| - 1 - k].id
  {
    newCursor := cursor;
    handled := [];
    var i := |batch|;
    while i > 0
      invariant 0 <= i <= |batch|
      invariant |handled| == |batch| - i
      invariant forall k :: 0 <= k < |handled| ==> handled[k] == batch[|batch| - 1 - k].id
      invariant i == |batch| ==> newCursor == cursor
      invariant i < |batch| ==> newCursor == Some(batch[i].id)
    {
      i := i - 1;
      handled := handled + [batch[i].id];
      newCursor := Some(batch[i].id);
    }
  }

  /**
   * After a poll of a non-empty page, the batch is either empty because the
   * cursor already names the newest message, or it starts with the newest
   * message, so the cursor ends on the newest message either way.
   */
  lemma PollReachesNewest(page: seq<Message>, cursor: Option<string>)
    requires |page| > 0
    ensures |NewMessages(page, cursor)| > 0 ==> NewMessages(page, cursor)[0] == page[0]
    ensures |NewMessages(page, cursor)| == 0 ==> cursor == Some(page[0].id)
  {
  }

  /** Polling an unchanged page again, from the newest message, reports nothing. */
  lemma RepollIsEmpty(page: seq<Message>)
    requires |page| > 0 && page[0].id != ""
    ensures NewMessages(page, Some(page[0].id)) == []
  {
  }

  // ------------------------------------------------------------- organiser

  /** The fields of a decoded event message that the recipient logic reads. */
  datatype Notice = Notice(
    organizer: string,
    attendeeEmail: Option<string>,
    attendees: Option<seq<Option<string>>>)

  /** The organiser name when the field is not an address: the stripped text before the first `(`, or the stripped field. */
  function OrganiserName(field: string): (name: string)
    ensures |field| > 0 && field[0] != '(' ==> name == Strip(field[..Run(field, 0, NotOpenParen)])
    ensures (|field| == 0 || field[0] == '(') ==> name == Strip(field)
    ensures |field| > 0 && field[0] != '(' ==> '(' !in name
  {
    if |field| > 0 && field[0] != '(' then
      var n := Run(field, 0, NotOpenParen);
      var before := field[..n];
      assert '(' !in before by {
        forall k | 0 <= k < n ensures before[k] != '(' {
          assert before[k] == field[k];
        }
      }
      StripKeepsOut(before, '(');
      Strip(before)
    else
      Strip(field)
  }

  /** The e-mail of the first user whose name (missing names read as empty) equals `name` case-insensitively; the loop breaks at that user. */
  function UserEmailByName(users: seq<User>, name: string): (r: Option<string>)
    ensures r.Some? ==> exists i :: 0 <= i < |users| && EqualsIgnoreCase(users[i].name.GetOr(""), name) && users[i].email == r
    ensures (forall i :: 0 <= i < |users| ==> !EqualsIgnoreCase(users[i].name.GetOr(""), name)) ==> r.None?
    ensures forall i :: 0 <= i < |users| && EqualsIgnoreCase(users[i].name.GetOr(""), name) &&
                        (forall j :: 0 <= j < i ==> !EqualsIgnoreCase(users[j].name.GetOr(""), name))
                        ==> r == users[i].email
  {
    var k := FirstIndex(users, (u: User) => EqualsIgnoreCase(u.name.GetOr(""), name));
    if k.Some? then users[k.value].email else None
  }

  /**
   * Organiser name and e-mail: an address-shaped field (after stripping) is
   * both; otherwise the name is looked up among the users, first
   * case-insensitive match.
   */
  function Organiser(field: string, org: OrgStructure): (r: (string, Option<string>))
    ensures LooksLikeEmail(Strip(field)) ==> r == (Strip(field), Some(Strip(field)))
    ensures !LooksLikeEmail(Strip(field)) ==> r.0 == OrganiserName(field)
    ensures !LooksLikeEmail(Strip(field)) && r.1.Some? ==>
      exists i :: 0 <= i < |org.users| && EqualsIgnoreCase(org.users[i].name.GetOr(""), r.0) && org.users[i].email == r.1
    ensures !LooksLikeEmail(Strip(field)) &&
            (forall i :: 0 <= i < |org.users| ==> !EqualsIgnoreCase(org.users[i].name.GetOr(""), OrganiserName(field)))
            ==> r.1.None?
    ensures !LooksLikeEmail(Strip(field)) ==>
      forall i :: 0 <= i < |org.users| && EqualsIgnoreCase(org.users[i].name.GetOr(""), OrganiserName(field)) &&
                  (forall j :: 0 <= j < i ==> !EqualsIgnoreCase(org.users[j].name.GetOr(""), OrganiserName(field)))
                  ==> r.1 == org.users[i].email
  {
    var t := Strip(field);
    if LooksLikeEmail(t) then (t, Some(t))
    else
      var name := OrganiserName(field);
      (name, UserEmailByName(org.users, name))
  }

  /** The course or society named in the organiser field; a `society: ` tag wins over a `course: ` tag. */
  function Affiliation(field: string): (tag: string)
    ensures Search(field, "society: ", NotCloseParen).Some? ==> tag == Strip(Search(field, "society: ", NotCloseParen).value)
    ensures Search(field, "society: ", NotCloseParen).None? && Search(field, "course: ", NotCloseParen).Some? ==>
      tag == Strip(Search(field, "course: ", NotCloseParen).value)
    ensures Search(field, "society: ", NotCloseParen).None? && Search(field, "course: ", NotCloseParen).None? ==> tag == ""
    ensures ')' !in tag
  {
    var society := Search(field, "society: ", NotCloseParen);
    var course := Search(field, "course: ", NotCloseParen);
    if society.Some? then StripKeepsOut(society.value, ')'); Strip(society.value)
    else if course.Some? then StripKeepsOut(course.value, ')'); Strip(course.value)
    else ""
  }

  // ------------------------------------------------------------ recipients

  /** The non-empty strings of a list that may hold nulls and empty strings. */
  function TruthyValues(xs: seq<Option<string>>): (r: seq<string>)
    ensures forall x :: x in r <==> Some(x) in xs && x != ""
  {
    if |xs| == 0 then []
    else
      var rest := TruthyValues(xs[1..]);
      assert forall y :: y in xs <==> y == xs[0] || y in xs[1..];
      if Truthy(xs[0]) then [xs[0].value] + rest else rest
  }

  /** The e-mails of every course whose name matches `tag` case-insensitively. */
  function CourseEmails(courses: seq<Course>, tag: string): (r: seq<string>)
    ensures forall x :: x in r <==> exists c :: c in courses && EqualsIgnoreCase(c.name, tag) && c.email == Some(x)
  {
    if |courses| == 0 then []
    else
      var rest := CourseEmails(courses[1..], tag);
      assert forall c :: c in courses <==> c == courses[0] || c in courses[1..];
      var c := courses[0];
      if EqualsIgnoreCase(c.name, tag) && c.email.Some? then [c.email.value] + rest else rest
  }

  /** The e-mails of every society whose name matches `tag` case-insensitively. */
  function SocietyEmails(societies: seq<Society>, tag: string): (r: seq<string>)
    ensures forall x :: x in r <==> exists s :: s in societies && EqualsIgnoreCase(s.name, tag) && s.email == Some(x)
  {
    if |societies| == 0 then []
    else
      var rest := SocietyEmails(societies[1..], tag);
      assert forall s :: s in societies <==> s == societies[0] || s in societies[1..];
      var s := societies[0];
      if EqualsIgnoreCase(s.name, tag) && s.email.Some? then [s.email.value] + rest else rest
  }

  /** A course or society address the tag contributes: some course or society named `tag`, case-insensitively, has address `x`. */
  predicate TagAddress(org: OrgStructure, tag: string, x: string) {
    || (exists c :: c in org.courses && EqualsIgnoreCase(c.name, tag) && c.email == Some(x))
    || (exists s :: s in org.societies && EqualsIgnoreCase(s.name, tag) && s.email == Some(x))
  }

  /** Whether `x` is notified, given the organiser's address and the affiliation tag: the four sources of `extract_event_details`. */
  predicate RecipientFrom(n: Notice, organiserEmail: Option<string>, tag: string, org: OrgStructure, x: string) {
    || (Truthy(organiserEmail) && x == organiserEmail.value)
    || (Truthy(n.attendeeEmail) && x == n.attendeeEmail.value)
    || (n.attendees.Some? && Some(x) in n.attendees.value && x != "")
    || (!Truthy(n.attendeeEmail) && tag != "" && TagAddress(org, tag, x))
  }

  /** Who is notified about an event, stated directly. */
  predicate IsRecipient(n: Notice, org: OrgStructure, x: string) {
    RecipientFrom(n, Organiser(n.organizer, org).1, Affiliation(n.organizer), org, x)
  }

  /** The addresses collected into the recipient set, in collection order and with repeats. */
  function CandidatesFrom(n: Notice, organiserEmail: Option<string>, tag: string, org: OrgStructure): (r: seq<string>)
    ensures forall x :: x in r <==> RecipientFrom(n, organiserEmail, tag, org, x)
  {
    var fromOrganiser := if Truthy(organiserEmail) then [organiserEmail.value] else [];
    var fromAttendee := if Truthy(n.attendeeEmail) then [n.attendeeEmail.value] else [];
    var fromList := if n.attendees.Some? then TruthyValues(n.attendees.value) else [];
    var fromTag := if !Truthy(n.attendeeEmail) && tag != "" then CourseEmails(org.courses, tag) + SocietyEmails(org.societies, tag) else [];
    assert forall x :: x in fromTag <==> !Truthy(n.attendeeEmail) && tag != "" && TagAddress(org, tag, x);
    assert forall x :: x in fromList <==> n.attendees.Some? && Some(x) in n.attendees.value && x != "";
    fromOrganiser + fromAttendee + fromList + fromTag
  }

  /** The recipient list: collected into a set, then sorted. */
  function Recipients(n: Notice, org: OrgStructure): (r: seq<string>)
    ensures StrictlySorted(r)
    ensures forall i, j :: 0 <= i < j < |r| ==> r[i] != r[j]
    ensures forall x :: x in r <==> IsRecipient(n, org, x)
  {
    var r := SortedDistinct(CandidatesFrom(n, Organiser(n.organizer, org).1, Affiliation(n.organizer), org));
    StrictlySortedDistinct(r);
    r
  }

  /** An address-shaped organiser field always puts that address on the list. */
  lemma AddressOrganiserNotified(n: Notice, org: OrgStructure)
    requires LooksLikeEmail(Strip(n.organizer))
    ensures Strip(n.organizer) in Recipients(n, org)
  {
    assert IsRecipient(n, org, Strip(n.organizer));
  }

  /** With an attendee address given, course and society addresses are never added on the tag's account. */
  lemma AttendeeEmailSuppressesTag(n: Notice, org: OrgStructure, x: string)
    requires Truthy(n.attendeeEmail)
    ensures x in Recipients(n, org) ==>
            || (Truthy(Organiser(n.organizer, org).1) && x == Organiser(n.organizer, org).1.value)
            || x == n.attendeeEmail.value
            || (n.attendees.Some? && Some(x) in n.attendees.value)
  {
  }

  // ------------------------------------------------------------- templates

  datatype Template = Created | Updated | Cancelled | Rescheduled

  /** The subject/body pair `send_event_notification_email` picks for an event type; unknown types fall back to the created one. */
  function TemplateFor(eventType: string): (t: Template)
    ensures t == Updated <==> eventType == "event_updated"
    ensures t == Cancelled <==> eventType == "event_cancelled" || eventType == "event_canceled"
    ensures t == Rescheduled <==> eventType == "event_rescheduled"
  {
    if eventType == "event_updated" then Updated
    else if eventType == "event_cancelled" || eventType == "event_canceled" then Cancelled
    else if eventType == "event_rescheduled" then Rescheduled
    else Created
  }

  /** The event types that lead to an e-mail. */
  predicate IsEmailEvent(eventType: string) {
    eventType in ["event_created", "event_updated", "event_cancelled", "event_canceled", "event_rescheduled"]
  }

  /** Among the e-mail events only `event_created` gets the created template; every other type that gets it is not an e-mail event. */
  lemma CreatedTemplateFallback(eventType: string)
    ensures TemplateFor(eventType) == Created <==> !IsEmailEvent(eventType) || eventType == "event_created"
  {
  }

  // -------------------------------------------------------------- dispatch

  /** A message body after `json.loads`: not JSON, JSON but not an object, or an object. */
  datatype Decoded = NotJson | NotObject | Object(event: Option<string>, notice: Notice)

  /** What handling one message does. */
  datatype Action =
    | Notify(template: Template, recipients: seq<string>, sent: bool)
    | LogInitialized
    | LogReminder
    | LogOther(eventType: string)
    | Nothing

  /** `interpret_message_content`: e-mail events notify (sending only to a non-empty list); a few others are logged. */
  function Interpret(d: Decoded, org: OrgStructure): (a: Action)
    ensures a.Notify? <==> d.Object? && IsEmailEvent(d.event.GetOr("unknown"))
    ensures a.Notify? ==>
      && a.template == TemplateFor(d.event.GetOr("unknown"))
      && a.recipients == Recipients(d.notice, org)
      && (a.sent <==> |a.recipients| > 0)
    ensures a.Nothing? <==> !d.Object?
    ensures a.LogInitialized? <==> d.Object? && d.event == Some("initialized")
    ensures a.LogReminder? <==> d.Object? && d.event == Some("reminder")
  {
    if !d.Object? then Nothing
    else
      var eventType := d.event.GetOr("unknown");
      assert !IsEmailEvent("initialized") && !IsEmailEvent("reminder");
      assert eventType == "initialized" <==> d.event == Some("initialized");
      assert eventType == "reminder" <==> d.event == Some("reminder");
      if IsEmailEvent(eventType) then
        var recipients := Recipients(d.notice, org);
        Notify(TemplateFor(eventType), recipients, |recipients| > 0)
      else if eventType == "initialized" then LogInitialized
      else if eventType == "reminder" then LogReminder
      else LogOther(eventType)
  }

  /** An e-mail goes out exactly for an e-mail event with someone to notify: the first listed address is a recipient, and any recipient makes it go out. */
  lemma SentIffRecipients(d: Decoded, org: OrgStructure, x: string)
    ensures Interpret(d, org).Notify? && Interpret(d, org).sent ==>
      IsRecipient(d.notice, org, Interpret(d, org).recipients[0])
    ensures d.Object? && IsEmailEvent(d.event.GetOr("unknown")) && IsRecipient(d.notice, org, x) ==>
      Interpret(d, org).Notify? && Interpret(d, org).sent
  {
    var a := Interpret(d, org);
    if a.Notify? {
      var r := Recipients(d.notice, org);
      if |r| > 0 {
        assert r[0] in r;
      }
      if IsRecipient(d.notice, org, x) {
        assert x in r;
      }
    }
  }
}

=== FILE: comms_utilities.dfy ===
/**
 * The communications agent's helpers over already-fetched data: which
 * messages of a fetched page are new since the last one seen, and user
 * lookups in a fetched user directory.
 */
module CommsUtilities {
  import opened Wrappers
  import opened Text
  import opened Seqs

  /** A thread message; pages list them newest first. */
  datatype Message = Message(id: string, role: string, text: string)

  /** The page size `check_for_new_messages` asks for. */
  const PAGE_LIMIT: nat := 50

  /** The page the message listing returns: the newest `PAGE_LIMIT` messages of a newest-first thread. */
  function FetchPage(thread: seq<Message>): (page: seq<Message>)
    ensures |page| <= PAGE_LIMIT && |page| <= |thread|
    ensures page == thread[..|page|]
    ensures |thread| <= PAGE_LIMIT ==> page == thread
  {
    if |thread| <= PAGE_LIMIT then thread else thread[..PAGE_LIMIT]
  }

  /** The messages before the first one whose id is `cursor`: the loop that stops at the last known message. */
  function TakeUntil(page: seq<Message>, cursor: string): (r: seq<Message>)
    ensures |r| <= |page| && r == page[..|r|]
    ensures forall i :: 0 <= i < |r| ==> r[i].id != cursor
    ensures |r| < |page| ==> page[|r|].id == cursor
  {
    if |page| == 0 || page[0].id == cursor then []
    else [page[0]] + TakeUntil(page[1..], cursor)
  }

  /**
   * `check_for_new_messages` after the fetch: nothing for an empty page; the
   * newest message alone when no cursor is known; otherwise the longest
   * newest-first prefix that stops before the cursor message.
   */
  function NewMessages(page: seq<Message>, cursor: Option<string>): (r: seq<Message>)
    ensures |r| <= |page| && r == page[..|r|]
    ensures |page| == 0 ==> r == []
    ensures |page| > 0 && !Truthy(cursor) ==> r == [page[0]]
    ensures Truthy(cursor) ==> forall i :: 0 <= i < |r| ==> r[i].id != cursor.value
    ensures Truthy(cursor) && |r| < |page| ==> page[|r|].id == cursor.value
    ensures Truthy(cursor) && (forall i :: 0 <= i < |page| ==> page[i].id != cursor.value) ==> r == page
  {
    if |page| == 0 then []
    else if !Truthy(cursor) then [page[0]]
    else TakeUntil(page, cursor.value)
  }

  /** With fewer new messages than a page holds, exactly the new ones are reported, newest first. */
  lemma {:induction false} NewMessagesExact(news: seq<Message>, seen: seq<Message>)
    requires |seen| > 0 && seen[0].id != ""
    requires |news| < PAGE_LIMIT
    requires forall i :: 0 <= i < |news| ==> news[i].id != seen[0].id
    ensures NewMessages(FetchPage(news + seen), Some(seen[0].id)) == news
  {
    var thread := news + seen;
    var page := FetchPage(thread);
    var r := NewMessages(page, Some(seen[0].id));
    assert |page| > |news| && page[|news|] == seen[0];
    assert forall i :: 0 <= i < |news| ==> page[i] == news[i];
    assert |r| >= |news|;
    assert r == page[..|news|];
  }

  /** With more new messages than a page holds, only the newest page of them is reported; the rest are never reported. */
  lemma OverflowDropsOlderNews(news: seq<Message>, seen: seq<Message>)
    requires |seen| > 0 && seen[0].id != ""
    requires |news| > PAGE_LIMIT
    requires forall i :: 0 <= i < |news| ==> news[i].id != seen[0].id
    ensures NewMessages(FetchPage(news + seen), Some(seen[0].id)) == news[..PAGE_LIMIT]
    ensures |NewMessages(FetchPage(news + seen), Some(seen[0].id))| < |news|
  {
    var page := FetchPage(news + seen);
    assert page == news[..PAGE_LIMIT];
    var r := NewMessages(page, Some(seen[0].id));
    assert forall i :: 0 <= i < |page| ==> page[i].id != seen[0].id;
    assert r == page;
  }

  /** A user record of the fetched directory. */
  datatype DirectoryUser = DirectoryUser(userId: Option<string>, email: Option<string>, name: Option<string>)

  /** `find_user_by_id`: the first user whose `user_id` is exactly `userId`. */
  function FindUserById(users: seq<DirectoryUser>, userId: string): (r: Option<DirectoryUser>)
    ensures r.Some? <==> exists i :: 0 <= i < |users| && users[i].userId == Some(userId)
    ensures r.Some? ==> r.value.userId == Some(userId)
    ensures r.Some? ==> exists i :: 0 <= i < |users| && users[i] == r.value &&
                                    forall j :: 0 <= j < i ==> users[j].userId != Some(userId)
  {
    First(users, (u: DirectoryUser) => u.userId == Some(userId))
  }

  /** `find_user_by_email`: the first user whose e-mail (missing read as empty) matches case-insensitively. */
  function FindUserByEmail(users: seq<DirectoryUser>, email: string): (r: Option<DirectoryUser>)
    ensures r.Some? <==> exists i :: 0 <= i < |users| && EqualsIgnoreCase(users[i].email.GetOr(""), email)
    ensures r.Some? ==> EqualsIgnoreCase(r.value.email.GetOr(""), email)
    ensures r.Some? ==> exists i :: 0 <= i < |users| && users[i] == r.value &&
                                    forall j :: 0 <= j < i ==> !EqualsIgnoreCase(users[j].email.GetOr(""), email)
  {
    First(users, (u: DirectoryUser) => EqualsIgnoreCase(u.email.GetOr(""), email))
  }
}

=== FILE: instants.dfy ===
/**
 * Date-times as Python orders them. A parsed time is an instant together
 * with whether it carries a UTC offset: an aware time stands for its UTC
 * instant, a naive one for its wall-clock reading. Ordering a naive time
 * against an aware one raises `TypeError`, so every comparison here may
 * fail, and the tests built from them follow the short-circuit of `and`.
 */
module Instants {
  import opened Wrappers

  datatype Instant = Instant(at: int, aware: bool)

  /** Python can order the two: both naive or both aware. */
  predicate Comparable(a: Instant, b: Instant) {
    a.aware == b.aware
  }

  /** `a < b`; `None` where Python raises. */
  function Lt(a: Instant, b: Instant): (r: Option<bool>)
    ensures r.None? <==> !Comparable(a, b)
    ensures r.Some? ==> (r.value <==> a.at < b.at)
  {
    if a.aware != b.aware then None else Some(a.at < b.at)
  }

  /** `a <= b`; `None` where Python raises. */
  function Le(a: Instant, b: Instant): (r: Option<bool>)
    ensures r.None? <==> !Comparable(a, b)
    ensures r.Some? ==> (r.value <==> a.at <= b.at)
  {
    if a.aware != b.aware then None else Some(a.at <= b.at)
  }

  /** Python's `x and y` where either side may raise: `y` is evaluated only when `x` is true. */
  function AndThen(x: Option<bool>, y: Option<bool>): (r: Option<bool>)
    ensures r == Some(true) <==> x == Some(true) && y == Some(true)
    ensures r.None? <==> x.None? || (x == Some(true) && y.None?)
  {
    if x == Some(true) then y else x
  }

  /** The half-open test of the conflict scans and the availability check: `s < ev_end and e > ev_start`. */
  function OverlapTest(s: Instant, e: Instant, evStart: Instant, evEnd: Instant): Option<bool> {
    AndThen(Lt(s, evEnd), Lt(evStart, e))
  }

  /** The test runs without raising and finds an overlap. */
  predicate Overlaps(s1: Instant, e1: Instant, s2: Instant, e2: Instant) {
    OverlapTest(s1, e1, s2, e2) == Some(true)
  }

  /** An overlap is two comparable strict orderings. */
  lemma OverlapsMeans(s1: Instant, e1: Instant, s2: Instant, e2: Instant)
    ensures Overlaps(s1, e1, s2, e2) <==>
      Comparable(s1, e2) && Comparable(s2, e1) && s1.at < e2.at && s2.at < e1.at
  {
  }

  /** Which interval is the new one does not matter for an overlap. */
  lemma OverlapsSymmetric(s1: Instant, e1: Instant, s2: Instant, e2: Instant)
    ensures Overlaps(s1, e1, s2, e2) <==> Overlaps(s2, e2, s1, e1)
  {
    OverlapsMeans(s1, e1, s2, e2);
    OverlapsMeans(s2, e2, s1, e1);
  }

  /**
   * A naive interval against an aware one: the test raises at its first
   * comparison, so no overlap is ever found, whatever the readings.
   */
  lemma MixedNeverOverlap(s1: Instant, e1: Instant, s2: Instant, e2: Instant)
    requires s1.aware == e1.aware && s2.aware == e2.aware && s1.aware != s2.aware
    ensures OverlapTest(s1, e1, s2, e2).None?
    ensures !Overlaps(s1, e1, s2, e2)
  {
  }
}

=== FILE: maintenance.dfy ===
/**
 * The maintenance agent: threshold rules that turn a room's readings into
 * faults, the local fault log each posted fault is appended to, the clearing
 * of the log and schedule at start-up, and the two maintenance counters.
 * Readings are reals (JSON numbers); dates are day numbers; the clock, the
 * date parsers, the message send and the maintenance query are parameters.
 */
module Maintenance {
  import opened Wrappers
  import opened Text
  import opened Instants

  /** A monitored room as loaded: every reading may be absent. */
  datatype Room = Room(
    id: string, name: string, kind: Option<string>,
    temperature: Option<real>, humidity: Option<real>,
    status: Option<string>, lastMaintenance: Option<string>)

  datatype FaultType = Environmental | MaintenanceFault

  datatype Severity = Critical | High | Medium

  /** What the fault's description reports, before it is formatted as text. */
  datatype Finding =
    | ServerRoomTooHot(temp: real)
    | TemperatureOutOfRange(temp: real)
    | HumidityOutOfRange(humidity: real)
    | NeedsAttention
    | Overdue(daysOver: int)

  datatype Fault = Fault(kind: FaultType, finding: Finding, severity: Severity)

  /** Defaults used when a reading is missing. */
  const DEFAULT_TEMPERATURE: real := 20.0
  const DEFAULT_HUMIDITY: real := 50.0
  const DEFAULT_KIND: string := "office"
  /** Days after the last maintenance before it counts as overdue. */
  const MAINTENANCE_INTERVAL: int := 90

  predicate IsTechnical(kind: string) {
    kind == "server_room" || kind == "technical"
  }

  /** The temperature fault, if any: a 25 degree ceiling for technical rooms, a 16-26 band for the others. */
  function TemperatureFault(kind: string, temp: real): (r: Option<Fault>)
    ensures IsTechnical(kind) ==> (r.Some? <==> temp > 25.0)
    ensures IsTechnical(kind) && r.Some? ==> r.value.severity == Critical
    ensures !IsTechnical(kind) ==> (r.Some? <==> temp > 26.0 || temp < 16.0)
    ensures !IsTechnical(kind) && r.Some? ==> (r.value.severity == High <==> temp > 28.0 || temp < 14.0)
    ensures r.Some? ==> r.value.kind == Environmental
  {
    if IsTechnical(kind) then
      if temp > 25.0 then Some(Fault(Environmental, ServerRoomTooHot(temp), Critical)) else None
    else if temp > 26.0 || temp < 16.0 then
      Some(Fault(Environmental, TemperatureOutOfRange(temp), if temp > 28.0 || temp < 14.0 then High else Medium))
    else None
  }

  /** The humidity fault, if any: outside 30-60 percent is one Medium fault. */
  function HumidityFault(humidity: real): (r: Option<Fault>)
    ensures r.Some? <==> humidity > 60.0 || humidity < 30.0
    ensures r.Some? ==> r.value == Fault(Environmental, HumidityOutOfRange(humidity), Medium)
  {
    if humidity > 60.0 || humidity < 30.0 then Some(Fault(Environmental, HumidityOutOfRange(humidity), Medium)) else None
  }

  /** The last-maintenance check: `Error` when the date does not parse, which aborts the room's check. */
  datatype OverdueCheck = Error | Checked(fault: Option<Fault>)

  /**
   * The overdue check. `parseDate` gives the day number of a `%Y-%m-%d` date;
   * `today` is the current day number, so whole days elapsed are `today - day`.
   */
  function OverdueFault(lastMaintenance: Option<string>, parseDate: string -> Option<int>, today: int): (r: OverdueCheck)
    ensures r.Error? <==> Truthy(lastMaintenance) && parseDate(lastMaintenance.value).None?
    ensures r.Checked? && r.fault.Some? <==>
      Truthy(lastMaintenance) && parseDate(lastMaintenance.value).Some?
      && today - parseDate(lastMaintenance.value).value > MAINTENANCE_INTERVAL
    ensures r.Checked? && r.fault.Some? ==>
      r.fault.value == Fault(MaintenanceFault, Overdue(today - parseDate(lastMaintenance.value).value - MAINTENANCE_INTERVAL), Medium)
      && r.fault.value.finding.daysOver > 0
  {
    if !Truthy(lastMaintenance) then Checked(None)
    else
      var last := parseDate(lastMaintenance.value);
      if last.None? then Error
      else
        var days := today - last.value;
        if days > MAINTENANCE_INTERVAL then
          Checked(Some(Fault(MaintenanceFault, Overdue(days - MAINTENANCE_INTERVAL), Medium)))
        else Checked(None)
  }

  function Present(f: Option<Fault>): (r: seq<Fault>)
    ensures |r| <= 1 && (r == [] <==> f.None?)
  {
    if f.Some? then [f.value] else []
  }

  /** The five rules a fault can come from. */
  datatype Rule = ServerRoomHeat | TemperatureBand | HumidityBand | Attention | MaintenanceDue

  function RuleOf(f: Finding): Rule {
    match f
    case ServerRoomTooHot(_) => ServerRoomHeat
    case TemperatureOutOfRange(_) => TemperatureBand
    case HumidityOutOfRange(_) => HumidityBand
    case NeedsAttention => Attention
    case Overdue(_) => MaintenanceDue
  }

  /** The severity each rule assigns: the reference the classification is checked against. */
  function SeverityOf(f: Finding): Severity {
    match f
    case ServerRoomTooHot(_) => Critical
    case TemperatureOutOfRange(t) => if t > 28.0 || t < 14.0 then High else Medium
    case HumidityOutOfRange(_) => Medium
    case NeedsAttention => High
    case Overdue(_) => Medium
  }

  /** Readings are environmental faults; attention and overdue are maintenance faults. */
  function TypeOf(f: Finding): FaultType {
    if f.NeedsAttention? || f.Overdue? then MaintenanceFault else Environmental
  }

  /** A finding reports the room's own reading: its temperature, its humidity, or its days past the interval. */
  predicate CarriesReading(f: Finding, room: Room, parseDate: string -> Option<int>, today: int) {
    match f
    case ServerRoomTooHot(t) => t == room.temperature.GetOr(DEFAULT_TEMPERATURE)
    case TemperatureOutOfRange(t) => t == room.temperature.GetOr(DEFAULT_TEMPERATURE)
    case HumidityOutOfRange(h) => h == room.humidity.GetOr(DEFAULT_HUMIDITY)
    case NeedsAttention => true
    case Overdue(d) =>
      Truthy(room.lastMaintenance) && parseDate(room.lastMaintenance.value).Some?
      && d == today - parseDate(room.lastMaintenance.value).value - MAINTENANCE_INTERVAL
  }

  /** Some fault of the list comes from rule `k`. */
  predicate Reports(faults: seq<Fault>, k: Rule) {
    exists i :: 0 <= i < |faults| && RuleOf(faults[i].finding) == k
  }

  /** Every fault of the list carries the type and severity its rule assigns. */
  predicate WellClassified(faults: seq<Fault>) {
    forall i :: 0 <= i < |faults| ==>
      faults[i].kind == TypeOf(faults[i].finding) && faults[i].severity == SeverityOf(faults[i].finding)
  }

  lemma ReportsAppend(a: seq<Fault>, b: seq<Fault>)
    ensures forall k :: Reports(a + b, k) <==> Reports(a, k) || Reports(b, k)
    ensures WellClassified(a) && WellClassified(b) ==> WellClassified(a + b)
  {
    forall k
      ensures Reports(a + b, k) <==> Reports(a, k) || Reports(b, k)
    {
      if Reports(a + b, k) {
        var i :| 0 <= i < |a + b| && RuleOf((a + b)[i].finding) == k;
        if i >= |a| {
          assert b[i - |a|] == (a + b)[i];
        } else {
          assert a[i] == (a + b)[i];
        }
      }
      if Reports(a, k) {
        var i :| 0 <= i < |a| && RuleOf(a[i].finding) == k;
        assert (a + b)[i] == a[i];
      }
      if Reports(b, k) {
        var i :| 0 <= i < |b| && RuleOf(b[i].finding) == k;
        assert (a + b)[|a| + i] == b[i];
      }
    }
  }

  lemma ReportsPresent(f: Option<Fault>)
    ensures forall k :: Reports(Present(f), k) <==> f.Some? && RuleOf(f.value.finding) == k
  {
    if f.Some? {
      assert Present(f)[0] == f.value;
    }
  }

  /** A single optional fault, or nothing, in the four-slot list. */
  predicate InSlot(x: Fault, f: Option<Fault>) {
    f.Some? && f.value == x
  }

  /** What the four-slot list holds: exactly the present slots' faults, in slot order. */
  lemma FourSlots(a: Option<Fault>, b: Option<Fault>, c: Option<Fault>, d: Option<Fault>)
    ensures var s := Present(a) + Present(b) + Present(c) + Present(d);
      && |s| <= 4
      && (forall k :: Reports(s, k) <==>
            (a.Some? && RuleOf(a.value.finding) == k) || (b.Some? && RuleOf(b.value.finding) == k)
            || (c.Some? && RuleOf(c.value.finding) == k) || (d.Some? && RuleOf(d.value.finding) == k))
      && (forall i :: 0 <= i < |s| ==> InSlot(s[i], a) || InSlot(s[i], b) || InSlot(s[i], c) || InSlot(s[i], d))
  {
    var s := Present(a) + Present(b) + Present(c) + Present(d);
    ReportsPresent(a);
    ReportsPresent(b);
    ReportsPresent(c);
    ReportsPresent(d);
    ReportsAppend(Present(a), Present(b));
    ReportsAppend(Present(a) + Present(b), Present(c));
    ReportsAppend(Present(a) + Present(b) + Present(c), Present(d));
  }

  /** The position of a rule's check in `check_room_faults`; the two temperature rules are alternatives sharing the first place. */
  function RuleRank(k: Rule): nat {
    match k
    case ServerRoomHeat => 0
    case TemperatureBand => 0
    case HumidityBand => 1
    case Attention => 2
    case MaintenanceDue => 3
  }

  function Rank(f: Fault): nat {
    RuleRank(RuleOf(f.finding))
  }

  /** The faults come in rule order, at most one per place. */
  predicate StrictlyRanked(faults: seq<Fault>) {
    forall i, j :: 0 <= i < j < |faults| ==> Rank(faults[i]) < Rank(faults[j])
  }

  predicate RanksBelow(faults: seq<Fault>, k: nat) {
    forall i :: 0 <= i < |faults| ==> Rank(faults[i]) < k
  }

  /** An optional fault at place `k`, or nothing. */
  predicate AtRank(f: Option<Fault>, k: nat) {
    f.Some? ==> Rank(f.value) == k
  }

  /** Appending a fault of a later place keeps a strictly ranked list strictly ranked. */
  lemma RankedPush(xs: seq<Fault>, f: Option<Fault>, k: nat)
    requires StrictlyRanked(xs) && RanksBelow(xs, k) && AtRank(f, k)
    ensures StrictlyRanked(xs + Present(f)) && RanksBelow(xs + Present(f), k + 1)
  {
    var ys := xs + Present(f);
    forall i | 0 <= i < |ys| ensures Rank(ys[i]) < k + 1 {
      if i < |xs| { assert ys[i] == xs[i]; }
    }
    forall i, j | 0 <= i < j < |ys| ensures Rank(ys[i]) < Rank(ys[j]) {
      if j < |xs| { assert ys[i] == xs[i] && ys[j] == xs[j]; } else { assert ys[i] == xs[i]; }
    }
  }

  /** The four slots laid out in order hold strictly ranked faults. */
  lemma SlotsRanked(a: Option<Fault>, b: Option<Fault>, c: Option<Fault>, d: Option<Fault>)
    requires AtRank(a, 0) && AtRank(b, 1) && AtRank(c, 2) && AtRank(d, 3)
    ensures StrictlyRanked(Present(a) + Present(b) + Present(c) + Present(d))
  {
    var s0: seq<Fault> := [];
    var s1, s2, s3 := Present(a), Present(a) + Present(b), Present(a) + Present(b) + Present(c);
    RankedPush(s0, a, 0);
    assert s0 + Present(a) == s1;
    RankedPush(s1, b, 1);
    RankedPush(s2, c, 2);
    RankedPush(s3, d, 3);
  }

  /**
   * `check_room_faults`: temperature, humidity, attention and overdue faults
   * in that order; `None` when the last-maintenance date does not parse
   * (the room's check raises).
   */
  function CheckRoomFaults(room: Room, parseDate: string -> Option<int>, today: int): (r: Option<seq<Fault>>)
    ensures r.None? <==> Truthy(room.lastMaintenance) && parseDate(room.lastMaintenance.value).None?
    ensures r.Some? ==> |r.value| <= 4 && WellClassified(r.value)
    ensures r.Some? ==> forall i :: 0 <= i < |r.value| ==> CarriesReading(r.value[i].finding, room, parseDate, today)
    ensures r.Some? ==> StrictlyRanked(r.value)
  {
    var overdue := OverdueFault(room.lastMaintenance, parseDate, today);
    if overdue.Error? then None
    else
      var faults := Slots(room, overdue.fault);
      SlotsSound(room, parseDate, today);
      Some(faults)
  }

  /** The attention slot: a High maintenance fault when the status asks for attention. */
  function AttentionFault(room: Room): (r: Option<Fault>)
    ensures r.Some? <==> room.status == Some("needs_attention")
    ensures r.Some? ==> r.value == Fault(MaintenanceFault, NeedsAttention, High)
  {
    if room.status == Some("needs_attention") then Some(Fault(MaintenanceFault, NeedsAttention, High)) else None
  }

  /** The four slots of `check_room_faults`, in order, given the overdue slot. */
  function Slots(room: Room, overdue: Option<Fault>): seq<Fault> {
    Present(TemperatureFault(room.kind.GetOr(DEFAULT_KIND), room.temperature.GetOr(DEFAULT_TEMPERATURE)))
    + Present(HumidityFault(room.humidity.GetOr(DEFAULT_HUMIDITY)))
    + Present(AttentionFault(room))
    + Present(overdue)
  }

  /** With the overdue slot the date check produced, the slots are few, classified by their rules, carry the room's readings, and come in rule order. */
  lemma SlotsSound(room: Room, parseDate: string -> Option<int>, today: int)
    requires OverdueFault(room.lastMaintenance, parseDate, today).Checked?
    ensures var s := Slots(room, OverdueFault(room.lastMaintenance, parseDate, today).fault);
      && |s| <= 4 && WellClassified(s)
      && (forall i :: 0 <= i < |s| ==> CarriesReading(s[i].finding, room, parseDate, today))
      && StrictlyRanked(s)
  {
    var od := OverdueFault(room.lastMaintenance, parseDate, today).fault;
    var tf := TemperatureFault(room.kind.GetOr(DEFAULT_KIND), room.temperature.GetOr(DEFAULT_TEMPERATURE));
    var hf := HumidityFault(room.humidity.GetOr(DEFAULT_HUMIDITY));
    var af := AttentionFault(room);
    FourSlots(tf, hf, af, od);
    SlotsRanked(tf, hf, af, od);
    assert forall f :: InSlot(f, tf) || InSlot(f, hf) || InSlot(f, af) || InSlot(f, od) ==>
      && f.kind == TypeOf(f.finding) && f.severity == SeverityOf(f.finding)
      && CarriesReading(f.finding, room, parseDate, today);
  }

  /** Each rule fires exactly when its threshold is crossed; the defaults stand in for missing readings. */
  lemma {:induction false} RulesFire(room: Room, parseDate: string -> Option<int>, today: int)
    requires CheckRoomFaults(room, parseDate, today).Some?
    ensures (Reports(CheckRoomFaults(room, parseDate, today).value, ServerRoomHeat) <==>
       IsTechnical(room.kind.GetOr(DEFAULT_KIND)) && room.temperature.GetOr(DEFAULT_TEMPERATURE) > 25.0)
    ensures (Reports(CheckRoomFaults(room, parseDate, today).value, TemperatureBand) <==>
       !IsTechnical(room.kind.GetOr(DEFAULT_KIND))
       && (room.temperature.GetOr(DEFAULT_TEMPERATURE) > 26.0 || room.temperature.GetOr(DEFAULT_TEMPERATURE) < 16.0))
    ensures (Reports(CheckRoomFaults(room, parseDate, today).value, HumidityBand) <==>
       room.humidity.GetOr(DEFAULT_HUMIDITY) > 60.0 || room.humidity.GetOr(DEFAULT_HUMIDITY) < 30.0)
    ensures (Reports(CheckRoomFaults(room, parseDate, today).value, Attention) <==> room.status == Some("needs_attention"))
    ensures (Reports(CheckRoomFaults(room, parseDate, today).value, MaintenanceDue) <==>
       Truthy(room.lastMaintenance) && today - parseDate(room.lastMaintenance.value).value > MAINTENANCE_INTERVAL)
  {
    var overdue := OverdueFault(room.lastMaintenance, parseDate, today);
    var attention := AttentionFault(room);
    FourSlots(TemperatureFault(room.kind.GetOr(DEFAULT_KIND), room.temperature.GetOr(DEFAULT_TEMPERATURE)),
              HumidityFault(room.humidity.GetOr(DEFAULT_HUMIDITY)), attention, overdue.fault);
  }

  /** Some fault of the list is Critical. */
  predicate HasCritical(faults: seq<Fault>) {
    exists i :: 0 <= i < |faults| && faults[i].severity == Critical
  }

  /** A room with none of the optional fields set is fault-free: the defaults sit inside every band. */
  lemma BareRoomHasNoFaults(id: string, name: string, parseDate: string -> Option<int>, today: int)
    ensures CheckRoomFaults(Room(id, name, None, None, None, None, None), parseDate, today) == Some([])
  {
  }

  /** Only a technical room above 25 degrees raises a Critical fault; other rooms top out at High. */
  lemma CriticalOnlyForHotTechnicalRooms(room: Room, parseDate: string -> Option<int>, today: int)
    requires CheckRoomFaults(room, parseDate, today).Some?
    ensures HasCritical(CheckRoomFaults(room, parseDate, today).value) <==>
      IsTechnical(room.kind.GetOr(DEFAULT_KIND)) && room.temperature.GetOr(DEFAULT_TEMPERATURE) > 25.0
  {
    RulesFire(room, parseDate, today);
    var faults := CheckRoomFaults(room, parseDate, today).value;
    if HasCritical(faults) {
      var i :| 0 <= i < |faults| && faults[i].severity == Critical;
      assert RuleOf(faults[i].finding) == ServerRoomHeat;
    }
    if Reports(faults, ServerRoomHeat) {
      var i :| 0 <= i < |faults| && RuleOf(faults[i].finding) == ServerRoomHeat;
      assert faults[i].severity == Critical;
    }
  }

  /** A technical room is never given a band fault, however cold it is: it has only a ceiling. */
  lemma TechnicalRoomsHaveNoLowBound(room: Room, parseDate: string -> Option<int>, today: int)
    requires IsTechnical(room.kind.GetOr(DEFAULT_KIND))
    requires CheckRoomFaults(room, parseDate, today).Some?
    ensures !Reports(CheckRoomFaults(room, parseDate, today).value, TemperatureBand)
  {
    RulesFire(room, parseDate, today);
  }

  // ---- the local fault log ----

  /** One `fault_log` record. */
  datatype FaultEntry = FaultEntry(
    timestamp: string, roomId: string, roomName: string,
    fault: Fault, postedToThread: bool, errorMessage: Option<string>)

  /** An opaque item of the maintenance schedule. */
  datatype ScheduleItem = ScheduleItem(fields: map<string, string>)

  /** The `maintenance_schedule` document. */
  datatype MaintenanceLog = MaintenanceLog(schedule: seq<ScheduleItem>, faultLog: seq<FaultEntry>)

  /** What posting the message to the shared thread did: returned, or raised with this text. */
  datatype SendOutcome = Sent | Raised(error: string)

  /** A raised send still counts as posted when its text (lower-cased) names both `threadmessage` and `await`. */
  predicate PostedDespiteWarning(error: string) {
    Contains(Lower(error), "threadmessage") && Contains(Lower(error), "await")
  }

  function PostSucceeded(outcome: SendOutcome): (r: bool)
    ensures outcome.Sent? ==> r
    ensures outcome.Raised? ==> (r <==> PostedDespiteWarning(outcome.error))
  {
    match outcome
    case Sent => true
    case Raised(error) => PostedDespiteWarning(error)
  }

  /**
   * The log append of `post_fault_to_shared_thread`, as written: the error
   * text is looked up after the `except` clause, where the exception name
   * has already been unbound, so it is never recorded.
   */
  function PostFaultAsWritten(log: MaintenanceLog, room: Room, fault: Fault, timestamp: string,
                              outcome: SendOutcome): (r: MaintenanceLog)
    ensures r.schedule == log.schedule
    ensures |r.faultLog| == |log.faultLog| + 1 && r.faultLog[..|log.faultLog|] == log.faultLog
    ensures r.faultLog[|log.faultLog|].postedToThread == PostSucceeded(outcome)
    ensures r.faultLog[|log.faultLog|].errorMessage.None?
    ensures var e := r.faultLog[|log.faultLog|];
      e.timestamp == timestamp && e.roomId == room.id && e.roomName == room.name && e.fault == fault
  {
    var entry := FaultEntry(timestamp, room.id, room.name, fault, PostSucceeded(outcome), None);
    log.(faultLog := log.faultLog + [entry])
  }

  /** The same append with the error text recorded, as the record's field is meant to hold. */
  function PostFault(log: MaintenanceLog, room: Room, fault: Fault, timestamp: string,
                     outcome: SendOutcome): (r: MaintenanceLog)
    ensures r.schedule == log.schedule
    ensures |r.faultLog| == |log.faultLog| + 1 && r.faultLog[..|log.faultLog|] == log.faultLog
    ensures r.faultLog[|log.faultLog|] ==
      FaultEntry(timestamp, room.id, room.name, fault, PostSucceeded(outcome), r.faultLog[|log.faultLog|].errorMessage)
    ensures r.faultLog[|log.faultLog|].errorMessage.Some? <==> !PostSucceeded(outcome)
    ensures !PostSucceeded(outcome) ==> r.faultLog[|log.faultLog|].errorMessage == Some(outcome.error)
  {
    var posted := PostSucceeded(outcome);
    var entry := FaultEntry(timestamp, room.id, room.name, fault, posted,
                            if posted then None else Some(outcome.error));
    log.(faultLog := log.faultLog + [entry])
  }

  /** A failed post is logged as not posted, but the as-written log keeps no trace of why. */
  lemma FailedPostLosesError(log: MaintenanceLog, room: Room, fault: Fault, timestamp: string)
    ensures var e := "timeout";
            var w := PostFaultAsWritten(log, room, fault, timestamp, Raised(e)).faultLog[|log.faultLog|];
            var c := PostFault(log, room, fault, timestamp, Raised(e)).faultLog[|log.faultLog|];
            !w.postedToThread && w.errorMessage.None? && c.errorMessage == Some(e)
  {
    assert |Lower("timeout")| < |"threadmessage"|;
  }

  lemma LowerThreadMessage()
    ensures Lower("ThreadMessage") == "threadmessage"
  {
  }

  /** The warning text the SDK raises after a successful send names both markers. */
  lemma SdkWarningText()
    ensures PostedDespiteWarning("ThreadMessage was never awaited")
  {
    var e := "ThreadMessage was never awaited";
    assert OccursAt(e, 0, "ThreadMessage");
    assert OccursAt(e, 24, "await");
    LowerThreadMessage();
    assert Lower("await") == "await";
    LowerOccurs(e, 0, "ThreadMessage");
    LowerOccurs(e, 24, "await");
  }

  /** The warning text the SDK raises after a successful send counts as posted in both versions. */
  lemma SdkWarningCountsAsPosted(log: MaintenanceLog, room: Room, fault: Fault, timestamp: string)
    ensures var e := "ThreadMessage was never awaited";
            && PostFault(log, room, fault, timestamp, Raised(e)).faultLog[|log.faultLog|].postedToThread
            && PostFaultAsWritten(log, room, fault, timestamp, Raised(e)).faultLog[|log.faultLog|].postedToThread
  {
    SdkWarningText();
  }

  /** The record the as-written append leaves for one post: this room, fault and time, the post's success, and no error text. */
  predicate LoggedAsWritten(e: FaultEntry, room: Room, fault: Fault, timestamp: string, outcome: SendOutcome) {
    && e.fault == fault && e.timestamp == timestamp && e.roomId == room.id && e.roomName == room.name
    && e.postedToThread == PostSucceeded(outcome)
    && e.errorMessage.None?
  }

  /**
   * `monitor_rooms`' loop over one room's faults: each fault is posted with
   * the as-written log append, in order, each under the time read for it
   * (`clock(i)` for the i-th post), with the outcome of that post
 * (`send(i)`), so a send that fails once and then succeeds can be told apart. The log grows by exactly one record per
   * fault, in that order, and no record keeps an error text.
   */
  function PostAll(log: MaintenanceLog, room: Room, faults: seq<Fault>, clock: nat -> string,
                   send: nat -> SendOutcome): (r: MaintenanceLog)
    ensures r.schedule == log.schedule
    ensures |r.faultLog| == |log.faultLog| + |faults| && r.faultLog[..|log.faultLog|] == log.faultLog
    ensures forall i :: 0 <= i < |faults| ==>
      LoggedAsWritten(r.faultLog[|log.faultLog| + i], room, faults[i], clock(i), send(i))
    decreases |faults|
  {
    if |faults| == 0 then log
    else
      var n := |faults| - 1;
      var prev := PostAll(log, room, faults[..n], clock, send);
      var r := PostFaultAsWritten(prev, room, faults[n], clock(n), send(n));
      assert forall j :: 0 <= j < |prev.faultLog| ==> r.faultLog[j] == prev.faultLog[j];
      assert forall i :: 0 <= i < n ==> faults[..n][i] == faults[i];
      assert r.faultLog[..|log.faultLog|] == prev.faultLog[..|log.faultLog|];
      r
  }

  /** What `archive_and_clear_maintenance` writes: one file per non-empty list. */
  datatype Archive = FaultLogArchive(entries: seq<FaultEntry>) | ScheduleArchive(items: seq<ScheduleItem>)

  /** `archive_and_clear_maintenance`: every non-empty list is archived, then both are empty. */
  function ArchiveAndClear(log: MaintenanceLog): (r: (MaintenanceLog, seq<Archive>))
    ensures r.0.faultLog == [] && r.0.schedule == []
    ensures FaultLogArchive(log.faultLog) in r.1 <==> |log.faultLog| > 0
    ensures ScheduleArchive(log.schedule) in r.1 <==> |log.schedule| > 0
    ensures |r.1| <= 2
    ensures forall i :: 0 <= i < |r.1| ==> r.1[i] == FaultLogArchive(log.faultLog) || r.1[i] == ScheduleArchive(log.schedule)
  {
    var a := if |log.faultLog| > 0 then [FaultLogArchive(log.faultLog)] else [];
    var b := if |log.schedule| > 0 then [ScheduleArchive(log.schedule)] else [];
    (MaintenanceLog([], []), a + b)
  }

  /** Nothing is lost by clearing: every record before the clear is in an archive. */
  lemma ClearedRecordsAreArchived(log: MaintenanceLog, k: nat)
    requires k < |log.faultLog|
    ensures exists a :: a in ArchiveAndClear(log).1 && a.FaultLogArchive? && log.faultLog[k] in a.entries
  {
    assert FaultLogArchive(log.faultLog) in ArchiveAndClear(log).1;
  }

  /** Clearing twice is clearing once, and the second clear writes nothing. */
  lemma ArchiveAndClearIdempotent(log: MaintenanceLog)
    ensures ArchiveAndClear(ArchiveAndClear(log).0).0 == ArchiveAndClear(log).0
    ensures ArchiveAndClear(ArchiveAndClear(log).0).1 == []
  {
  }

  // ---- the maintenance counters ----

  /** A maintenance item as the query returns it; `start_time` may be missing. */
  datatype Item = Item(status: Option<string>, startTime: Option<string>)

  /** The counters' clock: `datetime.now(timezone.utc)`, an aware instant. */
  function Now(now: int): Instant {
    Instant(now, true)
  }

  /**
   * An item counted overdue: not cancelled, and its start parses to a time
   * that compares with the aware clock without raising and lies before it.
   * A missing start, an unparsable one, and a naive one (whose comparison
   * with the aware clock raises `TypeError`) are all skipped by the `except`.
   */
  predicate IsOverdue(it: Item, parse: string -> Option<Instant>, now: int) {
    it.status != Some("cancelled") && it.startTime.Some? &&
    parse(it.startTime.value).Some? && Lt(parse(it.startTime.value).value, Now(now)) == Some(true)
  }

  /** A naive start time is never counted, however long ago it lies. */
  lemma NaiveStartNeverOverdue(items: seq<Item>, parse: string -> Option<Instant>, now: int)
    requires forall i :: 0 <= i < |items| && items[i].startTime.Some? && parse(items[i].startTime.value).Some? ==>
      !parse(items[i].startTime.value).value.aware
    ensures CountOverdue(items, parse, now) == 0
  {
  }

  /** An aware start time counts exactly when the item is live and its instant precedes now. */
  lemma AwareStartCounts(it: Item, parse: string -> Option<Instant>, now: int)
    requires it.startTime.Some? && parse(it.startTime.value).Some? && parse(it.startTime.value).value.aware
    ensures IsOverdue(it, parse, now) <==> it.status != Some("cancelled") && parse(it.startTime.value).value.at < now
  {
  }

  function CountOverdue(items: seq<Item>, parse: string -> Option<Instant>, now: int): (n: nat)
    ensures n <= |items|
    ensures n == 0 <==> forall i :: 0 <= i < |items| ==> !IsOverdue(items[i], parse, now)
    ensures n == |items| <==> forall i :: 0 <= i < |items| ==> IsOverdue(items[i], parse, now)
  {
    if |items| == 0 then 0
    else (if IsOverdue(items[0], parse, now) then 1 else 0) + CountOverdue(items[1..], parse, now)
  }

  /** The overdue items of a list, in order: the reference the count is measured against. */
  function OverdueItems(items: seq<Item>, parse: string -> Option<Instant>, now: int): (r: seq<Item>)
    ensures forall i :: 0 <= i < |r| ==> r[i] in items && IsOverdue(r[i], parse, now)
    ensures forall i :: 0 <= i < |items| && IsOverdue(items[i], parse, now) ==> items[i] in r
  {
    if |items| == 0 then []
    else (if IsOverdue(items[0], parse, now) then [items[0]] else []) + OverdueItems(items[1..], parse, now)
  }

  /** The count is the number of overdue items. */
  lemma {:induction false} CountIsOverdueItems(items: seq<Item>, parse: string -> Option<Instant>, now: int)
    ensures CountOverdue(items, parse, now) == |OverdueItems(items, parse, now)|
    decreases |items|
  {
    if |items| > 0 {
      CountIsOverdueItems(items[1..], parse, now);
    }
  }

  /** The maintenance items of the rooms, room after room: the reference the counters are measured against. */
  function AllItems(roomIds: seq<string>, maintenance: string -> seq<Item>): seq<Item>
  {
    if |roomIds| == 0 then [] else maintenance(roomIds[0]) + AllItems(roomIds[1..], maintenance)
  }

  lemma {:induction false} CountOverdueAppend(a: seq<Item>, b: seq<Item>, parse: string -> Option<Instant>, now: int)
    ensures CountOverdue(a + b, parse, now) == CountOverdue(a, parse, now) + CountOverdue(b, parse, now)
    decreases |a|
  {
    if |a| > 0 {
      assert (a + b)[1..] == a[1..] + b;
      CountOverdueAppend(a[1..], b, parse, now);
    } else {
      assert a + b == b;
    }
  }

  /**
   * `compute_sql_maintenance_counters`: over the rooms, the number of
   * maintenance items and the number counted overdue. `maintenance` is the
   * per-room query; `now` the current instant.
   */
  function ComputeCounters(roomIds: seq<string>, maintenance: string -> seq<Item>,
                           parse: string -> Option<Instant>, now: int): (r: (nat, nat))
    ensures r.0 == |AllItems(roomIds, maintenance)|
    ensures r.1 == CountOverdue(AllItems(roomIds, maintenance), parse, now)
    ensures r.1 <= r.0
  {
    if |roomIds| == 0 then (0, 0)
    else
      var items := maintenance(roomIds[0]);
      var rest := ComputeCounters(roomIds[1..], maintenance, parse, now);
      CountOverdueAppend(items, AllItems(roomIds[1..], maintenance), parse, now);
      (|items| + rest.0, CountOverdue(items, parse, now) + rest.1)
  }

  /** Cancelled items are never counted overdue, however old their start. */
  lemma {:induction false} CancelledNeverOverdue(items: seq<Item>, parse: string -> Option<Instant>, now: int)
    ensures var cancelled := seq(|items|, i requires 0 <= i < |items| => items[i].(status := Some("cancelled")));
            CountOverdue(cancelled, parse, now) == 0
  {
    var cancelled := seq(|items|, i requires 0 <= i < |items| => items[i].(status := Some("cancelled")));
    assert forall i :: 0 <= i < |cancelled| ==> !IsOverdue(cancelled[i], parse, now);
  }
}

=== FILE: org.dfy ===
/**
 * The organisation structure (`org_structure.json`): departments, the
 * courses and societies each department owns, and the admin users with a
 * role scope. Both the calendar server's user and entity checks and the
 * communications agent's e-mail lookups read this shape.
 */
module Org {
  import opened Wrappers

  datatype Department = Department(id: int, name: string, email: Option<string>)

  datatype Course = Course(id: int, departmentId: Option<int>, name: string, email: Option<string>)

  datatype Society = Society(id: int, departmentId: Option<int>, name: string, email: Option<string>)

  /**
   * A user record. `roleScope` is "department", "staff" or "society_officer"
   * in generated data; `scopeId` is the department or society the role is
   * scoped to. `departmentId` is `None` when the record has no such key.
   */
  datatype User = User(
    id: int,
    name: Option<string>,
    email: Option<string>,
    roleScope: string,
    scopeId: Option<int>,
    departmentId: Option<int>)

  datatype OrgStructure = OrgStructure(
    departments: seq<Department>,
    courses: seq<Course>,
    societies: seq<Society>,
    users: seq<User>)
}

=== FILE: org_generator.dfy ===
/**
 * The org-structure generator: departments 1..NUM_DEPARTMENTS, each owning
 * COURSES_PER_DEPT courses and SOCIETIES_PER_DEPT societies, then the admin
 * users (department admins and staff admins per department, officers per
 * society) numbered by a running id counter. Faker's names and the slugify
 * library are abstracted as the `Names` parameter.
 */
module OrgGenerator {
  import opened Wrappers
  import opened Org

  const NUM_DEPARTMENTS: nat := 2
  const COURSES_PER_DEPT: nat := 3
  const SOCIETIES_PER_DEPT: nat := 3
  const DEPT_ADMINS_PER_DEPT: nat := 2
  const STAFF_ADMINS_PER_DEPT: nat := 2
  const OFFICERS_PER_SOCIETY: nat := 1
  const DOMAIN: string := "example.edu"

  /** Admin users generated per department. */
  const ADMINS_PER_DEPT: nat := DEPT_ADMINS_PER_DEPT + STAFF_ADMINS_PER_DEPT

  /** Where generated names and person e-mails come from (Faker, seeded), and slugify. */
  datatype Names = Names(
    department: int -> string,
    course: int -> string,
    society: int -> string,
    person: int -> string,
    personEmail: int -> string,
    slug: string -> string)

  /** `make_email`: a mailing-list address in DOMAIN. */
  function MakeEmail(names: Names, name: string, suffix: string): (r: string)
    ensures |r| > |DOMAIN|
    ensures r[|r| - |DOMAIN|..] == DOMAIN
  {
    names.slug(name) + "-" + suffix + "@" + DOMAIN
  }

  /** `add_user`: appends a user carrying the counter as id and advances the counter. */
  function AddUser(users: seq<User>, counter: int, name: string, email: string, role: string, scope: int)
    : (r: (seq<User>, int))
    ensures r.0 == users + [User(counter, Some(name), Some(email), role, Some(scope), None)]
    ensures r.1 == counter + 1
  {
    (users + [User(counter, Some(name), Some(email), role, Some(scope), None)], counter + 1)
  }

  /** The role given to the `k`-th admin of a department. */
  function AdminRole(k: int): string {
    if k < DEPT_ADMINS_PER_DEPT then "department" else "staff"
  }

  /** Departments with their courses and societies (the first generation loop). */
  method GenerateEntities(names: Names) returns (departments: seq<Department>, courses: seq<Course>, societies: seq<Society>)
    ensures |departments| == NUM_DEPARTMENTS
    ensures forall i :: 0 <= i < |departments| ==> departments[i].id == i + 1
    ensures |courses| == NUM_DEPARTMENTS * COURSES_PER_DEPT
    ensures forall i :: 0 <= i < |courses| ==>
      courses[i].id == i + 1 && courses[i].departmentId == Some(i / COURSES_PER_DEPT + 1)
    ensures |societies| == NUM_DEPARTMENTS * SOCIETIES_PER_DEPT
    ensures forall i :: 0 <= i < |societies| ==>
      societies[i].id == i + 1 && societies[i].departmentId == Some(i / SOCIETIES_PER_DEPT + 1)
  {
    departments, courses, societies := [], [], [];
    var deptId := 1;
    while deptId <= NUM_DEPARTMENTS
      invariant 1 <= deptId <= NUM_DEPARTMENTS + 1
      invariant |departments| == deptId - 1
      invariant forall i :: 0 <= i < |departments| ==> departments[i].id == i + 1
      invariant |courses| == (deptId - 1) * COURSES_PER_DEPT
      invariant forall i :: 0 <= i < |courses| ==>
        courses[i].id == i + 1 && courses[i].departmentId == Some(i / COURSES_PER_DEPT + 1)
      invariant |societies| == (deptId - 1) * SOCIETIES_PER_DEPT
      invariant forall i :: 0 <= i < |societies| ==>
        societies[i].id == i + 1 && societies[i].departmentId == Some(i / SOCIETIES_PER_DEPT + 1)
    {
      var deptName := names.department(deptId);
      departments := departments + [Department(deptId, deptName, Some(MakeEmail(names, deptName, "dept")))];

      var k := 0;
      while k < COURSES_PER_DEPT
        invariant 0 <= k <= COURSES_PER_DEPT
        invariant |courses| == (deptId - 1) * COURSES_PER_DEPT + k
        invariant forall i :: 0 <= i < |courses| ==>
          courses[i].id == i + 1 && courses[i].departmentId == Some(i / COURSES_PER_DEPT + 1)
      {
        var courseId := |courses| + 1;
        var courseName := names.course(courseId);
        courses := courses + [Course(courseId, Some(deptId), courseName, Some(MakeEmail(names, courseName, "course")))];
        k := k + 1;
      }

      k := 0;
      while k < SOCIETIES_PER_DEPT
        invariant 0 <= k <= SOCIETIES_PER_DEPT
        invariant |societies| == (deptId - 1) * SOCIETIES_PER_DEPT + k
        invariant forall i :: 0 <= i < |societies| ==>
          societies[i].id == i + 1 && societies[i].departmentId == Some(i / SOCIETIES_PER_DEPT + 1)
      {
        var socId := |societies| + 1;
        var socName := names.society(socId);
        societies := societies + [Society(socId, Some(deptId), socName, Some(MakeEmail(names, socName, "soc")))];
        k := k + 1;
      }
      deptId := deptId + 1;
    }
  }

  /** The `k`-th admin of department position `d` sits at index `d * ADMINS_PER_DEPT + k`. */
  lemma AdminSlot(d: nat, k: nat)
    requires k < ADMINS_PER_DEPT
    ensures (d * ADMINS_PER_DEPT + k) / ADMINS_PER_DEPT == d
    ensures (d * ADMINS_PER_DEPT + k) % ADMINS_PER_DEPT == k
  {
  }

  /** The department admins and staff admins, numbered from `counter0`. */
  method GenerateAdmins(names: Names, departments: seq<Department>, counter0: int)
    returns (users: seq<User>, counter: int)
    ensures counter == counter0 + |users|
    ensures |users| == |departments| * ADMINS_PER_DEPT
    ensures forall i :: 0 <= i < |users| ==> users[i].id == counter0 + i && users[i].departmentId.None?
    ensures forall i :: 0 <= i < |users| ==>
      users[i].roleScope == AdminRole(i % ADMINS_PER_DEPT) && users[i].scopeId == Some(departments[i / ADMINS_PER_DEPT].id)
  {
    users, counter := [], counter0;
    var d := 0;
    while d < |departments|
      invariant 0 <= d <= |departments|
      invariant counter == counter0 + |users|
      invariant |users| == d * ADMINS_PER_DEPT
      invariant forall i :: 0 <= i < |users| ==> users[i].id == counter0 + i && users[i].departmentId.None?
      invariant forall i :: 0 <= i < |users| ==>
        users[i].roleScope == AdminRole(i % ADMINS_PER_DEPT) && users[i].scopeId == Some(departments[i / ADMINS_PER_DEPT].id)
    {
      var k := 0;
      while k < ADMINS_PER_DEPT
        invariant 0 <= k <= ADMINS_PER_DEPT
        invariant counter == counter0 + |users|
        invariant |users| == d * ADMINS_PER_DEPT + k
        invariant forall i :: 0 <= i < |users| ==> users[i].id == counter0 + i && users[i].departmentId.None?
        invariant forall i :: 0 <= i < |users| ==>
          users[i].roleScope == AdminRole(i % ADMINS_PER_DEPT) && users[i].scopeId == Some(departments[i / ADMINS_PER_DEPT].id)
      {
        // the first DEPT_ADMINS_PER_DEPT are "department" users, the rest "staff" users
        var added := AddUser(users, counter, names.person(counter), names.personEmail(counter), AdminRole(k), departments[d].id);
        AdminSlot(d, k);
        var slot := |users|;
        users, counter := added.0, added.1;
        assert users[slot].roleScope == AdminRole(slot % ADMINS_PER_DEPT);
        assert users[slot].scopeId == Some(departments[slot / ADMINS_PER_DEPT].id);
        k := k + 1;
      }
      d := d + 1;
    }
  }

  /** The society officers, numbered from `counter0`. */
  method GenerateOfficers(names: Names, societies: seq<Society>, counter0: int)
    returns (users: seq<User>, counter: int)
    ensures counter == counter0 + |users|
    ensures |users| == |societies| * OFFICERS_PER_SOCIETY
    ensures forall i :: 0 <= i < |users| ==> users[i].id == counter0 + i && users[i].departmentId.None?
    ensures forall i :: 0 <= i < |users| ==>
      users[i].roleScope == "society_officer" && users[i].scopeId == Some(societies[i / OFFICERS_PER_SOCIETY].id)
  {
    users, counter := [], counter0;
    var s := 0;
    while s < |societies|
      invariant 0 <= s <= |societies|
      invariant counter == counter0 + |users|
      invariant |users| == s * OFFICERS_PER_SOCIETY
      invariant forall i :: 0 <= i < |users| ==> users[i].id == counter0 + i && users[i].departmentId.None?
      invariant forall i :: 0 <= i < |users| ==>
        users[i].roleScope == "society_officer" && users[i].scopeId == Some(societies[i / OFFICERS_PER_SOCIETY].id)
    {
      var k := 0;
      while k < OFFICERS_PER_SOCIETY
        invariant 0 <= k <= OFFICERS_PER_SOCIETY
        invariant counter == counter0 + |users|
        invariant |users| == s * OFFICERS_PER_SOCIETY + k
        invariant forall i :: 0 <= i < |users| ==> users[i].id == counter0 + i && users[i].departmentId.None?
        invariant forall i :: 0 <= i < |users| ==>
          users[i].roleScope == "society_officer" && users[i].scopeId == Some(societies[i / OFFICERS_PER_SOCIETY].id)
      {
        var added := AddUser(users, counter, names.person(counter), names.personEmail(counter), "society_officer", societies[s].id);
        users, counter := added.0, added.1;
        k := k + 1;
      }
      s := s + 1;
    }
  }

  /** All admin users: `add_user`'s counter starts at 1 and runs through both loops. */
  method GenerateUsers(names: Names, departments: seq<Department>, societies: seq<Society>) returns (users: seq<User>)
    ensures |users| == |departments| * ADMINS_PER_DEPT + |societies| * OFFICERS_PER_SOCIETY
    ensures forall i :: 0 <= i < |users| ==> users[i].id == i + 1 && users[i].departmentId.None?
    ensures forall i :: 0 <= i < |departments| * ADMINS_PER_DEPT ==>
      && users[i].roleScope == AdminRole(i % ADMINS_PER_DEPT)
      && users[i].scopeId == Some(departments[i / ADMINS_PER_DEPT].id)
    ensures forall i :: |departments| * ADMINS_PER_DEPT <= i < |users| ==>
      && users[i].roleScope == "society_officer"
      && users[i].scopeId == Some(societies[(i - |departments| * ADMINS_PER_DEPT) / OFFICERS_PER_SOCIETY].id)
  {
    var admins, counter := GenerateAdmins(names, departments, 1);
    var officers, _ := GenerateOfficers(names, societies, counter);
    users := admins + officers;
    assert forall i :: |admins| <= i < |users| ==> users[i] == officers[i - |admins|];
  }

  /** The whole generator run. */
  method Generate(names: Names) returns (org: OrgStructure)
    ensures |org.departments| == NUM_DEPARTMENTS
    ensures forall i :: 0 <= i < |org.departments| ==> org.departments[i].id == i + 1
    ensures |org.courses| == NUM_DEPARTMENTS * COURSES_PER_DEPT
    ensures forall i :: 0 <= i < |org.courses| ==>
      org.courses[i].id == i + 1 && org.courses[i].departmentId == Some(i / COURSES_PER_DEPT + 1)
    ensures |org.societies| == NUM_DEPARTMENTS * SOCIETIES_PER_DEPT
    ensures forall i :: 0 <= i < |org.societies| ==>
      org.societies[i].id == i + 1 && org.societies[i].departmentId == Some(i / SOCIETIES_PER_DEPT + 1)
    ensures |org.users| == 14
    ensures GeneratedShape(org)
  {
    var departments, courses, societies := GenerateEntities(names);
    var users := GenerateUsers(names, departments, societies);
    org := OrgStructure(departments, courses, societies, users);
  }

  /**
   * The shape every generated structure has, stated without the loop
   * positions: ids consecutive from 1, every user without `department_id`,
   * admins scoped to an existing department id, officers to an existing
   * society id, and every course and society owned by an existing department.
   */
  ghost predicate GeneratedShape(org: OrgStructure) {
    && (forall i :: 0 <= i < |org.departments| ==> org.departments[i].id == i + 1)
    && (forall i :: 0 <= i < |org.courses| ==>
         org.courses[i].departmentId.Some? && 1 <= org.courses[i].departmentId.value <= |org.departments|)
    && (forall i :: 0 <= i < |org.societies| ==>
         org.societies[i].id == i + 1 && org.societies[i].departmentId.Some?
         && 1 <= org.societies[i].departmentId.value <= |org.departments|)
    && (forall i :: 0 <= i < |org.users| ==> org.users[i].id == i + 1 && org.users[i].departmentId.None?)
    && (forall u :: u in org.users ==>
         u.scopeId.Some? && (u.roleScope == "department" || u.roleScope == "staff" || u.roleScope == "society_officer"))
    && (forall u :: u in org.users && (u.roleScope == "department" || u.roleScope == "staff") ==>
         1 <= u.scopeId.value <= |org.departments|)
    && (forall u :: u in org.users && u.roleScope == "society_officer" ==>
         1 <= u.scopeId.value <= |org.societies|)
  }
}

=== FILE: patterns.dfy ===
/**
 * The few regular-expression shapes the communications agent uses, each
 * written out as a function over the string: character classes, maximal
 * runs (greedy `+`), and leftmost search (`re.search`).
 */
module Patterns {
  import opened Wrappers
  import opened Text

  /** `\w` on ASCII: letters, digits and underscore. */
  predicate IsWordChar(c: char) {
    ('a' <= c <= 'z') || ('A' <= c <= 'Z') || ('0' <= c <= '9') || c == '_'
  }

  /** The class `[\w .-]`. */
  predicate IsNameChar(c: char) {
    IsWordChar(c) || c == ' ' || c == '.' || c == '-'
  }

  /** The class `[^)]`. */
  predicate NotCloseParen(c: char) {
    c != ')'
  }

  /** The class `[^(]`. */
  predicate NotOpenParen(c: char) {
    c != '('
  }

  /** `.` without DOTALL: anything but a newline. */
  predicate NotNewline(c: char) {
    c != '\n'
  }

  /** Length of the longest run of `p`-characters starting at `i`: what a greedy `p+` consumes. */
  function Run(s: string, i: nat, p: char -> bool): (n: nat)
    requires i <= |s|
    ensures i + n <= |s|
    ensures forall k :: i <= k < i + n ==> p(s[k])
    ensures i + n < |s| ==> !p(s[i + n])
    decreases |s| - i
  {
    if i == |s| || !p(s[i]) then 0 else 1 + Run(s, i + 1, p)
  }

  /** A run of `p`-characters that stops at the end or at a character outside `p` is the run a greedy `p+` takes. */
  lemma RunIs(s: string, i: nat, n: nat, p: char -> bool)
    requires i + n <= |s|
    requires forall k :: i <= k < i + n ==> p(s[k])
    requires i + n < |s| ==> !p(s[i + n])
    ensures Run(s, i, p) == n
  {
  }

  /** The group of `prefix(p+)` matched at `i`, if the pattern matches there. */
  function CaptureAt(s: string, i: nat, prefix: string, p: char -> bool): (r: Option<string>)
    ensures r.Some? <==> OccursAt(s, i, prefix) && i + |prefix| < |s| && p(s[i + |prefix|])
    ensures r.Some? ==>
      && |r.value| > 0
      && i + |prefix| + |r.value| <= |s|
      && r.value == s[i + |prefix|..i + |prefix| + |r.value|]
      && (forall k :: 0 <= k < |r.value| ==> p(r.value[k]))
      && (i + |prefix| + |r.value| < |s| ==> !p(s[i + |prefix| + |r.value|]))
  {
    if OccursAt(s, i, prefix) && i + |prefix| < |s| && p(s[i + |prefix|]) then
      var j := i + |prefix|;
      var n := Run(s, j, p);
      Some(s[j..j + n])
    else None
  }

  /** The leftmost position `k` in `from..last` (inclusive) where `matches(k)` holds: the scan `re.search` makes. */
  function LeftmostFrom(matches: nat -> bool, from: nat, last: nat): (r: Option<nat>)
    ensures r.Some? ==> from <= r.value <= last && matches(r.value)
    ensures r.Some? ==> forall k :: from <= k < r.value ==> !matches(k)
    ensures r.None? <==> forall k :: from <= k <= last ==> !matches(k)
    decreases last + 1 - from
  {
    if from > last then None
    else if matches(from) then Some(from)
    else LeftmostFrom(matches, from + 1, last)
  }

  /** `re.search` for `prefix(p+)`: the leftmost position from `from` on where it matches. */
  function SearchFrom(s: string, prefix: string, p: char -> bool, from: nat): (r: Option<nat>)
    ensures r.Some? ==> from <= r.value <= |s| && CaptureAt(s, r.value, prefix, p).Some?
    ensures r.Some? ==> forall k :: from <= k < r.value ==> CaptureAt(s, k, prefix, p).None?
    ensures r.None? <==> forall k :: from <= k <= |s| ==> CaptureAt(s, k, prefix, p).None?
  {
    var matches := (k: nat) => CaptureAt(s, k, prefix, p).Some?;
    assert forall k: nat :: matches(k) == CaptureAt(s, k, prefix, p).Some?;
    LeftmostFrom(matches, from, |s|)
  }

  /** `re.search(prefix + '(p+)', s).group(1)`, or `None`. */
  function Search(s: string, prefix: string, p: char -> bool): (r: Option<string>)
    ensures r.None? <==> forall k :: 0 <= k <= |s| ==> CaptureAt(s, k, prefix, p).None?
    ensures r.Some? ==> r == CaptureAt(s, SearchFrom(s, prefix, p, 0).value, prefix, p)
  {
    var k := SearchFrom(s, prefix, p, 0);
    if k.Some? then CaptureAt(s, k.value, prefix, p) else None
  }

  /**
   * A text where `prefix` first occurs at `at`, followed by a maximal
   * `p`-run: `re.search` answers that run.
   */
  lemma SearchAt(s: string, prefix: string, at: nat, run: string, p: char -> bool)
    requires OccursAt(s, at, prefix) && OccursAt(s, at + |prefix|, run) && |run| > 0
    requires forall k :: 0 <= k < at ==> !OccursAt(s, k, prefix)
    requires forall k :: 0 <= k < |run| ==> p(run[k])
    requires at + |prefix| + |run| < |s| ==> !p(s[at + |prefix| + |run|])
    ensures Search(s, prefix, p) == Some(run)
  {
    var j := at + |prefix|;
    forall k | j <= k < j + |run| ensures p(s[k]) {
      OccursCovers(s, j, run, k);
    }
    RunIs(s, j, |run|, p);
    assert CaptureAt(s, at, prefix, p) == Some(run);
    assert SearchFrom(s, prefix, p, 0) == Some(at);
  }

  /** `re.fullmatch(r"[^@\s]+@[^@\s]+\.[^@\s]+", t)`: a non-empty local part, `@`, a non-empty domain, `.`, a non-empty suffix, none containing `@` or whitespace. */
  predicate LooksLikeEmail(t: string) {
    && (forall i :: 0 <= i < |t| ==> !IsSpace(t[i]))
    && exists p, q :: && 0 < p && p + 1 < q && q + 1 < |t|
                      && t[p] == '@' && t[q] == '.'
                      && (forall i :: 0 <= i < |t| && i != p ==> t[i] != '@')
  }
}

=== FILE: seqs.dfy ===
/** Linear searches and filters over sequences, in the order Python's `for` loops visit them. */
module Seqs {
  import opened Wrappers

  /** The index of the first element satisfying `p` (a `for ... if ...: return` loop). */
  function FirstIndex<T>(xs: seq<T>, p: T -> bool): (r: Option<nat>)
    ensures r.Some? ==> r.value < |xs| && p(xs[r.value]) && forall j :: 0 <= j < r.value ==> !p(xs[j])
    ensures r.None? <==> forall j :: 0 <= j < |xs| ==> !p(xs[j])
  {
    if |xs| == 0 then None
    else if p(xs[0]) then Some(0)
    else
      var r := FirstIndex(xs[1..], p);
      assert forall j :: 1 <= j < |xs| ==> xs[j] == xs[1..][j - 1];
      if r.Some? then Some(r.value + 1) else None
  }

  /**
   * Three search passes over one list, each returning at its first hit: the
   * first index satisfying `p`, failing that the first satisfying `q`,
   * failing that the first satisfying `s`.
   */
  function FirstInPasses<T>(xs: seq<T>, p: T -> bool, q: T -> bool, s: T -> bool): (r: Option<nat>)
    ensures r.Some? ==> r.value < |xs| && (p(xs[r.value]) || q(xs[r.value]) || s(xs[r.value]))
    ensures r.None? <==> forall i :: 0 <= i < |xs| ==> !p(xs[i]) && !q(xs[i]) && !s(xs[i])
    ensures forall i :: 0 <= i < |xs| && p(xs[i]) && (forall j :: 0 <= j < i ==> !p(xs[j])) ==> r == Some(i)
    ensures (forall i :: 0 <= i < |xs| ==> !p(xs[i])) ==>
      forall i :: 0 <= i < |xs| && q(xs[i]) && (forall j :: 0 <= j < i ==> !q(xs[j])) ==> r == Some(i)
    ensures (forall i :: 0 <= i < |xs| ==> !p(xs[i]) && !q(xs[i])) ==>
      forall i :: 0 <= i < |xs| && s(xs[i]) && (forall j :: 0 <= j < i ==> !s(xs[j])) ==> r == Some(i)
  {
    var kp := FirstIndex(xs, p);
    if kp.Some? then kp
    else
      var kq := FirstIndex(xs, q);
      if kq.Some? then kq else FirstIndex(xs, s)
  }

  /** The first element satisfying `p`, if any. */
  function First<T>(xs: seq<T>, p: T -> bool): (r: Option<T>)
    ensures r.Some? <==> exists j :: 0 <= j < |xs| && p(xs[j])
    ensures r.Some? ==> p(r.value)
    ensures r.Some? ==> exists j :: 0 <= j < |xs| && xs[j] == r.value && forall i :: 0 <= i < j ==> !p(xs[i])
  {
    var k := FirstIndex(xs, p);
    if k.Some? then Some(xs[k.value]) else None
  }

  /** The elements satisfying `p`, in their original order (a list comprehension with `if`). */
  function Filter<T(==)>(xs: seq<T>, p: T -> bool): (r: seq<T>)
    ensures |r| <= |xs|
    ensures forall i :: 0 <= i < |r| ==> r[i] in xs && p(r[i])
    ensures forall i :: 0 <= i < |xs| && p(xs[i]) ==> xs[i] in r
  {
    if |xs| == 0 then []
    else
      var rest := Filter(xs[1..], p);
      assert forall i :: 1 <= i < |xs| ==> xs[i] == xs[1..][i - 1];
      if p(xs[0]) then [xs[0]] + rest else rest
  }

  /** Filtering keeps the relative order: a filtered list of an appended list is the filtered prefix followed by the filtered suffix. */
  lemma {:induction false} FilterAppend<T>(xs: seq<T>, ys: seq<T>, p: T -> bool)
    ensures Filter(xs + ys, p) == Filter(xs, p) + Filter(ys, p)
  {
    if |xs| == 0 {
      assert xs + ys == ys;
    } else {
      var zs := xs + ys;
      assert zs[0] == xs[0] && zs[1..] == xs[1..] + ys;
      FilterAppend(xs[1..], ys, p);
      if p(xs[0]) {
        calc {
          Filter(zs, p);
          [xs[0]] + Filter(xs[1..] + ys, p);
          [xs[0]] + (Filter(xs[1..], p) + Filter(ys, p));
          ([xs[0]] + Filter(xs[1..], p)) + Filter(ys, p);
        }
      } else {
        assert Filter(zs, p) == Filter(xs[1..] + ys, p);
      }
    }
  }

  /** Removing the element at `k`, as `list.pop(k)` does. */
  function RemoveAt<T>(xs: seq<T>, k: nat): (r: seq<T>)
    requires k < |xs|
    ensures |r| == |xs| - 1
    ensures forall j :: 0 <= j < k ==> r[j] == xs[j]
    ensures forall j :: k <= j < |r| ==> r[j] == xs[j + 1]
  {
    xs[..k] + xs[k + 1..]
  }

  /** Removing the element at `k` takes exactly that one element out of the multiset. */
  lemma RemoveAtMultiset<T>(xs: seq<T>, k: nat)
    requires k < |xs|
    ensures multiset(RemoveAt(xs, k)) + multiset{xs[k]} == multiset(xs)
  {
    var a, b := xs[..k], xs[k + 1..];
    assert xs == a + [xs[k]] + b;
    assert multiset(xs) == multiset(a) + multiset{xs[k]} + multiset(b);
  }
}

=== FILE: simple_permissions.dfy ===
/**
 * The group-based permission checker: a user may book a room for a group
 * when they belong to the group, the group exists, the room exists and the
 * group is allowed that room. The checker's three maps are given, not loaded.
 */
module SimplePermissions {

  datatype DirectoryUser = DirectoryUser(name: string, groupMemberships: seq<string>)

  datatype Group = Group(name: string, allowedRooms: seq<string>)

  datatype RoomEntry = RoomEntry(name: string)

  /** The checker's state: users, groups and rooms, each keyed by id. */
  datatype Checker = Checker(
    users: map<string, DirectoryUser>,
    groups: map<string, Group>,
    rooms: map<string, RoomEntry>)

  /** The answer of `can_user_book_room_for_group`: allowed, or the first gate that failed. */
  datatype Decision = Allowed | UserNotFound | NotAMember | GroupNotFound | RoomNotFound | RoomNotAllowed

  /** The five conditions of a permitted booking. */
  predicate MayBook(c: Checker, userId: string, roomId: string, groupId: string) {
    && userId in c.users
    && groupId in c.users[userId].groupMemberships
    && groupId in c.groups
    && roomId in c.rooms
    && roomId in c.groups[groupId].allowedRooms
  }

  /** `can_user_book_room_for_group`: the five gates, checked in the source's order. */
  function CanUserBookRoomForGroup(c: Checker, userId: string, roomId: string, groupId: string): (r: Decision)
    ensures r.Allowed? <==> MayBook(c, userId, roomId, groupId)
    ensures r == UserNotFound <==> userId !in c.users
    ensures r == NotAMember <==> userId in c.users && groupId !in c.users[userId].groupMemberships
    ensures r == GroupNotFound <==>
      userId in c.users && groupId in c.users[userId].groupMemberships && groupId !in c.groups
    ensures r == RoomNotFound <==>
      userId in c.users && groupId in c.users[userId].groupMemberships && groupId in c.groups && roomId !in c.rooms
  {
    if userId !in c.users then UserNotFound
    else if groupId !in c.users[userId].groupMemberships then NotAMember
    else if groupId !in c.groups then GroupNotFound
    else if roomId !in c.rooms then RoomNotFound
    else if roomId !in c.groups[groupId].allowedRooms then RoomNotAllowed
    else Allowed
  }

  /** `get_user_groups`: the user's memberships, or nothing for an unknown user. */
  function GetUserGroups(c: Checker, userId: string): (r: seq<string>)
    ensures userId !in c.users ==> r == []
    ensures userId in c.users ==> r == c.users[userId].groupMemberships
  {
    if userId !in c.users then [] else c.users[userId].groupMemberships
  }

  /** `get_group_rooms`: the group's allowed rooms, or nothing for an unknown group. */
  function GetGroupRooms(c: Checker, groupId: string): (r: seq<string>)
    ensures groupId !in c.groups ==> r == []
    ensures groupId in c.groups ==> r == c.groups[groupId].allowedRooms
  {
    if groupId !in c.groups then [] else c.groups[groupId].allowedRooms
  }

  /** An allowed booking is visible through the two listing queries. */
  lemma AllowedIsListed(c: Checker, userId: string, roomId: string, groupId: string)
    requires CanUserBookRoomForGroup(c, userId, roomId, groupId).Allowed?
    ensures groupId in GetUserGroups(c, userId)
    ensures roomId in GetGroupRooms(c, groupId)
    ensures roomId in c.rooms
  {
  }

  /** The converse needs the room to exist: the listings alone do not grant a booking. */
  lemma ListedAndKnownIsAllowed(c: Checker, userId: string, roomId: string, groupId: string)
    requires groupId in GetUserGroups(c, userId)
    requires roomId in GetGroupRooms(c, groupId)
    requires roomId in c.rooms
    ensures CanUserBookRoomForGroup(c, userId, roomId, groupId).Allowed?
  {
  }

  /** A member of a group that does not exist is told the group is missing, not that they are not a member. */
  lemma MissingGroupReportedAsMissing(c: Checker, userId: string, roomId: string, groupId: string)
    requires userId in c.users && groupId in c.users[userId].groupMemberships
    requires groupId !in c.groups
    ensures CanUserBookRoomForGroup(c, userId, roomId, groupId) == GroupNotFound
  {
  }
}

=== FILE: synthetic_calendar.dfy ===
/**
 * The synthetic calendar service: rooms and events held in memory with
 * already-parsed times. A range query with closed intersection, an
 * availability check with the half-open overlap test, and a schedule step
 * that appends only when the room is free. Times carry their
 * offset-awareness: a query or check that has to order a naive time against
 * an aware one raises, and the model says where that escapes and where it
 * is caught.
 */
module SyntheticCalendar {
  import opened Wrappers
  import opened Seqs
  import opened Instants

  datatype SRoom = SRoom(id: string, name: string)

  /** A stored event; times are instants, already parsed by `fromisoformat`. */
  datatype SEvent = SEvent(
    id: string, title: string, start: Instant, end: Instant,
    roomId: Option<string>, organizer: string, description: string)

  datatype Service = Service(rooms: seq<SRoom>, events: seq<SEvent>)

  /** The closed-interval test `get_events` uses, `start <= end_date and end >= start_date`; `None` where it raises. */
  function RangeTest(ev: SEvent, startDate: Instant, endDate: Instant): Option<bool> {
    AndThen(Le(ev.start, endDate), Le(startDate, ev.end))
  }

  /** The event meets the range, touching included. */
  predicate InRange(ev: SEvent, startDate: Instant, endDate: Instant) {
    RangeTest(ev, startDate, endDate) == Some(true)
  }

  predicate RoomMatches(ev: SEvent, roomId: Option<string>) {
    roomId.None? || ev.roomId == roomId
  }

  /**
   * `get_events`: the events meeting the range (closed), optionally of one
   * room, in store order. The range test runs before the room filter and
   * nothing catches its `TypeError`, so one event of any room whose times
   * cannot be ordered against the range makes the whole query fail (`None`).
   */
  function GetEvents(events: seq<SEvent>, startDate: Instant, endDate: Instant, roomId: Option<string>): (r: Option<seq<SEvent>>)
    ensures r.None? <==> exists i :: 0 <= i < |events| && RangeTest(events[i], startDate, endDate).None?
    ensures r.Some? ==> forall i :: 0 <= i < |r.value| ==>
      r.value[i] in events && InRange(r.value[i], startDate, endDate) && RoomMatches(r.value[i], roomId)
    ensures r.Some? ==> forall i :: (0 <= i < |events| && InRange(events[i], startDate, endDate) && RoomMatches(events[i], roomId))
                                    ==> events[i] in r.value
  {
    if exists i :: 0 <= i < |events| && RangeTest(events[i], startDate, endDate).None? then None
    else Some(Filter(events, (ev: SEvent) => InRange(ev, startDate, endDate) && RoomMatches(ev, roomId)))
  }

  /**
   * The query keeps store order: querying a list extended at the end extends
   * the answer at the end, and it fails exactly when either part fails.
   */
  lemma GetEventsAppend(events: seq<SEvent>, more: seq<SEvent>, startDate: Instant, endDate: Instant, roomId: Option<string>)
    ensures GetEvents(events + more, startDate, endDate, roomId) ==
            if GetEvents(events, startDate, endDate, roomId).Some? && GetEvents(more, startDate, endDate, roomId).Some?
            then Some(GetEvents(events, startDate, endDate, roomId).value + GetEvents(more, startDate, endDate, roomId).value)
            else None
  {
    var all := events + more;
    assert forall i :: 0 <= i < |events| ==> all[i] == events[i];
    assert forall i :: 0 <= i < |more| ==> all[|events| + i] == more[i];
    if GetEvents(all, startDate, endDate, roomId).None? {
      var i :| 0 <= i < |all| && RangeTest(all[i], startDate, endDate).None?;
      if i < |events| {
        assert GetEvents(events, startDate, endDate, roomId).None?;
      } else {
        assert more[i - |events|] == all[i];
        assert GetEvents(more, startDate, endDate, roomId).None?;
      }
    } else {
      FilterAppend(events, more, (ev: SEvent) => InRange(ev, startDate, endDate) && RoomMatches(ev, roomId));
    }
  }

  /**
   * On a single event the query fails when the range test raises, and
   * otherwise answers that event exactly when it meets the range and the room
   * filter; with the append lemma this fixes order and multiplicity.
   */
  lemma GetEventsSingle(ev: SEvent, startDate: Instant, endDate: Instant, roomId: Option<string>)
    ensures GetEvents([ev], startDate, endDate, roomId) ==
            match RangeTest(ev, startDate, endDate)
            case None => None
            case Some(hit) => if hit && RoomMatches(ev, roomId) then Some([ev]) else Some([])
  {
    var r := GetEvents([ev], startDate, endDate, roomId);
    assert [ev][0] == ev;
    if r.Some? {
      if InRange(ev, startDate, endDate) && RoomMatches(ev, roomId) {
        assert ev in r.value;
        assert r.value == [ev];
      }
    }
  }

  /** A stored event of room `roomId` that blocks `[s, e)`: the half-open test runs and finds an overlap. */
  predicate Blocks(ev: SEvent, roomId: string, s: Instant, e: Instant) {
    ev.roomId == Some(roomId) && Overlaps(s, e, ev.start, ev.end)
  }

  /** A stored event of room `roomId` at which the availability loop stops: it blocks, or its test raises. */
  predicate Trips(ev: SEvent, roomId: string, s: Instant, e: Instant) {
    ev.roomId == Some(roomId) && OverlapTest(s, e, ev.start, ev.end) != Some(false)
  }

  /** `Failed` is the `{"available": false, "error": ...}` answer the surrounding `except` gives. */
  datatype Availability = Available | UnknownRoom | Busy(conflict: SEvent) | Failed

  /**
   * `check_room_availability`: unknown room; otherwise the loop stops at the
   * first event of the room that blocks (busy) or whose comparison raises
   * (caught: failed); otherwise available.
   */
  function CheckRoomAvailability(svc: Service, roomId: string, s: Instant, e: Instant): (r: Availability)
    ensures r.UnknownRoom? <==> forall i :: 0 <= i < |svc.rooms| ==> svc.rooms[i].id != roomId
    ensures r.Available? <==>
      (exists i :: 0 <= i < |svc.rooms| && svc.rooms[i].id == roomId) &&
      (forall i :: 0 <= i < |svc.events| ==> !Trips(svc.events[i], roomId, s, e))
    ensures r.Busy? ==>
      exists k :: && 0 <= k < |svc.events| && svc.events[k] == r.conflict
                  && Blocks(svc.events[k], roomId, s, e)
                  && forall j :: 0 <= j < k ==> !Trips(svc.events[j], roomId, s, e)
    ensures r.Failed? ==>
      exists k :: && 0 <= k < |svc.events| && svc.events[k].roomId == Some(roomId)
                  && OverlapTest(s, e, svc.events[k].start, svc.events[k].end).None?
                  && forall j :: 0 <= j < k ==> !Trips(svc.events[j], roomId, s, e)
  {
    if First(svc.rooms, (room: SRoom) => room.id == roomId).None? then UnknownRoom
    else
      var hit := First(svc.events, (ev: SEvent) => Trips(ev, roomId, s, e));
      if hit.None? then Available
      else if OverlapTest(s, e, hit.value.start, hit.value.end).None? then Failed
      else Busy(hit.value)
  }

  /**
   * A request whose times are naive where the room's first stored event is
   * aware (or the reverse) is answered with an error, never with "available".
   */
  lemma MixedAwarenessFails(svc: Service, roomId: string, s: Instant, e: Instant, k: nat)
    requires exists i :: 0 <= i < |svc.rooms| && svc.rooms[i].id == roomId
    requires k < |svc.events| && svc.events[k].roomId == Some(roomId)
    requires forall j :: 0 <= j < k ==> svc.events[j].roomId != Some(roomId)
    requires s.aware == e.aware && svc.events[k].start.aware == svc.events[k].end.aware
    requires s.aware != svc.events[k].start.aware
    ensures CheckRoomAvailability(svc, roomId, s, e) == Failed
  {
    var ev := svc.events[k];
    MixedNeverOverlap(s, e, ev.start, ev.end);
    assert Trips(ev, roomId, s, e);
    var hit := First(svc.events, (x: SEvent) => Trips(x, roomId, s, e));
    var j :| 0 <= j < |svc.events| && svc.events[j] == hit.value && forall i :: 0 <= i < j ==> !Trips(svc.events[i], roomId, s, e);
  }

  /** Two events of one room never overlap (half-open, where Python can compare them). */
  predicate RoomsDisjoint(events: seq<SEvent>) {
    forall i, j :: 0 <= i < j < |events| && events[i].roomId.Some? && events[i].roomId == events[j].roomId
      ==> !Overlaps(events[i].start, events[i].end, events[j].start, events[j].end)
  }

  datatype ScheduleResult = MissingFields | BadTime | NotAvailable(availability: Availability) | Scheduled(event: SEvent)

  /**
   * `schedule_event`: all five fields non-empty, both times parse
   * (`fromisoformat` after replacing `Z`, abstracted as `parse`), the room is
   * available; then one event is appended.
   */
  function ScheduleEvent(svc: Service, title: string, start: string, end: string, roomId: string,
                         organizer: string, description: string,
                         parse: string -> Option<Instant>, freshId: string): (r: (Service, ScheduleResult))
    ensures r.0.rooms == svc.rooms
    ensures !r.1.Scheduled? ==> r.0 == svc
    ensures (title == "" || start == "" || end == "" || roomId == "" || organizer == "") ==> r.1 == MissingFields
    ensures r.1.Scheduled? <==>
      && title != "" && start != "" && end != "" && roomId != "" && organizer != ""
      && parse(start).Some? && parse(end).Some?
      && CheckRoomAvailability(svc, roomId, parse(start).value, parse(end).value).Available?
    ensures r.1.Scheduled? ==>
      && r.0.events == svc.events + [r.1.event]
      && r.1.event == SEvent(freshId, title, parse(start).value, parse(end).value, Some(roomId), organizer, description)
  {
    if title == "" || start == "" || end == "" || roomId == "" || organizer == "" then (svc, MissingFields)
    else if parse(start).None? || parse(end).None? then (svc, BadTime)
    else
      var s := parse(start).value;
      var e := parse(end).value;
      var avail := CheckRoomAvailability(svc, roomId, s, e);
      if !avail.Available? then (svc, NotAvailable(avail))
      else
        var ev := SEvent(freshId, title, s, e, Some(roomId), organizer, description);
        (svc.(events := svc.events + [ev]), Scheduled(ev))
  }

  /** Scheduling keeps every room free of overlaps. */
  lemma ScheduleKeepsRoomsDisjoint(svc: Service, title: string, start: string, end: string, roomId: string,
                                   organizer: string, description: string,
                                   parse: string -> Option<Instant>, freshId: string)
    requires RoomsDisjoint(svc.events)
    ensures RoomsDisjoint(ScheduleEvent(svc, title, start, end, roomId, organizer, description, parse, freshId).0.events)
  {
    var r := ScheduleEvent(svc, title, start, end, roomId, organizer, description, parse, freshId);
    if r.1.Scheduled? {
      var es := r.0.events;
      var n := |svc.events|;
      forall i, j | 0 <= i < j < |es| && es[i].roomId.Some? && es[i].roomId == es[j].roomId
        ensures !Overlaps(es[i].start, es[i].end, es[j].start, es[j].end)
      {
        if j < n {
          assert es[i] == svc.events[i] && es[j] == svc.events[j];
        } else {
          assert es[i] == svc.events[i] && es[j] == r.1.event;
          assert !Trips(svc.events[i], roomId, es[j].start, es[j].end);
          OverlapsSymmetric(es[i].start, es[i].end, es[j].start, es[j].end);
        }
      }
    }
  }

  /**
   * The range query and the availability check disagree on touching events:
   * an event of the room ending exactly when the window starts is listed by
   * `get_events` for that window but does not make the room busy.
   */
  lemma TouchingListedButNotBlocking(svc: Service, roomId: string, s: Instant, e: Instant, k: nat)
    requires k < |svc.events| && svc.events[k].roomId == Some(roomId)
    requires svc.events[k].start.aware == s.aware == e.aware
    requires svc.events[k].end == s
    requires svc.events[k].start.at <= s.at <= e.at
    ensures InRange(svc.events[k], s, e)
    ensures GetEvents(svc.events, s, e, Some(roomId)).Some? ==>
            svc.events[k] in GetEvents(svc.events, s, e, Some(roomId)).value
    ensures OverlapTest(s, e, svc.events[k].start, svc.events[k].end) == Some(false)
    ensures !Trips(svc.events[k], roomId, s, e)
  {
  }
}

=== FILE: text.dfy ===
/**
 * String helpers with Python semantics, restricted to ASCII: `str.lower()`,
 * `str.strip()`, `str.split(',')`, `in` on strings and the ordering that
 * `sorted()` uses on strings.
 */
module Text {

  /**
   * Whitespace as Python's `str.isspace()`, `str.strip()` and the regex class
   * `\s` see it: the ASCII controls tab to carriage return and the file,
   * group, record and unit separators, space, and the Unicode space
   * separators and line/paragraph separators.
   */
  predicate IsSpace(c: char) {
    || c == ' ' || ('\t' <= c <= '\r') || ('\U{001C}' <= c <= '\U{001F}')
    || c == '\U{0085}' || c == '\U{00A0}' || c == '\U{1680}'
    || ('\U{2000}' <= c <= '\U{200A}') || c == '\U{2028}' || c == '\U{2029}'
    || c == '\U{202F}' || c == '\U{205F}' || c == '\U{3000}'
  }

  predicate IsUpper(c: char) {
    'A' <= c <= 'Z'
  }

  function LowerChar(c: char): (r: char)
    ensures IsUpper(c) ==> r as int == c as int + 32
    ensures !IsUpper(c) ==> r == c
    ensures !IsUpper(r)
  {
    if IsUpper(c) then (c as int + 32) as char else c
  }

  /** `s.lower()` */
  function Lower(s: string): (r: string)
    ensures |r| == |s|
    ensures forall i :: 0 <= i < |s| ==> r[i] == LowerChar(s[i])
  {
    seq(|s|, i requires 0 <= i < |s| => LowerChar(s[i]))
  }

  /** An occurrence survives lower-casing both strings. */
  lemma LowerOccurs(s: string, i: int, p: string)
    requires OccursAt(s, i, p)
    ensures OccursAt(Lower(s), i, Lower(p))
  {
    assert forall k :: 0 <= k < |p| ==> s[i + k] == p[k];
  }

  /** `a.lower() == b.lower()` */
  predicate EqualsIgnoreCase(a: string, b: string) {
    Lower(a) == Lower(b)
  }

  lemma LowerIdempotent(s: string)
    ensures Lower(Lower(s)) == Lower(s)
  {
  }

  // ---------------------------------------------------------------- strip

  /** Number of leading whitespace characters. */
  function LeadingSpaces(s: string): (n: nat)
    ensures n <= |s|
    ensures forall i :: 0 <= i < n ==> IsSpace(s[i])
    ensures n < |s| ==> !IsSpace(s[n])
  {
    if |s| == 0 || !IsSpace(s[0]) then 0 else 1 + LeadingSpaces(s[1..])
  }

  /** Number of trailing whitespace characters. */
  function TrailingSpaces(s: string): (n: nat)
    ensures n <= |s|
    ensures forall i :: |s| - n <= i < |s| ==> IsSpace(s[i])
    ensures n < |s| ==> !IsSpace(s[|s| - n - 1])
  {
    if |s| == 0 || !IsSpace(s[|s| - 1]) then 0 else 1 + TrailingSpaces(s[..|s| - 1])
  }

  /** `s.strip()`: the slice between the leading and trailing whitespace. */
  function Strip(s: string): (r: string)
    ensures |r| <= |s|
    ensures |r| > 0 ==> !IsSpace(r[0]) && !IsSpace(r[|r| - 1])
    ensures LeadingSpaces(s) + |r| <= |s|
    ensures r == s[LeadingSpaces(s)..LeadingSpaces(s) + |r|]
    ensures (forall i :: 0 <= i < |s| ==> IsSpace(s[i])) <==> |r| == 0
  {
    var a := LeadingSpaces(s);
    var rest := s[a..];
    StripFacts(s, a, rest, TrailingSpaces(rest));
    rest[..|rest| - TrailingSpaces(rest)]
  }

  lemma StripFacts(s: string, a: nat, rest: string, t: nat)
    requires a == LeadingSpaces(s) && rest == s[a..] && t == TrailingSpaces(rest)
    ensures var r := rest[..|rest| - t];
      && r == s[a..a + |r|]
      && (|r| > 0 ==> !IsSpace(r[0]) && !IsSpace(r[|r| - 1]))
      && ((forall i :: 0 <= i < |s| ==> IsSpace(s[i])) <==> |r| == 0)
  {
    var r := rest[..|rest| - t];
    assert r == s[a..a + |r|];
    if |r| == 0 {
      assert a == |s|;
    } else {
      assert r[0] == s[a];
      assert r[|r| - 1] == rest[|rest| - t - 1];
      assert !IsSpace(s[a]);
    }
  }

  /** Stripping only removes characters, so a character absent before is absent after. */
  lemma StripKeepsOut(s: string, c: char)
    requires c !in s
    ensures c !in Strip(s)
  {
    var r := Strip(s);
    var a := LeadingSpaces(s);
    forall k | 0 <= k < |r| ensures r[k] != c {
      assert r[k] == s[a + k];
    }
  }

  /** Stripping text with no surrounding whitespace changes nothing. */
  lemma StripNoop(s: string)
    requires |s| > 0 ==> !IsSpace(s[0]) && !IsSpace(s[|s| - 1])
    ensures Strip(s) == s
  {
    if |s| > 0 {
      assert LeadingSpaces(s) == 0;
      assert TrailingSpaces(s) == 0;
    }
  }

  // ------------------------------------------------------------- searching

  /** `p` occurs in `s` at index `i`. */
  predicate OccursAt(s: string, i: int, p: string) {
    0 <= i && i + |p| <= |s| && s[i..i + |p|] == p
  }

  /** Python's `p in s`. */
  predicate Contains(s: string, p: string) {
    exists i :: 0 <= i <= |s| - |p| && OccursAt(s, i, p)
  }

  /** An occurrence reads `p` character by character. */
  lemma OccursCovers(s: string, i: int, p: string, x: int)
    requires OccursAt(s, i, p) && i <= x < i + |p|
    ensures s[x] == p[x - i]
  {
    assert s[i..i + |p|][x - i] == s[x];
  }

  /** An occurrence of `q` inside an occurrence of `p` is an occurrence of `q` in the text. */
  lemma OccursWithin(s: string, i: int, p: string, d: int, q: string)
    requires OccursAt(s, i, p) && OccursAt(p, d, q)
    ensures OccursAt(s, i + d, q)
  {
    forall t | 0 <= t < |q| ensures s[i + d + t] == q[t] {
      assert s[i + d + t] == s[i..i + |p|][d + t];
      assert p[d + t] == p[d..d + |q|][t];
    }
    assert s[i + d..i + d + |q|] == q;
  }

  /** An occurrence inside the left part of `a + b` is an occurrence in `a`. */
  lemma OccursLeft(a: string, b: string, i: int, p: string)
    requires OccursAt(a + b, i, p) && i + |p| <= |a|
    ensures OccursAt(a, i, p)
  {
    assert (a + b)[i..i + |p|] == a[i..i + |p|];
  }

  /** An occurrence inside the right part of `a + b` is an occurrence in `b`. */
  lemma OccursRight(a: string, b: string, i: int, p: string)
    requires OccursAt(a + b, i, p) && i >= |a|
    ensures OccursAt(b, i - |a|, p)
  {
    assert (a + b)[i..i + |p|] == b[i - |a|..i - |a| + |p|];
  }

  /** An occurrence in either part of `a + b` is one in the whole, shifted past `a` when it is in `b`. */
  lemma OccursIn(a: string, b: string, i: int, p: string)
    ensures OccursAt(a, i, p) ==> OccursAt(a + b, i, p)
    ensures OccursAt(b, i, p) ==> OccursAt(a + b, |a| + i, p)
  {
    if OccursAt(a, i, p) {
      assert (a + b)[i..i + |p|] == a[i..i + |p|];
    }
    if OccursAt(b, i, p) {
      assert (a + b)[|a| + i..|a| + i + |p|] == b[i..i + |p|];
    }
  }

  /** Count of character `d` in `s`. */
  function CountChar(s: string, d: char): nat
  {
    if |s| == 0 then 0 else (if s[0] == d then 1 else 0) + CountChar(s[1..], d)
  }

  // --------------------------------------------------------------- split

  /** `s.split(d)` for a one-character separator. */
  function Split(s: string, d: char): (r: seq<string>)
    ensures |r| == CountChar(s, d) + 1
    ensures forall k :: 0 <= k < |r| ==> d !in r[k]
  {
    if |s| == 0 then [""]
    else
      var rest := Split(s[1..], d);
      if s[0] == d then [""] + rest else [[s[0]] + rest[0]] + rest[1..]
  }

  /** `d.join(parts)` for a one-character separator. */
  function Join(parts: seq<string>, d: char): string
  {
    if |parts| == 0 then ""
    else if |parts| == 1 then parts[0]
    else parts[0] + [d] + Join(parts[1..], d)
  }

  /** A character that is neither the separator nor in any piece is not in the joined text, which is at least as long as its first piece. */
  lemma {:induction false} JoinAvoids(parts: seq<string>, d: char, c: char)
    requires c != d
    requires forall k :: 0 <= k < |parts| ==> c !in parts[k]
    ensures c !in Join(parts, d)
    ensures |parts| > 0 ==> |Join(parts, d)| >= |parts[0]|
  {
    if |parts| > 1 {
      JoinAvoids(parts[1..], d, c);
    }
  }

  lemma JoinCons(x: string, parts: seq<string>, d: char)
    requires |parts| > 0
    ensures Join([x] + parts, d) == x + [d] + Join(parts, d)
  {
    assert ([x] + parts)[1..] == parts;
  }

  lemma JoinExtendHead(c: char, parts: seq<string>, d: char)
    requires |parts| > 0
    ensures Join([[c] + parts[0]] + parts[1..], d) == [c] + Join(parts, d)
  {
    if |parts| == 1 {
    } else {
      JoinCons([c] + parts[0], parts[1..], d);
      JoinCons(parts[0], parts[1..], d);
      assert parts == [parts[0]] + parts[1..];
    }
  }

  /** Splitting and re-joining on the same separator gives back the text. */
  lemma {:induction false} SplitJoin(s: string, d: char)
    ensures Join(Split(s, d), d) == s
  {
    if |s| == 0 {
    } else {
      var rest := Split(s[1..], d);
      SplitJoin(s[1..], d);
      if s[0] == d {
        JoinCons("", rest, d);
        assert s == [d] + s[1..];
      } else {
        JoinExtendHead(s[0], rest, d);
        assert s == [s[0]] + s[1..];
      }
    }
  }

  lemma {:induction false} SplitNoSeparator(a: string, d: char)
    requires d !in a
    ensures Split(a, d) == [a]
  {
    if |a| > 0 {
      SplitNoSeparator(a[1..], d);
      assert [a[0]] + a[1..] == a;
    }
  }

  lemma {:induction false} SplitConcat(a: string, b: string, d: char)
    requires d !in a
    ensures Split(a + [d] + b, d) == [a] + Split(b, d)
  {
    if |a| == 0 {
      assert a + [d] + b == [d] + b;
      assert ([d] + b)[1..] == b;
    } else {
      SplitConcat(a[1..], b, d);
      assert (a + [d] + b)[1..] == a[1..] + [d] + b;
      assert [a[0]] + a[1..] == a;
    }
  }

  /** Joining pieces that do not contain the separator and splitting again gives back the pieces. */
  lemma {:induction false} JoinSplit(parts: seq<string>, d: char)
    requires |parts| > 0
    requires forall k :: 0 <= k < |parts| ==> d !in parts[k]
    ensures Split(Join(parts, d), d) == parts
  {
    if |parts| == 1 {
      SplitNoSeparator(parts[0], d);
    } else {
      JoinSplit(parts[1..], d);
      SplitConcat(parts[0], Join(parts[1..], d), d);
      assert [parts[0]] + parts[1..] == parts;
    }
  }

  // ------------------------------------------------------------- ordering

  /** Python's `a < b` on strings: lexicographic by code point, a proper prefix first. */
  predicate Less(a: string, b: string) {
    if |a| == 0 then |b| > 0
    else if |b| == 0 then false
    else if a[0] != b[0] then a[0] < b[0]
    else Less(a[1..], b[1..])
  }

  lemma {:induction false} LessIrreflexive(a: string)
    ensures !Less(a, a)
  {
    if |a| > 0 {
      LessIrreflexive(a[1..]);
    }
  }

  lemma {:induction false} LessTransitive(a: string, b: string, c: string)
    requires Less(a, b) && Less(b, c)
    ensures Less(a, c)
  {
    if |a| > 0 && |b| > 0 && |c| > 0 && a[0] == b[0] && b[0] == c[0] {
      LessTransitive(a[1..], b[1..], c[1..]);
    }
  }

  lemma {:induction false} LessTotal(a: string, b: string)
    requires a != b
    ensures Less(a, b) || Less(b, a)
  {
    if |a| > 0 && |b| > 0 && a[0] == b[0] {
      assert a == [a[0]] + a[1..];
      assert b == [b[0]] + b[1..];
      LessTotal(a[1..], b[1..]);
    }
  }

  predicate StrictlySorted(xs: seq<string>) {
    forall i, j :: 0 <= i < j < |xs| ==> Less(xs[i], xs[j])
  }

  /** Inserts `x` into a strictly sorted list unless it is already there. */
  function Insert(xs: seq<string>, x: string): (r: seq<string>)
    requires StrictlySorted(xs)
    ensures StrictlySorted(r)
    ensures forall y :: y in r <==> y in xs || y == x
  {
    if |xs| == 0 then [x]
    else if xs[0] == x then xs
    else if Less(x, xs[0]) then
      assert forall j :: 0 <= j < |xs| ==> Less(x, xs[j]) by {
        forall j | 0 <= j < |xs| ensures Less(x, xs[j]) {
          if j > 0 { LessTransitive(x, xs[0], xs[j]); }
        }
      }
      [x] + xs
    else
      LessTotal(x, xs[0]);
      var tail := Insert(xs[1..], x);
      assert forall j :: 0 <= j < |tail| ==> Less(xs[0], tail[j]) by {
        forall j | 0 <= j < |tail| ensures Less(xs[0], tail[j]) {
          assert tail[j] in xs[1..] || tail[j] == x;
        }
      }
      [xs[0]] + tail
  }

  /** `sorted(set(xs))`: the distinct elements of `xs` in ascending order. */
  function SortedDistinct(xs: seq<string>): (r: seq<string>)
    ensures StrictlySorted(r)
    ensures forall y :: y in r <==> y in xs
  {
    if |xs| == 0 then [] else Insert(SortedDistinct(xs[..|xs| - 1]), xs[|xs| - 1])
  }

  /** A strictly sorted list has no repeated element. */
  lemma StrictlySortedDistinct(xs: seq<string>)
    requires StrictlySorted(xs)
    ensures forall i, j :: 0 <= i < j < |xs| ==> xs[i] != xs[j]
  {
    forall i, j | 0 <= i < j < |xs| ensures xs[i] != xs[j] {
      LessIrreflexive(xs[i]);
    }
  }
}

=== FILE: util_email.dfy ===
/** Name-to-e-mail lookups over an org structure's member list. */
module UtilEmail {
  import opened Wrappers
  import opened Text
  import opened Seqs

  datatype Member = Member(name: string, email: Option<string>)

  predicate NameMatches(m: Member, name: string) {
    EqualsIgnoreCase(m.name, name)
  }

  /**
   * `get_email_by_name`: the e-mail of the first member whose name matches
   * case-insensitively; `None` with no match or no member list.
   */
  function GetEmailByName(name: string, members: Option<seq<Member>>): (r: Option<string>)
    ensures members.None? ==> r.None?
    ensures members.Some? && (forall i :: 0 <= i < |members.value| ==> !NameMatches(members.value[i], name)) ==> r.None?
    ensures r.Some? ==> exists i :: && 0 <= i < |members.value|
                                    && NameMatches(members.value[i], name) && members.value[i].email == r
                                    && forall j :: 0 <= j < i ==> !NameMatches(members.value[j], name)
    ensures members.Some? ==>
      forall i :: 0 <= i < |members.value| && NameMatches(members.value[i], name) &&
                  (forall j :: 0 <= j < i ==> !NameMatches(members.value[j], name))
                  ==> r == members.value[i].email
  {
    var ms := members.GetOr([]);
    var m := FirstIndex(ms, (m: Member) => NameMatches(m, name));
    if m.Some? then ms[m.value].email else None
  }

  /** `get_emails_by_names`: the e-mails of the names, in order, skipping names whose lookup is empty or missing. */
  function GetEmailsByNames(names: seq<string>, members: Option<seq<Member>>): (r: seq<string>)
    ensures |r| <= |names|
    ensures forall k :: 0 <= k < |r| ==>
      r[k] != "" && exists i :: 0 <= i < |names| && GetEmailByName(names[i], members) == Some(r[k])
    ensures (forall i :: 0 <= i < |names| ==> Truthy(GetEmailByName(names[i], members))) ==> |r| == |names|
  {
    if |names| == 0 then []
    else
      var e := GetEmailByName(names[0], members);
      var rest := GetEmailsByNames(names[1..], members);
      assert forall i :: 0 <= i < |names| - 1 ==> names[1..][i] == names[i + 1];
      assert Truthy(e) ==> GetEmailByName(names[0], members) == Some(e.value);
      if Truthy(e) then [e.value] + rest else rest
  }

  /** The lookup works name by name, in order: the result for a concatenation is the concatenation of the results. */
  lemma {:induction false} EmailsByNamesAppend(a: seq<string>, b: seq<string>, members: Option<seq<Member>>)
    ensures GetEmailsByNames(a + b, members) == GetEmailsByNames(a, members) + GetEmailsByNames(b, members)
  {
    if |a| > 0 {
      var ab := a + b;
      assert ab[0] == a[0] && ab[1..] == a[1..] + b;
      EmailsByNamesAppend(a[1..], b, members);
      var e := GetEmailByName(a[0], members);
      if Truthy(e) {
        calc {
          GetEmailsByNames(ab, members);
          [e.value] + GetEmailsByNames(a[1..] + b, members);
          [e.value] + (GetEmailsByNames(a[1..], members) + GetEmailsByNames(b, members));
          ([e.value] + GetEmailsByNames(a[1..], members)) + GetEmailsByNames(b, members);
        }
      } else {
        assert GetEmailsByNames(ab, members) == GetEmailsByNames(a[1..] + b, members);
      }
    } else {
      assert a + b == b;
    }
  }

  /** A single name yields its e-mail when that is non-empty, and nothing otherwise. */
  lemma EmailsOfOneName(name: string, members: Option<seq<Member>>)
    ensures GetEmailsByNames([name], members) ==
      (if Truthy(GetEmailByName(name, members)) then [GetEmailByName(name, members).value] else [])
  {
    assert [name][1..] == [];
  }
}

=== FILE: util_message_parse.dfy ===
/**
 * `parse_booking_message`: pulls the organiser name and the attendee names
 * out of a free-text booking notice such as
 * "Event booked by <name> for members of <group>: <name>, <name>".
 */
module UtilMessageParse {
  import opened Wrappers
  import opened Text
  import opened Patterns

  /** Where ` of ` has to start after a `member` at `i`: past the optional `s`. */
  function OfAt(s: string, i: nat): nat {
    if i + 6 < |s| && s[i + 6] == 's' then i + 7 else i + 6
  }

  /**
   * `members? of [\w .-]+: (.+)` matches at `i` taking the optional `s`
   * exactly when `k == i + 7`, with the class run spanning `s[k + 4..c]`,
   * followed by `: ` and at least one character of the line.
   */
  predicate MembersShape(s: string, i: nat, k: nat, c: nat) {
    && OccursAt(s, i, "member")
    && OccursAt(s, k, " of ")
    && (k == i + 6 || (k == i + 7 && s[i + 6] == 's'))
    && k + 4 < c
    && OccursAt(s, c, ": ")
    && (forall t :: k + 4 <= t < c ==> IsNameChar(s[t]))
    && c + 2 < |s| && s[c + 2] != '\n'
  }

  /**
   * The engine has no choice to make at a given start: the `s` is taken when
   * it is there (otherwise ` of ` cannot follow), and the class run is the
   * greedy one, since `:` is outside the class.
   */
  lemma MembersShapeDetermined(s: string, i: nat, k: nat, c: nat)
    requires MembersShape(s, i, k, c)
    ensures k == OfAt(s, i)
    ensures c == k + 4 + Run(s, k + 4, IsNameChar)
  {
    assert s[k] == s[k..k + 4][0] == ' ';
    assert s[c] == s[c..c + 2][0] == ':';
    RunIs(s, k + 4, c - (k + 4), IsNameChar);
  }

  /** `g` is the text from `at` up to the next newline or the end: what a greedy `(.+)` takes. */
  predicate RestOfLine(s: string, at: nat, g: string) {
    at + |g| <= |s| && g == s[at..at + |g|] && (at + |g| == |s| || s[at + |g|] == '\n')
  }

  /**
   * The group `(.+)` of `members? of [\w .-]+: (.+)` matched at `i`, if the
   * pattern matches there.
   */
  function MembersAt(s: string, i: nat): (r: Option<string>)
    ensures r.Some? ==> |r.value| > 0 && forall k :: 0 <= k < |r.value| ==> r.value[k] != '\n'
    ensures r.Some? ==> OccursAt(s, i, "member")
  {
    if !OccursAt(s, i, "member") then None
    else
      var k := OfAt(s, i);
      if !OccursAt(s, k, " of ") then None
      else
        var j := k + 4;
        var n := Run(s, j, IsNameChar);
        if n == 0 || !OccursAt(s, j + n, ": ") then None
        else
          var m := Run(s, j + n + 2, NotNewline);
          if m == 0 then None
          else
            var g := s[j + n + 2..j + n + 2 + m];
            assert forall t :: 0 <= t < m ==> g[t] == s[j + n + 2 + t];
            Some(g)
  }

  /**
   * What a match at `i` means: `MembersAt` answers exactly when the pattern
   * matches there, and then the group is the rest of the line after the
   * `: `, running to the next newline or to the end of the text.
   */
  lemma MembersAtMeans(s: string, i: nat)
    ensures MembersAt(s, i).Some? <==> exists k: nat, c: nat :: MembersShape(s, i, k, c)
    ensures forall k: nat, c: nat :: MembersShape(s, i, k, c) ==>
      MembersAt(s, i).Some? && RestOfLine(s, c + 2, MembersAt(s, i).value)
  {
    var r := MembersAt(s, i);
    if r.Some? {
      MatchHasShape(s, i);
    }
    forall k: nat, c: nat | MembersShape(s, i, k, c)
      ensures r.Some? && RestOfLine(s, c + 2, r.value)
    {
      ShapeGivesLine(s, i, k, c);
    }
  }

  /** A match found by `MembersAt` has the shape of the pattern. */
  lemma MatchHasShape(s: string, i: nat)
    requires MembersAt(s, i).Some?
    ensures MembersShape(s, i, OfAt(s, i), OfAt(s, i) + 4 + Run(s, OfAt(s, i) + 4, IsNameChar))
  {
  }

  /** Where the pattern has its shape, `MembersAt` finds it and answers the rest of the line. */
  lemma ShapeGivesLine(s: string, i: nat, k: nat, c: nat)
    requires MembersShape(s, i, k, c)
    ensures MembersAt(s, i).Some? && RestOfLine(s, c + 2, MembersAt(s, i).value)
  {
    MembersShapeDetermined(s, i, k, c);
    var m := Run(s, c + 2, NotNewline);
    assert MembersAt(s, i) == Some(s[c + 2..c + 2 + m]);
  }

  /** Where the pattern has its shape and the line after the `: ` is `text`, `MembersAt` answers `text`. */
  lemma ShapeGivesText(s: string, i: nat, k: nat, c: nat, text: string)
    requires MembersShape(s, i, k, c) && RestOfLine(s, c + 2, text) && '\n' !in text
    ensures MembersAt(s, i) == Some(text)
  {
    ShapeGivesLine(s, i, k, c);
    RestOfLineUnique(s, c + 2, MembersAt(s, i).value, text);
  }

  /** `re.search` for the attendee pattern: the leftmost position from `from` on where it matches. */
  function SearchMembers(s: string, from: nat): (r: Option<nat>)
    ensures r.Some? ==> from <= r.value <= |s| && MembersAt(s, r.value).Some?
    ensures r.Some? ==> forall k :: from <= k < r.value ==> MembersAt(s, k).None?
    ensures r.None? <==> forall k :: from <= k <= |s| ==> MembersAt(s, k).None?
  {
    var matches := (k: nat) => MembersAt(s, k).Some?;
    assert forall k: nat :: matches(k) == MembersAt(s, k).Some?;
    LeftmostFrom(matches, from, |s|)
  }

  /** The comma-separated attendee text split on `,`, each piece stripped. */
  function AttendeeNames(text: string): (r: seq<string>)
    ensures |r| == CountChar(text, ',') + 1
    ensures forall k :: 0 <= k < |r| ==> ',' !in r[k] && r[k] == Strip(Split(text, ',')[k])
  {
    var pieces := Split(text, ',');
    seq(|pieces|, k requires 0 <= k < |pieces| => Strip(pieces[k]))
  }

  /** `parse_booking_message`: (organiser, attendees). Total: every string yields a pair. */
  function ParseBookingMessage(message: string): (r: (Option<string>, seq<string>))
    ensures r.0.None? <==> forall k :: 0 <= k <= |message| ==> CaptureAt(message, k, "booked by ", IsNameChar).None?
    ensures r.0.Some? ==>
      var run := Search(message, "booked by ", IsNameChar).value;
      && r.0.value == Strip(run)
      && (forall k :: 0 <= k < |run| ==> IsNameChar(run[k]))
    ensures r.1 == [] <==> forall k :: 0 <= k <= |message| ==> MembersAt(message, k).None?
    ensures r.1 != [] ==>
      var text := MembersAt(message, SearchMembers(message, 0).value).value;
      && |r.1| == CountChar(text, ',') + 1
      && r.1 == AttendeeNames(text)
  {
    var organiser := Search(message, "booked by ", IsNameChar);
    (if organiser.Some? then Some(Strip(organiser.value)) else None, AttendeesOf(message))
  }

  /** The attendee half of `parse_booking_message`: the names of the leftmost attendee clause, or none. */
  function AttendeesOf(message: string): seq<string> {
    var at := SearchMembers(message, 0);
    if at.Some? then AttendeeNames(MembersAt(message, at.value).value) else []
  }

  /** Comma-free names joined by commas are read back, each stripped. */
  lemma AttendeeNamesOfJoinStripped(names: seq<string>)
    requires |names| > 0
    requires forall k :: 0 <= k < |names| ==> ',' !in names[k]
    ensures AttendeeNames(Join(names, ',')) == StripAll(names)
  {
    JoinSplit(names, ',');
  }

  /** Names written with no surrounding whitespace and no comma, joined by commas, are read back exactly. */
  lemma AttendeeNamesOfJoin(names: seq<string>)
    requires |names| > 0
    requires forall k :: 0 <= k < |names| ==> ',' !in names[k]
    requires Unpadded(names)
    ensures AttendeeNames(Join(names, ',')) == names
  {
    AttendeeNamesOfJoinStripped(names);
    StripAllUnpadded(names);
  }

  // ------------------------------------------------------- organiser cut

  /**
   * The organiser run cut before its first ` for member`: what a lazy
   * `booked by ([\w .-]+?) for members? of` would capture. A run without the
   * attendee clause is kept whole.
   */
  function CutAtGroup(run: string): (r: string)
    ensures |r| <= |run| && r == run[..|r|]
    ensures forall p :: 0 <= p < |r| ==> !OccursAt(run, p, " for member")
    ensures !Contains(r, " for member")
    ensures r == run <==> !Contains(run, " for member")
    ensures r != run ==> OccursAt(run, |r|, " for member")
  {
    var matches := (p: nat) => OccursAt(run, p, " for member");
    assert forall p: nat :: matches(p) == OccursAt(run, p, " for member");
    var at := LeftmostFrom(matches, 0, |run|);
    if at.Some? then
      PrefixAvoids(run, at.value, " for member");
      run[..at.value]
    else run
  }

  /** A text that has no occurrence of `pat` starting before `a` has none in its first `a` characters. */
  lemma PrefixAvoids(x: string, a: nat, pat: string)
    requires a <= |x| && |pat| > 0
    requires forall p :: 0 <= p < a ==> !OccursAt(x, p, pat)
    ensures !Contains(x[..a], pat)
  {
    if Contains(x[..a], pat) {
      var q :| 0 <= q <= a - |pat| && OccursAt(x[..a], q, pat);
      assert x == x[..a] + x[a..];
      OccursIn(x[..a], x[a..], q, pat);
    }
  }

  /** A text without `pat` has no `pat` in any slice of it. */
  lemma NotContainedInSlice(x: string, a: nat, b: nat, pat: string)
    requires a <= b <= |x|
    requires !Contains(x, pat)
    ensures !Contains(x[a..b], pat)
  {
    if Contains(x[a..b], pat) {
      var q :| 0 <= q <= |x[a..b]| - |pat| && OccursAt(x[a..b], q, pat);
      assert x == x[..a] + x[a..b] + x[b..];
      OccursIn(x[..a], x[a..b], q, pat);
      OccursIn(x[..a] + x[a..b], x[b..], a + q, pat);
    }
  }

  /** Stripping a text cannot make `pat` appear in it. */
  lemma StripAvoids(x: string, pat: string)
    requires !Contains(x, pat)
    ensures !Contains(Strip(x), pat)
  {
    NotContainedInSlice(x, LeadingSpaces(x), LeadingSpaces(x) + |Strip(x)|, pat);
  }

  /**
   * `parse_booking_message` with the organiser cut at the attendee clause;
   * the attendee half is unchanged.
   */
  function ParseBookingMessageFixed(message: string): (r: (Option<string>, seq<string>))
    ensures r.1 == ParseBookingMessage(message).1
    ensures r.0.None? <==> ParseBookingMessage(message).0.None?
    ensures r.0.Some? ==> !Contains(r.0.value, " for member")
    ensures r.0.Some? && !Contains(Search(message, "booked by ", IsNameChar).value, " for member")
            ==> r == ParseBookingMessage(message)
  {
    var organiser := Search(message, "booked by ", IsNameChar);
    if organiser.Some? then
      var cut := CutAtGroup(organiser.value);
      StripAvoids(cut, " for member");
      (Some(Strip(cut)), AttendeesOf(message))
    else (None, AttendeesOf(message))
  }

  // ------------------------------------------------- well-formed notices

  /** A notice in the shape the parser is written for: `booked by <name> for members of <group>: <a>,<b>,...`. */
  function BookingMessage(name: string, group: string, attendees: seq<string>): string {
    "booked by " + name + " for " + MembersClause(group, attendees)
  }

  /** The attendee clause of a notice: `members of <group>: <a>,<b>,...`. */
  function MembersClause(group: string, attendees: seq<string>): string {
    "members of " + group + ": " + Join(attendees, ',')
  }

  /** Non-empty, drawn from `[\w .-]`, with no space at either end. */
  predicate PlainName(t: string) {
    && |t| > 0
    && (forall k :: 0 <= k < |t| ==> IsNameChar(t[k]))
    && !IsSpace(t[0]) && !IsSpace(t[|t| - 1])
  }

  /**
   * The notices the parser is written for: plain organiser and group names,
   * the organiser's without the word `member`; at least one attendee, the
   * first non-empty; attendee names without commas or newlines. Spaces
   * around a name, as after a `, `, are allowed: the parser strips them.
   */
  predicate NoticeParts(name: string, group: string, attendees: seq<string>) {
    && PlainName(name) && !Contains(name, "member")
    && PlainName(group)
    && |attendees| > 0 && |attendees[0]| > 0
    && (forall k :: 0 <= k < |attendees| ==> ',' !in attendees[k] && '\n' !in attendees[k])
  }

  /** Names without surrounding spaces: they come back from the parser verbatim. */
  predicate Unpadded(names: seq<string>) {
    forall k :: 0 <= k < |names| && |names[k]| > 0 ==> !IsSpace(names[k][0]) && !IsSpace(names[k][|names[k]| - 1])
  }

  /** Notice parts whose attendee names carry no surrounding spaces. */
  predicate WellFormedBooking(name: string, group: string, attendees: seq<string>) {
    NoticeParts(name, group, attendees) && Unpadded(attendees)
  }

  /**
   * Text in front of `booked by`, such as the `Event ` of a notice: it holds
   * neither `booked by ` nor `member`, so neither pattern starts inside it.
   */
  predicate PlainLead(lead: string) {
    !Contains(lead, "booked by ") && !Contains(lead, "member")
  }

  /** Each name stripped: what the parser makes of the comma-separated pieces. */
  function StripAll(names: seq<string>): seq<string> {
    seq(|names|, k requires 0 <= k < |names| => Strip(names[k]))
  }

  /** Unpadded names are their own stripped forms. */
  lemma StripAllUnpadded(names: seq<string>)
    requires Unpadded(names)
    ensures StripAll(names) == names
  {
    forall k | 0 <= k < |names| ensures Strip(names[k]) == names[k] {
      StripNoop(names[k]);
    }
  }

  /** A notice opens with the organiser pattern's literal. */
  lemma NoticeOpens(name: string, group: string, attendees: seq<string>)
    ensures OccursAt(BookingMessage(name, group, attendees), 0, "booked by ")
  {
    assert OccursAt("booked by ", 0, "booked by ");
    OccursIn("booked by ", name, 0, "booked by ");
    OccursIn("booked by " + name, " for ", 0, "booked by ");
    OccursIn("booked by " + name + " for ", MembersClause(group, attendees), 0, "booked by ");
  }

  /** A lead without `booked by ` starts no occurrence of it, not even one running on into the notice. */
  lemma LeadStartsNoOrganiser(lead: string, rest: string)
    requires !Contains(lead, "booked by ") && OccursAt(rest, 0, "booked by ")
    ensures forall k :: 0 <= k < |lead| ==> !OccursAt(lead + rest, k, "booked by ")
  {
    OccursCovers(rest, 0, "booked by ", 0);
    OccursCovers(rest, 0, "booked by ", 1);
    forall k | 0 <= k < |lead| ensures !OccursAt(lead + rest, k, "booked by ") {
      if OccursAt(lead + rest, k, "booked by ") {
        if k + 10 <= |lead| {
          OccursLeft(lead, rest, k, "booked by ");
        } else {
          OccursCovers(lead + rest, k, "booked by ", |lead|);
          if |lead| + 1 < k + 10 {
            OccursCovers(lead + rest, k, "booked by ", |lead| + 1);
          }
        }
      }
    }
  }

  /** A lead without `member` starts no occurrence of it, not even one running on into the notice. */
  lemma LeadStartsNoMember(lead: string, rest: string)
    requires !Contains(lead, "member") && OccursAt(rest, 0, "booked by ")
    ensures forall k :: 0 <= k < |lead| ==> !OccursAt(lead + rest, k, "member")
  {
    OccursCovers(rest, 0, "booked by ", 0);
    OccursCovers(rest, 0, "booked by ", 1);
    forall k | 0 <= k < |lead| ensures !OccursAt(lead + rest, k, "member") {
      if OccursAt(lead + rest, k, "member") {
        if k + 6 <= |lead| {
          OccursLeft(lead, rest, k, "member");
        } else {
          OccursCovers(lead + rest, k, "member", |lead|);
          if |lead| + 1 < k + 6 {
            OccursCovers(lead + rest, k, "member", |lead| + 1);
          }
        }
      }
    }
  }

  /** The organiser pattern matches where the notice starts, and its greedy run goes on through the group, up to the colon. */
  lemma OrganiserRunOfBooking(lead: string, name: string, group: string, attendees: seq<string>)
    requires PlainLead(lead) && NoticeParts(name, group, attendees)
    ensures Search(lead + BookingMessage(name, group, attendees), "booked by ", IsNameChar) ==
            Some(name + " for members of " + group)
  {
    var run := name + " for members of " + group;
    var tail := ": " + Join(attendees, ',');
    var msg := "booked by " + run + tail;
    BookingMessageAsRun(name, group, attendees);
    NoticeOpens(name, group, attendees);
    assert OccursAt(run, 0, run);
    OccursIn("booked by ", run, 0, run);
    OccursIn("booked by " + run, tail, 10, run);
    OccursIn(lead, msg, 0, "booked by ");
    OccursIn(lead, msg, 10, run);
    LeadStartsNoOrganiser(lead, msg);
    RunOfNameChars(name, group);
    assert (lead + msg)[|lead| + 10 + |run|] == ':';
    SearchAt(lead + msg, "booked by ", |lead|, run, IsNameChar);
  }

  /** Organiser, ` for members of ` and group are all drawn from `[\w .-]`. */
  lemma RunOfNameChars(name: string, group: string)
    requires PlainName(name) && PlainName(group)
    ensures forall t :: 0 <= t < |name + " for members of " + group| ==> IsNameChar((name + " for members of " + group)[t])
  {
    var run := name + " for members of " + group;
    forall t | 0 <= t < |run| ensures IsNameChar(run[t]) {
      if t < |name| {
        assert run[t] == name[t];
      } else if t < |name| + 16 {
        assert run[t] == " for members of "[t - |name|];
      } else {
        assert run[t] == group[t - |name| - 16];
      }
    }
  }

  /** A notice read as the organiser pattern sees it: the prefix, the run of name characters, then `: ` and the attendees. */
  lemma BookingMessageAsRun(name: string, group: string, attendees: seq<string>)
    ensures BookingMessage(name, group, attendees) ==
            "booked by " + (name + " for members of " + group) + (": " + Join(attendees, ','))
  {
  }

  /** Before the attendee clause, `member` occurs nowhere in a well-formed notice. */
  lemma NoMemberBeforeClause(name: string, group: string, attendees: seq<string>, q: nat)
    requires NoticeParts(name, group, attendees)
    requires q < |name| + 15
    ensures !OccursAt(BookingMessage(name, group, attendees), q, "member")
  {
    var head := "booked by " + name;
    var a := head + " for ";
    var b := "members of " + group + ": " + Join(attendees, ',');
    var msg := BookingMessage(name, group, attendees);
    assert msg == a + b;
    if OccursAt(msg, q, "member") {
      if q + 6 <= |a| {
        OccursLeft(a, b, q, "member");
        if q + 6 <= |head| {
          OccursLeft(head, " for ", q, "member");
          if q >= 10 {
            OccursRight("booked by ", name, q, "member");
          } else if q + 6 <= 10 {
            OccursCovers(head, q, "member", q);
          } else {
            OccursCovers(head, q, "member", 9);
          }
        } else if q < |head| {
          OccursCovers(a, q, "member", |head|);
        } else {
          OccursRight(head, " for ", q, "member");
        }
      } else {
        OccursCovers(msg, q, "member", |a| - 1);
      }
    }
  }

  /** Text in front does not disturb a shape: it moves with the text it is in. */
  lemma MembersShapeShift(a: string, b: string, i: nat, k: nat, c: nat)
    requires MembersShape(b, i, k, c)
    ensures MembersShape(a + b, |a| + i, |a| + k, |a| + c)
  {
    OccursIn(a, b, i, "member");
    OccursIn(a, b, k, " of ");
    OccursIn(a, b, c, ": ");
  }

  /** Text in front does not change where a line ends. */
  lemma RestOfLineShift(a: string, b: string, at: nat, g: string)
    requires RestOfLine(b, at, g)
    ensures RestOfLine(a + b, |a| + at, g)
  {
    assert (a + b)[|a| + at..|a| + at + |g|] == b[at..at + |g|];
  }

  /** Two newline-free readings of the rest of the same line are the same text. */
  lemma RestOfLineUnique(s: string, at: nat, g: string, h: string)
    requires RestOfLine(s, at, g) && RestOfLine(s, at, h)
    requires '\n' !in g && '\n' !in h
    ensures g == h
  {
  }

  /** The attendee clause alone: the pattern matches at its start and its group is the attendee text. */
  lemma ClauseShape(group: string, attendees: seq<string>)
    requires PlainName(group)
    requires |attendees| > 0 && |attendees[0]| > 0
    requires forall k :: 0 <= k < |attendees| ==> '\n' !in attendees[k]
    ensures MembersShape(MembersClause(group, attendees), 0, 7, 11 + |group|)
    ensures RestOfLine(MembersClause(group, attendees), 13 + |group|, Join(attendees, ','))
  {
    var text := Join(attendees, ',');
    var x := "members of " + group;
    var y := x + ": ";
    var clause := MembersClause(group, attendees);
    assert clause == y + text;
    JoinAvoids(attendees, ',', '\n');
    assert OccursAt("members of ", 0, "member") && OccursAt("members of ", 7, " of ");
    OccursIn("members of ", group, 0, "member");
    OccursIn("members of ", group, 7, " of ");
    OccursIn(x, ": ", 0, "member");
    OccursIn(x, ": ", 7, " of ");
    OccursIn(y, text, 0, "member");
    OccursIn(y, text, 7, " of ");
    assert OccursAt(": ", 0, ": ");
    OccursIn(x, ": ", |x|, ": ");
    OccursIn(y, text, |x|, ": ");
    assert clause[|y|] == text[0];
    assert clause[|y|..] == text;
  }

  /** At the attendee clause of a notice the pattern matches, and its group is the attendee text. */
  lemma MembersAtClause(lead: string, name: string, group: string, attendees: seq<string>)
    requires NoticeParts(name, group, attendees)
    ensures MembersAt(lead + BookingMessage(name, group, attendees), ClauseAt(lead, name)) == Some(Join(attendees, ','))
  {
    var text := Join(attendees, ',');
    var a := "booked by " + name + " for ";
    var clause := MembersClause(group, attendees);
    var c := 11 + |group|;
    ClauseShape(group, attendees);
    JoinAvoids(attendees, ',', '\n');
    MembersShapeShift(a, clause, 0, 7, c);
    RestOfLineShift(a, clause, c + 2, text);
    MembersShapeShift(lead, a + clause, |a|, |a| + 7, |a| + c);
    RestOfLineShift(lead, a + clause, |a| + c + 2, text);
    assert ClauseAt(lead, name) == |lead| + |a|;
    ShapeGivesText(lead + (a + clause), ClauseAt(lead, name), |lead| + |a| + 7, |lead| + |a| + c, text);
  }

  /** `re.search` for the attendee pattern finds the clause of a notice, and nothing before it. */
  lemma SearchMembersOfBooking(lead: string, name: string, group: string, attendees: seq<string>)
    requires PlainLead(lead) && NoticeParts(name, group, attendees)
    ensures SearchMembers(lead + BookingMessage(name, group, attendees), 0) == Some(ClauseAt(lead, name))
  {
    var s := lead + BookingMessage(name, group, attendees);
    var i := ClauseAt(lead, name);
    MembersAtClause(lead, name, group, attendees);
    assert MembersAt(s, i).Some?;
    NoMemberBeforeLedClause(lead, name, group, attendees);
    assert forall k :: 0 <= k < i ==> !OccursAt(s, k, "member");
    SearchFindsFirst(s, 0, i);
  }

  /** Neither the lead nor the notice before its attendee clause starts a `member`. */
  lemma NoMemberBeforeLedClause(lead: string, name: string, group: string, attendees: seq<string>)
    requires PlainLead(lead) && NoticeParts(name, group, attendees)
    ensures forall q :: 0 <= q < |lead| + |name| + 15 ==> !OccursAt(lead + BookingMessage(name, group, attendees), q, "member")
  {
    var msg := BookingMessage(name, group, attendees);
    NoticeOpens(name, group, attendees);
    LeadStartsNoMember(lead, msg);
    forall q | |lead| <= q < |lead| + |name| + 15 ensures !OccursAt(lead + msg, q, "member") {
      NoMemberBeforeClause(name, group, attendees, q - |lead|);
      if OccursAt(lead + msg, q, "member") {
        OccursRight(lead, msg, q, "member");
      }
    }
  }

  /** The search answers the first position where the pattern matches, when nothing before it starts a `member`. */
  lemma SearchFindsFirst(s: string, from: nat, i: nat)
    requires from <= i && MembersAt(s, i).Some?
    requires forall k :: from <= k < i ==> !OccursAt(s, k, "member")
    ensures SearchMembers(s, from) == Some(i)
  {
  }

  /** Where the attendee clause of a notice behind `lead` starts: `booked by `, the name, ` for ` and the lead itself come first. */
  function ClauseAt(lead: string, name: string): nat {
    |lead| + |name| + 15
  }

  /**
   * As written, the organiser run swallows the attendee clause: on a notice
   * the organiser read is `<name> for members of <group>`, while every
   * attendee comes back, stripped.
   */
  lemma OrganiserSwallowsGroup(lead: string, name: string, group: string, attendees: seq<string>)
    requires PlainLead(lead) && NoticeParts(name, group, attendees)
    ensures ParseBookingMessage(lead + BookingMessage(name, group, attendees)) ==
            (Some(name + " for members of " + group), StripAll(attendees))
  {
    var run := name + " for members of " + group;
    OrganiserRunOfBooking(lead, name, group, attendees);
    SearchMembersOfBooking(lead, name, group, attendees);
    MembersAtClause(lead, name, group, attendees);
    ParseOfParts(lead + BookingMessage(name, group, attendees), name + " for members of " + group,
                 lead, name, Join(attendees, ','));
    assert run[0] == name[0] && run[|run| - 1] == group[|group| - 1];
    StripNoop(run);
    AttendeeNamesOfJoinStripped(attendees);
  }

  /** `ParseOfPartsAt` with the attendee clause where a notice behind `lead` has it. */
  lemma ParseOfParts(s: string, run: string, lead: string, name: string, text: string)
    requires Search(s, "booked by ", IsNameChar) == Some(run)
    requires SearchMembers(s, 0) == Some(ClauseAt(lead, name)) && MembersAt(s, ClauseAt(lead, name)) == Some(text)
    ensures ParseBookingMessage(s) == (Some(Strip(run)), AttendeeNames(text))
  {
    ParseOfPartsAt(s, run, ClauseAt(lead, name), text);
  }

  /** The parse put together from its three searches, the attendee clause at `i`. */
  lemma ParseOfPartsAt(s: string, run: string, i: nat, text: string)
    requires Search(s, "booked by ", IsNameChar) == Some(run)
    requires SearchMembers(s, 0) == Some(i) && MembersAt(s, i) == Some(text)
    ensures ParseBookingMessage(s) == (Some(Strip(run)), AttendeeNames(text))
  {
  }

  /** ` for member` does not start inside the organiser's name. */
  lemma ForMemberNotInName(name: string, group: string, p: nat)
    requires PlainName(name) && !Contains(name, "member")
    requires p < |name|
    ensures !OccursAt(name + " for members of " + group, p, " for member")
  {
    var head := name + " for members of ";
    var run := head + group;
    var n := |name|;
    if OccursAt(run, p, " for member") {
      if p + 11 <= n {
        OccursLeft(head, group, p, " for member");
        OccursLeft(name, " for members of ", p, " for member");
        assert OccursAt(" for member", 5, "member");
        OccursWithin(name, p, " for member", 5, "member");
      } else {
        OccursCovers(run, p, " for member", n);
        OccursCovers(run, p, " for member", n + 1);
      }
    }
  }

  /** The organiser run of a well-formed notice is cut exactly after the organiser's name. */
  lemma CutAtGroupOfBooking(name: string, group: string)
    requires PlainName(name) && !Contains(name, "member")
    ensures CutAtGroup(name + " for members of " + group) == name
  {
    var head := name + " for members of ";
    var run := head + group;
    assert OccursAt(" for members of ", 0, " for member");
    OccursIn(name, " for members of ", 0, " for member");
    OccursIn(head, group, |name|, " for member");
    forall p | 0 <= p < |name| ensures !OccursAt(run, p, " for member") {
      ForMemberNotInName(name, group, p);
    }
    CutIsFirst(run, |name|);
    assert run[..|name|] == name;
  }

  /** The cut falls at the first ` for member`. */
  lemma CutIsFirst(run: string, n: nat)
    requires OccursAt(run, n, " for member")
    requires forall p :: 0 <= p < n ==> !OccursAt(run, p, " for member")
    ensures CutAtGroup(run) == run[..n]
  {
    assert Contains(run, " for member");
  }

  /** Read with the organiser cut, a notice gives back the organiser's name and every attendee, stripped. */
  lemma ParseFixedReadsNotice(lead: string, name: string, group: string, attendees: seq<string>)
    requires PlainLead(lead) && NoticeParts(name, group, attendees)
    ensures ParseBookingMessageFixed(lead + BookingMessage(name, group, attendees)) == (Some(name), StripAll(attendees))
  {
    OrganiserSwallowsGroup(lead, name, group, attendees);
    OrganiserRunOfBooking(lead, name, group, attendees);
    CutAtGroupOfBooking(name, group);
    StripNoop(name);
  }

  /** Read with the organiser cut, a notice with unpadded attendee names gives back exactly its organiser and attendees. */
  lemma ParseFixedRoundTrip(lead: string, name: string, group: string, attendees: seq<string>)
    requires PlainLead(lead) && WellFormedBooking(name, group, attendees)
    ensures ParseBookingMessageFixed(lead + BookingMessage(name, group, attendees)) == (Some(name), attendees)
  {
    ParseFixedReadsNotice(lead, name, group, attendees);
    StripAllUnpadded(attendees);
  }
}

=== FILE: wrappers.dfy ===
/** Optional values: Python's `None` versus a present value. */
module Wrappers {

  datatype Option<+T> = None | Some(value: T) {

    /** The value, or `default` when absent (Python's `d.get(k, default)`). */
    function GetOr(default: T): T {
      match this
      case Some(v) => v
      case None => default
    }
  }

  /** Python truthiness of an optional string: present and non-empty. */
  predicate Truthy(s: Option<string>) {
    s.Some? && |s.value| > 0
  }
}
